=== FILE: README.md ===
# jcrbox core, modelled in Dafny

jcrbox describes a JCR (Java Content Repository, JSR 283) content model with Java enums. Each
enum constant is a "literal" that stands for a node type, a property or a child-node definition.
Annotations on the constant and its enclosing classes supply the namespace, the definition
record, the schema and the query root. This project models the pure core of that library:

- **Paths** (`paths.dfy`, `path_laws.dfy`). A `Path` is an absolute flag plus a sequence of
  `Element(ns, name)`. The model covers:
  - the one-cursor parser over the expanded `{uri}local` and qualified `prefix:local` forms
    (section 3.2.5 of JSR 283), with the namespace registry as a partial map;
  - the two renderings;
  - `parent`, `absolute`, `relative`, `child` and equality.
  The laws file proves the round trip `Parse(Render(p)) == p` and the parser's edge cases.
- **Literal identity** (`enum_names.dfy`, `literals.dfy`):
  - camel-casing of `UPPER_SNAKE` names;
  - the walking namespace lookup of `jcrbox.literal` and the non-walking one of `jcrbox`;
  - `{ns}basename` fullnames and the query path.
  Class nesting is an explicit chain of `Scope` records, innermost first; the empty chain is the
  end of the `getEnclosingClass` walk. A constant with its own body has an extra, untagged
  anonymous scope in front of its runtime class. An enum type also carries its package, so two
  enums with the same nesting and names in different packages are different types.
- **Schema compiler** (`node_types.dfy`, `properties.dfy`, `children.dfy`): from a literal, its
  optional definition record and its capability overrides to a node-type, property or child
  template. Template fields are `Option`s, so "written" and "left alone" differ.
- **Selector names** (`selectors.dfy`): the default strategy, schema resolution with the implicit
  single-type schema and its two caches, and the older per-enum `selectorName`.
- **RangedIterator.OfList** (`ranged_iterator.dfy`): a `long` position over a list.

Support modules: `wrappers.dfy` (Option, Result), `text.dfy` (ASCII case mapping, `String.trim`,
`StringUtils.isBlank`, `Stream.distinct`, `Collectors.joining`, decimal rendering of an int),
`memo.dfy` (`Map.computeIfAbsent` over a pure function), `java_ints.dfy` (`int`/`long` narrowing
and wrapping addition).

## Model

| member | source | states |
|---|---|---|
| Paths.NewElement | core/src/main/java/jcrbox/Path.java:57-61 | the name is kept as given and the namespace is trimmed, with null becoming "" |
| Text.Trim | core/src/main/java/jcrbox/literal/JcrNamespace.java:53 | trimmed, unchanged when already trimmed, and a slice of its input |
| Text.TrimRemovesOnlyEnds | core/src/main/java/jcrbox/literal/JcrNamespace.java:53 | the result is the slice between the leading and trailing runs of characters up to U+0020, and only those runs are removed |
| Paths.Element.ToString | core/src/main/java/jcrbox/Path.java:89-92 | an element without namespace renders as its bare name, otherwise as `{uri}name` |
| Paths.Element.ToStringWith | core/src/main/java/jcrbox/Path.java:101-110 | `prefix:name` when the registry knows the URI, the bare name without namespace, and `{uri}name` when the lookup fails |
| Paths.Builder.Absolute | core/src/main/java/jcrbox/Path.java:133-146 | sets the flag and keeps the elements collected so far |
| Paths.Builder.Next | core/src/main/java/jcrbox/Path.java:155-158 | appends exactly one element, built through the element constructor, after the existing ones |
| Paths.Builder.NextName | core/src/main/java/jcrbox/Path.java:166-168 | appends an element with an empty namespace |
| Paths.Builder.Get | core/src/main/java/jcrbox/Path.java:173-176 | the built path has the builder's flag and elements |
| Paths.Path.Parent | core/src/main/java/jcrbox/Path.java:338-343 | the empty path is its own parent; otherwise the parent keeps the flag and appending the last element restores the path |
| Paths.Path.ToAbsolute | core/src/main/java/jcrbox/Path.java:350-352 | the same elements made absolute, and the path itself when already absolute |
| Paths.Path.ToRelative | core/src/main/java/jcrbox/Path.java:359-361 | the same elements made relative, and the path itself when already relative |
| Paths.Path.Child | core/src/main/java/jcrbox/Path.java:423-425 | a builder that, built at once, gives back the path |
| Paths.Path.ToString | core/src/main/java/jcrbox/Path.java:282-287 | an absolute path renders with a leading `/`; the empty paths render as `/` and `""` |
| Paths.Path.ToStringWith | core/src/main/java/jcrbox/Path.java:401-416 | the same shape as `toString()`: a leading `/` when absolute, the empty paths rendered alike, and a single element rendered through the registry |
| Paths.Find | core/src/main/java/jcrbox/Path.java:236-245 | the index of the first stop character at or after the start, or the length when there is none |
| Paths.FindSkips | core/src/main/java/jcrbox/Path.java:236-245 | no character before the index found is a stop character |
| Paths.SegmentNamespace | core/src/main/java/jcrbox/Path.java:205-234 | an unqualified segment leaves the cursor where it was; an unterminated `{` fails with "Malformed uri" at the segment start |
| Paths.ParseSegments | core/src/main/java/jcrbox/Path.java:196-202 | at the end of the input no element is added; it never fails with the empty-path error; without a registry the unknown-prefix error cannot occur (the missing-registry error can). That every namespace is trimmed is stated by `Paths.SegmentsTrimmed` |
| Paths.SegmentsTrimmed | core/src/main/java/jcrbox/Path.java:196-202 | every namespace of the parsed elements is trimmed |
| Paths.Parse | core/src/main/java/jcrbox/Path.java:191-195 | the empty string, and only it, fails with the empty-path error; a parsed path is absolute iff the input starts with `/`; `"/"` is the absolute empty path |
| PathLaws.ReadBack | core/src/main/java/jcrbox/Path.java:191-245 | parsing the rendering of a non-empty or absolute path, with a registry that reads back what was rendered, gives the path back |
| PathLaws.ToStringRoundTrip | core/src/main/java/jcrbox/Path.java:282-287 | `parse(null, p.toString()) == p` for every absolute or non-empty path whose names are non-empty and free of `/`, `:`, `{`, and whose URIs hold no `}` |
| PathLaws.ToStringWithRoundTrip | core/src/main/java/jcrbox/Path.java:401-416 | the same round trip through the prefixed rendering and a registry whose two directions agree |
| PathLaws.EmptyRegistryRendersPlain | core/src/main/java/jcrbox/Path.java:401-416 | a registry that maps no URI renders every path exactly as `toString()` does |
| PathLaws.PrefixedAndExpandedAgree | core/src/main/java/jcrbox/Path.java:216-227 | `ns:a` and `{http://x}a` read as the same path when `ns` maps to `http://x` |
| PathLaws.UnterminatedUri | core/src/main/java/jcrbox/Path.java:208-212 | a first segment that opens `{` and never closes it fails with "Malformed uri" at that position, whatever the registry |
| PathLaws.QualifiedSegment | core/src/main/java/jcrbox/Path.java:216-227 | a colon before any `/` makes the text before it a prefix: with no registry the parse fails naming it, an unknown prefix fails naming it, and a known one gives the trimmed URI as namespace |
| PathLaws.UnqualifiedSegment | core/src/main/java/jcrbox/Path.java:216-233 | a segment with no colon before `/` or the end is a plain name with namespace "" |
| PathLaws.NamespaceIgnoresTrailingSlash | core/src/main/java/jcrbox/Path.java:205-234 | a `/` appended at the end does not change how a segment's namespace is read |
| PathLaws.SegmentsIgnoreTrailingSlash | core/src/main/java/jcrbox/Path.java:196-201 | a `/` appended at the end adds no element |
| PathLaws.TrailingSlashIgnored | core/src/main/java/jcrbox/Path.java:196-201 | `parse(s + "/") == parse(s)` whenever `s` does not already end with `/` |
| PathLaws.EmptyNamesKept | core/src/main/java/jcrbox/Path.java:236-245 | `"a//b"` parses to three elements, the middle one with an empty name |
| PathLaws.ChildThenParent | core/src/main/java/jcrbox/Path.java:423-425 | adding one element through `child()` and taking the parent gives the path back |
| PathLaws.AbsoluteRelativeLaws | core/src/main/java/jcrbox/Path.java:350-361 | `absolute()` and `relative()` are idempotent, each undoes the other's flag, and neither changes emptiness |
| PathLaws.ParentOfParsed | core/src/main/java/jcrbox/Path.java:338-343 | the parent of `/a/b` is `/a`, and `/` is its own parent |
| PathLaws.ElementListEqualsIsEquality | core/src/main/java/jcrbox/Path.java:67-76 | comparing element lists pairwise on namespace and name is equality of the lists |
| PathLaws.PathEqualsIsEquality | core/src/main/java/jcrbox/Path.java:367-376 | path equality on (flag, elements) is equality of the values |
| EnumNames.Fields | core/src/main/java/jcrbox/util/EnumHelper.java:42-45 | the `_`-free tokens, one for a name with no underscore |
| EnumNames.JavaSplit | core/src/main/java/jcrbox/util/EnumHelper.java:42-45 | the whole name when it holds no `_`, otherwise tokens that hold no `_` |
| EnumNames.CapitalizeFully | core/src/main/java/jcrbox/util/EnumHelper.java:42-45 | the first letter upper-cased and every other letter lower-cased, length kept |
| EnumNames.Uncapitalize | core/src/main/java/jcrbox/util/EnumHelper.java:42-45 | only the first character is lower-cased |
| EnumNames.CamelCase | core/src/main/java/jcrbox/util/EnumHelper.java:42-45 | every character but the underscores is kept, so the result is the name's length less its underscores |
| EnumNames.UnderscoreDelimitedToCamelCase | core/src/main/java/jcrbox/util/EnumHelper.java:42-45 | null in, null out; otherwise the camel case, never longer than the input |
| EnumNames.ScanLength | core/src/main/java/jcrbox/util/EnumHelper.java:42-45 | the camel-cased text is as long as the input without its underscores |
| EnumNames.CamelCaseMatchesScan | core/src/main/java/jcrbox/util/EnumHelper.java:42-45 | split, capitalize, join and uncapitalize equals one left-to-right pass that drops `_` and upper-cases only a letter right after one |
| EnumNames.CamelCaseOfSingleWord | core/src/main/java/jcrbox/util/EnumHelper.java:53-55 | a name without underscores is just lower-cased (`STATUS` to `status`) |
| EnumNames.CamelCaseTwoWords | core/src/main/java/jcrbox/util/EnumHelper.java:42-45 | `A_B` is lower-cased `A` followed by capitalized `B` (`ORDER_DATE` to `orderDate`) |
| EnumNames.CamelCaseUnderscores | core/src/main/java/jcrbox/util/EnumHelper.java:42-45 | for any text, a doubled `_` reads as one, and a leading or trailing `_` changes nothing (`A__B` to `aB`, `_A` to `a`) |
| EnumNames.CamelCaseOfUnderscores | core/src/main/java/jcrbox/util/EnumHelper.java:42-45 | a name made only of underscores camel-cases to the empty string |
| EnumNames.InitialsAreFirstChars | core/src/main/java/jcrbox/schema/DefaultSelectorNameStrategy.java:44 | the initials are the first characters of the non-empty `_`-tokens, in order |
| EnumNames.SelectorInitials | core/src/main/java/jcrbox/schema/DefaultSelectorNameStrategy.java:44 | no longer than the name and never holding `_` |
| EnumNames.SelectorInitialsOfWord | core/src/main/java/jcrbox/schema/DefaultSelectorNameStrategy.java:44 | a name without `_` has its lower-cased first character as initials (`CAT` and `C` give `c`) |
| EnumNames.SelectorInitialsTwoWords | core/src/main/java/jcrbox/schema/DefaultSelectorNameStrategy.java:44 | two words joined by one `_` give the lower-cased first character of each (`ORDER_DATE` gives `od`, `C_2` gives `c2`) |
| EnumNames.SelectorInitialsOfUnderscores | core/src/main/java/jcrbox/schema/DefaultSelectorNameStrategy.java:44 | a name made only of underscores has no initials |
| Memo.ComputeIfAbsent | core/src/main/java/jcrbox/literal/JcrNamespace.java:51-54 | the answer is what the function computes, the cache only gains the key, and a cached key leaves the cache alone |
| Memo.RepeatedLookup | core/src/main/java/jcrbox/JcrNamespace.java:51-54 | a second lookup returns the same value and leaves the cache unchanged |
| Literals.RuntimeClass | core/src/main/java/jcrbox/literal/JcrLiteral.java:64-66 | a constant with a body has an untagged anonymous class nested in its enum; otherwise the runtime class is the enum |
| Literals.AsEnum | core/src/main/java/jcrbox/literal/JcrLiteral.java:34-36 | the literal itself, with its own name |
| Literals.Namespace | core/src/main/java/jcrbox/literal/JcrLiteral.java:43-45 | trimmed, and the same as the lookup from the runtime class, so a constant body changes nothing |
| Literals.Basename | core/src/main/java/jcrbox/literal/JcrLiteral.java:53-55 | as long as the constant name without its underscores; a name without `_` is just lower-cased |
| Literals.Fullname | core/src/main/java/jcrbox/literal/JcrLiteral.java:64-66 | the basename when `namespace()` is empty, `{namespace}basename` otherwise |
| Literals.FindNamespaceScope | core/src/main/java/jcrbox/literal/JcrNamespace.java:69-78 | the innermost scope with a namespace tag, every scope inside it untagged; none when no scope is tagged |
| Literals.GetNamespace | core/src/main/java/jcrbox/literal/JcrNamespace.java:51-54 | the result is trimmed |
| Literals.Format | core/src/main/java/jcrbox/literal/JcrNamespace.java:64-67 | the basename when the namespace is blank, else `{ns}basename` |
| Literals.GetNamespaceCached | core/src/main/java/jcrbox/literal/JcrNamespace.java:52 | the cached lookup agrees with the uncached one and keeps the cache consistent |
| Literals.NearestNamespaceWins | core/src/main/java/jcrbox/literal/JcrNamespace.java:69-78 | the nearest tag, trimmed, is the namespace, and scopes outside it never matter |
| Literals.NoNamespaceMeansBasename | core/src/main/java/jcrbox/literal/JcrNamespace.java:53 | with no tag anywhere in the chain the namespace is "" and the fullname is the basename |
| Literals.UnannotatedScopeIsTransparent | core/src/main/java/jcrbox/literal/JcrLiteral.java:64-66 | an untagged scope in front (a constant body) does not change the namespace, so fullname and namespace agree |
| Literals.FullnameIsElement | core/src/main/java/jcrbox/literal/JcrLiteral.java:43-66 | the fullname is the rendering of the path element (namespace, basename) |
| Literals.FullnameParses | core/src/main/java/jcrbox/literal/JcrLiteral.java:64-66 | the fullname parses back to the one-element relative path of that element |
| Literals.LegacyGetNamespace | core/src/main/java/jcrbox/JcrNamespace.java:51-54 | trimmed, and "" unless the class itself is tagged: enclosing classes are never consulted |
| Literals.LegacyIgnoresEnclosing | core/src/main/java/jcrbox/JcrNamespace.java:51-54 | only the class's own tag counts: enclosing classes change nothing, and an untagged class gives "" where the walking lookup takes the enclosing tag |
| Literals.LegacyGetNamespaceCached | core/src/main/java/jcrbox/JcrNamespace.java:52 | the cached lookup agrees with the uncached one and keeps the cache consistent |
| Literals.LegacyFormat | core/src/main/java/jcrbox/JcrNamespace.java:63-66 | the basename when the class's own namespace is blank, else `{ns}basename` |
| Literals.LegacyNamespace | core/src/main/java/jcrbox/JcrLiteral.java:26-28 | trimmed; without a constant body it is the namespace the older fullname looks up |
| Literals.LegacyFullname | core/src/main/java/jcrbox/JcrLiteral.java:47-49 | without a body, the path element of the enum's own namespace and the basename; with a body, the bare basename |
| Literals.RenderName | core/src/main/java/jcrbox/EnumHelper.java:39-43 | the rendering of the element (declaring enum's own namespace, camel-cased name) |
| Literals.LegacyFullnameWithoutBody | core/src/main/java/jcrbox/JcrLiteral.java:47-49 | without a body, the older fullname is renderName, that is the element rendering |
| Literals.LegacyFullnameDropsNamespace | core/src/main/java/jcrbox/JcrLiteral.java:47-49 | with a body, the older fullname is the bare basename, which differs from renderName whenever the enum has a namespace |
| Literals.QueryScopes | core/src/main/java/jcrbox/query/JcrQuery.java:56-63 | the walk is a prefix of the chain, stops at and includes the first path root, and reaches the top level only when there is none |
| Literals.PushedSegments | core/src/main/java/jcrbox/query/JcrQuery.java:55-62 | pushing while walking outward leaves the outermost segment first |
| Literals.JoinRendersElements | core/src/main/java/jcrbox/query/JcrQuery.java:64 | joining rendered segments with `/` is rendering the element list |
| Literals.QueryPath | core/src/main/java/jcrbox/query/JcrQuery.java:54-65 | always starts with `/`, and is `/` alone when no class is walked |
| Literals.QueryPathIsPath | core/src/main/java/jcrbox/query/JcrQuery.java:54-65 | the query path is the absolute path of the walked scopes' elements, outermost first, each qualified only by its own tag |
| Literals.QueryPathParses | core/src/main/java/jcrbox/query/JcrQuery.java:54-65 | the query path parses back to that absolute path |
| Literals.NestedQueryPath | core/src/main/java/jcrbox/query/JcrQuery.java:54-65 | a query class nested in a path root gives `/{ns}Root/Query`, the shape of the test layout's `Queries/VerifiedCustomers` |
| NodeTypes.AnnotatedSupertypes | core/src/main/java/jcrbox/literal/JcrNode.java:109-117 | without a record the declared supertypes are empty |
| NodeTypes.MergeNames | core/src/main/java/jcrbox/literal/JcrNode.java:119-121 | exactly the declared and capability names, without duplicates |
| NodeTypes.Apply | core/src/main/java/jcrbox/literal/JcrNode.java:107-127 | the name is written; the five record fields are copied iff a record is present and untouched otherwise; supertypes are written iff the merged list is non-empty |
| NodeTypes.Configure | core/src/main/java/jcrbox/literal/JcrNode.java:107-108 | the node type is named by the literal's (walking) fullname |
| NodeTypes.LegacyConfigure | core/src/main/java/jcrbox/JcrNode.java:108-109 | the node type is named by the older (non-walking) fullname |
| NodeTypes.MergeKeepsDeclaredFirst | core/src/main/java/jcrbox/literal/JcrNode.java:119-121 | the declared names come first, first occurrences in order, followed by exactly the capability names not declared |
| NodeTypes.MergeOfDistinctDeclared | core/src/main/java/jcrbox/literal/JcrNode.java:119-121 | declared names without repeats and no capabilities pass through unchanged |
| NodeTypes.PlainConstantWritesOnlyName | core/src/main/java/jcrbox/literal/JcrNode.java:110-125 | a constant with no record and no capability supertypes writes its name and nothing else |
| NodeTypes.AnnotatedSupertypeWritten | core/src/main/java/jcrbox/JcrNode.java:108-129 | the test layout's `INVOICE`, a `jcrbox.JcrNode` constant, gets exactly the supertype `nt:resource` from the older configure, with the record defaults (queryable, not abstract, not mixin, not orderable) |
| NodeTypes.LegacyAgreesWithoutBodies | core/src/main/java/jcrbox/JcrNode.java:108-129 | without constant bodies, and where the two namespace lookups agree, both configure methods write the same template |
| Properties.Validate | core/src/main/java/jcrbox/literal/JcrProperty.java:244-254 | succeeds iff a record is present and obeys the three rules; a missing record and enum-with-constraints fail with their own errors |
| Properties.ConstantNames | core/src/main/java/jcrbox/literal/JcrProperty.java:275 | the enum's constant names in declaration order |
| Properties.DefaultValueNames | core/src/main/java/jcrbox/literal/JcrProperty.java:285-287 | exactly the names of the constants marked as default value |
| Properties.AllDefaultValuesListed | core/src/main/java/jcrbox/literal/JcrProperty.java:290-307 | a value is among those the five loops create iff the record lists it |
| Properties.Defaults | core/src/main/java/jcrbox/literal/JcrProperty.java:282-307 | for one enum, at most one value per constant; otherwise no value twice |
| Properties.DefaultsAreListed | core/src/main/java/jcrbox/literal/JcrProperty.java:282-307 | for one enum, exactly the string values of the constants marked as default value; otherwise exactly the values the record lists |
| Properties.WhenNotEmpty | core/src/main/java/jcrbox/literal/JcrProperty.java:259-263 | an array is written only when non-empty |
| Properties.WhenNotNegative | core/src/main/java/jcrbox/literal/JcrProperty.java:265-269 | an int is written only when not negative, so `MIN_VALUE` leaves the field alone |
| Properties.Constraints | core/src/main/java/jcrbox/literal/JcrProperty.java:271-280 | one enum forces type STRING; otherwise the type is untouched; no flag changes |
| Properties.CopyFlags | core/src/main/java/jcrbox/literal/JcrProperty.java:318-323 | the six flags copied verbatim, nothing else touched |
| Properties.HandleGuarded | core/src/main/java/jcrbox/literal/JcrProperty.java:324-326 | query operators written when given, onParentVersion and the type when not negative |
| Properties.ApplyDefinition | core/src/main/java/jcrbox/literal/JcrProperty.java:317-329 | flags, guarded fields and default values as the record says; the default values are always written |
| Properties.Configure | core/src/main/java/jcrbox/literal/JcrProperty.java:311-330 | fails iff validation fails, with the same error and before anything is written; on success the name is the fullname |
| Properties.ValidationOrder | core/src/main/java/jcrbox/literal/JcrProperty.java:247-253 | the rules are reported in the order mutual exclusion, string type, count |
| Properties.EnumConstrainedProperty | core/src/main/java/jcrbox/literal/JcrProperty.java:271-288 | one enum gives type STRING, the constant names as constraints (when there are any) and the default-marked names as string default values |
| Properties.PlainProperty | core/src/main/java/jcrbox/literal/JcrProperty.java:277-307 | without an enum the type and constraints come from the record when set, and the default values hold each listed value exactly once |
| Properties.InvoiceStatusDefault | core/src/main/java/jcrbox/literal/JcrProperty.java:271-330 | a property annotated like the test layout's `STATUS` (one enum shaped like `InvoiceStatus`, `autoCreated`), configured by `jcrbox.literal.JcrProperty`, gets type STRING, the four status names as constraints and `CREATED` as its one default |
| Children.AnnotatedDefault | core/src/main/java/jcrbox/JcrChild.java:141-142 | a declared default counts only when not blank |
| Children.Candidates | core/src/main/java/jcrbox/JcrChild.java:139-142 | the set of the capability fullname and the non-blank declared name |
| Children.CapabilityDefault | core/src/main/java/jcrbox/JcrChild.java:140 | present iff the capability names a default type, and then its older fullname, the element rendering of its own namespace and basename when it has no body |
| Children.RequiredNames | core/src/main/java/jcrbox/JcrChild.java:134-135 | the merged required names hold no duplicates |
| Children.ApplyFlags | core/src/main/java/jcrbox/JcrChild.java:121-132 | the four flags copied from a record, onParentVersion only when not negative, nothing without a record |
| Children.ResolveDefault | core/src/main/java/jcrbox/JcrChild.java:139-157 | resolving the default primary type fails exactly when both a capability default and a declared default are given and they differ |
| Children.Assemble | core/src/main/java/jcrbox/JcrChild.java:114-158 | the name, the merged required names and the resolved default are written, and the record's flags stay as they were copied |
| Children.Configure | core/src/main/java/jcrbox/JcrChild.java:114-161 | fails iff both defaults are given and differ; otherwise the name, the required names and a (possibly null) default are written, and a record's four flags and non-negative onParentVersion are copied, with nothing changed when there is no record |
| Children.DefaultFromCandidates | core/src/main/java/jcrbox/JcrChild.java:144-157 | no candidate: the sole required type or null; one: that candidate; two: the error naming both |
| Children.BlankDefaultIgnored | core/src/main/java/jcrbox/JcrChild.java:141-142 | a blank declared default neither conflicts with nor overrides the capability's default |
| Children.RequiredTypesMerged | core/src/main/java/jcrbox/JcrChild.java:134-137 | required types are the declared names first, then exactly the capability fullnames, always written |
| Children.BareChild | core/src/main/java/jcrbox/JcrChild.java:158-181 | a child with no record and default capabilities gets its name, no required types and a null default, and nothing else |
| Selectors.Suffix | core/src/main/java/jcrbox/schema/DefaultSelectorNameStrategy.java:46 | all digits, and empty exactly for the first source |
| Selectors.Numbered | core/src/main/java/jcrbox/schema/DefaultSelectorNameStrategy.java:46 | starts with the initials and equals them exactly for the first source |
| Selectors.Put | core/src/main/java/jcrbox/schema/DefaultSelectorNameStrategy.java:44-46 | only the source's count goes up, by one; the source is named by its new count; earlier names stay |
| Selectors.InitialsOf | core/src/main/java/jcrbox/schema/DefaultSelectorNameStrategy.java:44 | no longer than the constant name, never holding `_`, and one lower-cased character for a one-word name |
| Selectors.Run | core/src/main/java/jcrbox/schema/DefaultSelectorNameStrategy.java:43-47 | after the loop the result map has an entry for exactly the sources |
| Selectors.GenerateSelectors | core/src/main/java/jcrbox/schema/DefaultSelectorNameStrategy.java:39-49 | every source gets exactly one entry and nothing else does |
| Selectors.RunCounts | core/src/main/java/jcrbox/schema/DefaultSelectorNameStrategy.java:45 | after the loop each count is the number of sources with those initials |
| Selectors.GenerateSelectorsMeaning | core/src/main/java/jcrbox/schema/DefaultSelectorNameStrategy.java:43-47 | the i-th source is named by its initials and how many of the first i + 1 sources share them |
| Selectors.NamesStartWithInitials | core/src/main/java/jcrbox/schema/DefaultSelectorNameStrategy.java:46 | every name starts with its source's initials |
| Selectors.NoOccurrences | core/src/main/java/jcrbox/schema/DefaultSelectorNameStrategy.java:45 | a zero count means no source has those initials |
| Selectors.BareInitialsGoToFirst | core/src/main/java/jcrbox/schema/DefaultSelectorNameStrategy.java:43-46 | a source gets its bare initials iff no earlier source in iteration order shares them |
| Selectors.LaterCountsHigher | core/src/main/java/jcrbox/schema/DefaultSelectorNameStrategy.java:45 | a later source with the same initials gets a higher count |
| Selectors.InitialsHaveNoDigits | core/src/main/java/jcrbox/schema/DefaultSelectorNameStrategy.java:44 | when no token starts with a digit the initials hold no digit |
| Selectors.SplitUnique | core/src/main/java/jcrbox/schema/DefaultSelectorNameStrategy.java:46 | a digit-free text followed by digits splits one way only |
| Selectors.SuffixInjective | core/src/main/java/jcrbox/schema/DefaultSelectorNameStrategy.java:46 | different counts give different suffixes |
| Selectors.NamesDistinct | core/src/main/java/jcrbox/schema/DefaultSelectorNameStrategy.java:43-47 | two sources whose tokens never start with a digit get different names |
| Selectors.SelectorsApart | core/src/main/java/jcrbox/schema/DefaultSelectorNameStrategy.java:43-47 | two different sources whose tokens never start with a digit get different names, whichever comes first |
| Selectors.CountCollidesWithDigit | core/src/main/java/jcrbox/schema/DefaultSelectorNameStrategy.java:44-46 | a second source with initials `i` and a source with initials `i2` both get `i2` |
| Selectors.DigitTokensCollide | core/src/main/java/jcrbox/schema/DefaultSelectorNameStrategy.java:44-46 | `C`, `CAT`, `C_2` in that order: `CAT` and `C_2` are both named `c2` |
| Selectors.GenerateSelectorsAsWritten | core/src/main/java/jcrbox/schema/DefaultSelectorNameStrategy.java:41-48 | the natural-order map accepts the sources iff all are constants of one enum, and then holds the intended names |
| Selectors.FindSchema | core/src/main/java/jcrbox/schema/Schemae.java:56-63 | the innermost schema tag walking outward, none when no scope is tagged |
| Selectors.ImplicitSchema | core/src/main/java/jcrbox/schema/Schemae.java:88-116 | the source type as its only member, with the default strategy |
| Selectors.Schema | core/src/main/java/jcrbox/schema/Schemae.java:56-65 | the nearest tag, and the implicit schema when there is none |
| Selectors.MemberLiterals | core/src/main/java/jcrbox/schema/Schemae.java:82-83 | exactly the constants of one member type |
| Selectors.Sources | core/src/main/java/jcrbox/schema/Schemae.java:79-86 | exactly the constants of all member types, each once |
| Selectors.SelectorNames | core/src/main/java/jcrbox/schema/Schemae.java:67-76 | an uninstantiable strategy fails naming its class; the default strategy names the schema's sources |
| Selectors.GetSelectorNames | core/src/main/java/jcrbox/schema/Schemae.java:51-54 | a null type is rejected; otherwise the answer is that of the resolved schema, and the caches stay consistent and remember each success |
| Selectors.SharedSchemaSharesNames | core/src/main/java/jcrbox/schema/Schemae.java:51-54 | two source types resolving to one schema get the same table, whatever the caches held |
| Selectors.DefaultStrategyNamesAllSources | core/src/main/java/jcrbox/schema/Schemae.java:75 | the intended default strategy names exactly the schema's constants, of one enum or several |
| Selectors.ImplicitSchemaCoversOwnConstants | core/src/main/java/jcrbox/schema/Schemae.java:64 | with no tag around a type, its names cover exactly its own constants |
| Selectors.ExplicitSchemaMayOmitSource | core/src/main/java/jcrbox/schema/Schemae.java:79-86 | a schema that does not list the source type leaves that type's constants unnamed |
| Selectors.ImplicitSchemaIsSingleEnum | core/src/main/java/jcrbox/schema/Schemae.java:107-108 | the implicit schema's sources are of one enum |
| Selectors.TwoEnumSchemaFails | core/src/main/java/jcrbox/schema/DefaultSelectorNameStrategy.java:41 | a schema of two enums with constants fails with a class-cast error as written |
| Selectors.SameSimpleNameDifferentPackages | core/src/main/java/jcrbox/schema/DefaultSelectorNameStrategy.java:41-46 | two enums differing only in their package are two schema members: the constants of both are sources, the natural-order map fails on them, and the intended names keep them apart |
| Selectors.Mnemonic | core/src/main/java/jcrbox/JcrNode.java:151-152 | one character, a prefix of the lower-cased name |
| Selectors.SelectorNameAmong | core/src/main/java/jcrbox/JcrNode.java:150-160 | the mnemonic or the whole lower-cased name, a prefix of the latter in either case; which of the two is given by `Selectors.LegacySelectorNameRule` |
| Selectors.LegacySelectorNameAsWritten | core/src/main/java/jcrbox/JcrNode.java:150-160 | fails iff the constant has a body, and otherwise agrees with the corrected form |
| Selectors.LegacySelectorName | core/src/main/java/jcrbox/JcrNode.java:150-160 | a prefix of the lower-cased constant name; which one is given by `Selectors.LegacySelectorNameRule` |
| Selectors.LegacySelectorNameRule | core/src/main/java/jcrbox/JcrNode.java:141-160 | a constant is named by its one-letter mnemonic when no other constant of its enum shares that mnemonic, and by its whole lower-cased name when another does |
| Selectors.LegacySelectorNameFailsWithBody | core/src/main/java/jcrbox/JcrNode.java:154-157 | a constant with a body gets a null pointer failure |
| Selectors.LegacySelectorNamesDistinct | core/src/main/java/jcrbox/JcrNode.java:150-160 | two constants with different lower-cased names get different selector names |
| JavaInts.ToInt32 | core/src/main/java/jcrbox/RangedIterator.java:137 | identity within the int range, and congruent modulo 2^32 outside it |
| JavaInts.AddInt64 | core/src/main/java/jcrbox/RangedIterator.java:164 | exact when in range, congruent modulo 2^64 otherwise |
| RangedIterators.ListIterator.Size | core/src/main/java/jcrbox/RangedIterator.java:155-157 | the list length, whatever the position |
| RangedIterators.ListIterator.HasNext | core/src/main/java/jcrbox/RangedIterator.java:127-129 | true exactly when next() would return an element or the position is negative, where next() still throws |
| RangedIterators.ListIterator.IsEmpty | core/src/main/java/jcrbox/RangedIterator.java:171-173 | true exactly when a fresh iterator over the list has no next element, whatever the position |
| RangedIterators.ListIterator.Stream | core/src/main/java/jcrbox/RangedIterator.java:179-181 | the whole list from its first element |
| RangedIterators.ListIterator.Skip | core/src/main/java/jcrbox/RangedIterator.java:163-165 | adds the count to the position with no bounds check, list unchanged |
| RangedIterators.ListIterator.NextAsWritten | core/src/main/java/jcrbox/RangedIterator.java:135-141 | the position always moves on by one; within the int range it agrees with the corrected next |
| RangedIterators.ListIterator.Next | core/src/main/java/jcrbox/RangedIterator.java:135-141 | an element iff the position is an index of the list, that element; the position moves on in both cases |
| RangedIterators.Of | core/src/main/java/jcrbox/RangedIterator.java:213-215 | starts at position 0, and has a next element iff the list is non-empty |
| RangedIterators.IsEmptyAgreesWithDefault | core/src/main/java/jcrbox/RangedIterator.java:171-173 | the list's emptiness equals the interface default `size < 1` and ignores the position |
| RangedIterators.StreamIgnoresPosition | core/src/main/java/jcrbox/RangedIterator.java:179-181 | skipping or reading leaves stream and size alone |
| RangedIterators.IterationYieldsList | core/src/main/java/jcrbox/RangedIterator.java:127-141 | reading a fresh iterator to the end yields every element in order and ends with no next element |
| RangedIterators.PositionCountsNextCalls | core/src/main/java/jcrbox/RangedIterator.java:135-149 | `position()` goes up by one with every call to `next()`, successful or not, while the `long` does not overflow |
| RangedIterators.NextPastEnd | core/src/main/java/jcrbox/RangedIterator.java:137-140 | past the end, next fails but the position still advances |
| RangedIterators.NextOnlyWhenHasNext | core/src/main/java/jcrbox/RangedIterator.java:127-141 | an element is returned only when hasNext holds |
| RangedIterators.NextAsWrittenWraps | core/src/main/java/jcrbox/RangedIterator.java:137 | a one-element list skipped by 2^32 has no next element, yet next as written returns the element |

## Left out

- Sessions, node creation, type registration and query execution: these are JCR I/O around the core.
- The namespace registry is a pair of finite maps. A failing `getURI` is an error; a failing `getPrefix` falls back to `{uri}`.
- `ValueFactory` is left out: values are tagged data, and `double` values are bit patterns with no floating-point meaning.
- Case mapping is ASCII only; Unicode case rules are not modelled.
- `EnumNames.UnderscoreDelimitedToCamelCase`: `WordUtils.capitalizeFully` and `uncapitalize` also start a word after whitespace; the model treats each `_` token as one word, so `"a _b"` gives `"a B"` where the source gives `"a b"`. Enum constant names hold no whitespace, so literal names are not affected.
- `Text.IsBlank`: `StringUtils.isBlank` tests `Character.isWhitespace`; the model knows only the ASCII whitespace characters. So `Literals.Format`, `Literals.LegacyFormat` and `Children.AnnotatedDefault` treat a namespace or default made of, say, U+3000 as not blank, where the source treats it as blank.
- Iteration order of a `HashSet` is fixed, because Java leaves it unspecified:
  - non-enum default values keep their first occurrence in loop order;
  - schema sources go member by member, in declaration order;
  - capability supertypes and required types are given as sequences.
- A custom selector strategy's output is a function parameter, because its code is not part of this model.
- The caches of the two namespace helpers and of `Schemae` are pure maps passed in and out; concurrency is not modelled.
- `Children.Configure`: when it fails, the template fields the source writes before it throws are not returned.
- The older `JcrLiteral.basename` calls an `EnumHelper.basename` that the older `EnumHelper` does not define. It is modelled with the camel-case rule of `util/EnumHelper`.
- The counts of `generateSelectors` are unbounded integers; overflow of `AtomicInteger` needs more than 2^31 sources and is not modelled.
- Error messages are modelled as error constructors carrying the data they name, not as text.
- `Literals.NestedQueryPath` states the query path of the test layout's `Queries.VerifiedCustomers` for any namespace and names. The literal URI string is not instantiated.
- The older `jcrbox.JcrProperty` interface, which the test layout's `Properties` enum implements, is not part of this model; only `jcrbox.literal.JcrProperty` is. `Properties.InvoiceStatusDefault` therefore describes a property annotated like `STATUS` under the newer interface, which collects defaults marked with its own `DefaultValue` annotation.
- `Properties.Configure` states only validation, the name and `autoCreated` in its own contract. The other fields are stated by `Properties.PlainProperty` and `Properties.EnumConstrainedProperty`.

## Findings

| source | as written | input that shows it | evidently intended | confidence | as-written member | corrected member |
|---|---|---|---|---|---|---|
| core/src/main/java/jcrbox/schema/DefaultSelectorNameStrategy.java:41 | the result map is a natural-order `TreeMap`, and `Enum.compareTo` throws `ClassCastException` for constants of different enums | a schema listing two enums, each with at least one constant | every constant of every member type gets a name | not executed | Selectors.TwoEnumSchemaFails | Selectors.DefaultStrategyNamesAllSources |
| core/src/main/java/jcrbox/JcrNode.java:156 | `getClass().getEnumConstants()` is null for a constant with its own body, so `Stream.of(null)` throws | any node constant declared with a class body | compare against the constants of the declaring enum | not executed | Selectors.LegacySelectorNameFailsWithBody | Selectors.LegacySelectorNamesDistinct |
| core/src/main/java/jcrbox/RangedIterator.java:137 | `(int) pos++` narrows the `long` position to its low 32 bits before indexing | a one-element list, `skip(4294967296)`, then `next()` | `next()` throws whenever `hasNext()` is false | not executed | RangedIterators.NextAsWrittenWraps | RangedIterators.NextOnlyWhenHasNext |

=== FILE: children.dfy ===
/**
 * JcrChild.configure: compiling a child-node literal and its optional `ChildNodeDefinition` into a
 * NodeDefinitionTemplate. JcrChild lives in the `jcrbox` package, so its own fullname and the
 * fullnames of the node types it names are the older, non-walking ones.
 */
module Children {
  import opened Wrappers
  import opened Text
  import opened Literals
  import opened JavaInts
  import NodeTypes

  /** The `ChildNodeDefinition` annotation. */
  datatype ChildNodeDefinition = ChildNodeDefinition(
    autoCreated: bool,
    mandatory: bool,
    onParentVersion: Int32,
    isProtected: bool,
    requiredPrimaryTypeNames: seq<string>,
    defaultPrimaryTypeName: string,
    sameNameSiblings: bool)

  /** `@ChildNodeDefinition` with every element left at its default. */
  const DefaultChildNodeDefinition: ChildNodeDefinition := ChildNodeDefinition(false, false, IntMinValue, false, [], "", false)

  /**
   * A child-node literal: the constant, its annotation if any, what getDefaultPrimaryType() returns
   * (null unless overridden) and what getRequiredPrimaryTypes() returns (empty unless overridden),
   * in iteration order.
   */
  datatype ChildLiteral = ChildLiteral(
    literal: Literal,
    definition: Option<ChildNodeDefinition>,
    defaultPrimaryType: Option<Literal>,
    requiredPrimaryTypes: seq<Literal>)

  /**
   * The fields of a NodeDefinitionTemplate that configure may write; `None` is never written. The
   * default primary type name may be written as null, hence its inner Option.
   */
  datatype ChildTemplate = ChildTemplate(
    name: Option<string>,
    autoCreated: Option<bool>,
    mandatory: Option<bool>,
    onParentVersion: Option<Int32>,
    isProtected: Option<bool>,
    sameNameSiblings: Option<bool>,
    requiredPrimaryTypeNames: Option<seq<string>>,
    defaultPrimaryTypeName: Option<Option<string>>)

  const EmptyTemplate: ChildTemplate := ChildTemplate(None, None, None, None, None, None, None, None)

  /** The IllegalStateException for two different default primary types; it names both. */
  datatype ChildError = MultipleDefaultPrimaryTypes(names: set<string>)

  /** The annotated default, kept only when it is not blank. */
  function AnnotatedDefault(definition: Option<ChildNodeDefinition>): (r: Option<string>)
    ensures r.Some? ==> !IsBlank(r.value)
    ensures definition.Some? && !IsBlank(definition.value.defaultPrimaryTypeName) ==> r == Some(definition.value.defaultPrimaryTypeName)
  {
    if definition.Some? && !IsBlank(definition.value.defaultPrimaryTypeName) then Some(definition.value.defaultPrimaryTypeName)
    else None
  }

  /**
   * The capability's default primary type, as an older fullname: for a node constant without a
   * body, its own namespace and basename rendered as a path element.
   */
  function CapabilityDefault(child: ChildLiteral): (r: Option<string>)
    ensures r.Some? <==> child.defaultPrimaryType.Some?
    ensures r.Some? ==> r.value == LegacyFullname(child.defaultPrimaryType.value)
    ensures r.Some? && !child.defaultPrimaryType.value.constant.hasBody ==>
      var node := child.defaultPrimaryType.value;
      r.value == Paths.Element(LegacyNamespace(node), Basename(node)).ToString()
  {
    if child.defaultPrimaryType.Some? then Some(LegacyFullname(child.defaultPrimaryType.value)) else None
  }

  /** The HashSet of default primary type candidates. */
  function Candidates(child: ChildLiteral): (r: set<string>)
    ensures forall x :: x in r <==> Some(x) == CapabilityDefault(child) || Some(x) == AnnotatedDefault(child.definition)
  {
    (if CapabilityDefault(child).Some? then {CapabilityDefault(child).value} else {})
    + (if AnnotatedDefault(child.definition).Some? then {AnnotatedDefault(child.definition).value} else {})
  }

  /** The required primary types: annotated names, then capability fullnames, first occurrences kept. */
  function RequiredNames(child: ChildLiteral): (r: seq<string>)
    ensures NoDuplicates(r)
  {
    NodeTypes.MergeNames(
      if child.definition.Some? then child.definition.value.requiredPrimaryTypeNames else [],
      Map(child.requiredPrimaryTypes, LegacyFullname))
  }

  /**
   * The default primary type: none given means the sole required type if there is exactly one,
   * else null; one name (from either source, or the same from both) is taken; two different
   * names are an error.
   */
  function ResolveDefault(capability: Option<string>, annotated: Option<string>, required: seq<string>): (r: Result<Option<string>, ChildError>)
    ensures r.Failure? <==> capability.Some? && annotated.Some? && capability != annotated
  {
    match (capability, annotated)
    case (None, None) => Success(if |required| == 1 then Some(required[0]) else None)
    case (Some(c), None) => Success(Some(c))
    case (None, Some(a)) => Success(Some(a))
    case (Some(c), Some(a)) =>
      if c == a then Success(Some(c)) else Failure(MultipleDefaultPrimaryTypes({c, a}))
  }

  /** The annotation branch: the four flags, and onParentVersion only when not negative. */
  function ApplyFlags(definition: Option<ChildNodeDefinition>, ndt: ChildTemplate): (t: ChildTemplate)
    ensures t.name == ndt.name
    ensures definition.None? ==> t == ndt
    ensures definition.Some? ==>
      && t.autoCreated == Some(definition.value.autoCreated) && t.mandatory == Some(definition.value.mandatory)
      && t.isProtected == Some(definition.value.isProtected)
      && t.sameNameSiblings == Some(definition.value.sameNameSiblings)
      && t.onParentVersion == (if definition.value.onParentVersion >= 0 then Some(definition.value.onParentVersion) else ndt.onParentVersion)
  {
    if definition.None? then ndt
    else
      var def := definition.value;
      ndt.(autoCreated := Some(def.autoCreated), mandatory := Some(def.mandatory),
           onParentVersion := if def.onParentVersion >= 0 then Some(def.onParentVersion) else ndt.onParentVersion,
           isProtected := Some(def.isProtected), sameNameSiblings := Some(def.sameNameSiblings))
  }

  /**
   * The four flags and onParentVersion of `t` are what the record says (onParentVersion only when
   * not negative), or those of `ndt` when there is no record.
   */
  predicate RecordFlagsWritten(definition: Option<ChildNodeDefinition>, ndt: ChildTemplate, t: ChildTemplate) {
    match definition
    case None =>
      && t.autoCreated == ndt.autoCreated && t.mandatory == ndt.mandatory && t.isProtected == ndt.isProtected
      && t.sameNameSiblings == ndt.sameNameSiblings && t.onParentVersion == ndt.onParentVersion
    case Some(def) =>
      && t.autoCreated == Some(def.autoCreated) && t.mandatory == Some(def.mandatory)
      && t.isProtected == Some(def.isProtected) && t.sameNameSiblings == Some(def.sameNameSiblings)
      && t.onParentVersion == (if def.onParentVersion >= 0 then Some(def.onParentVersion) else ndt.onParentVersion)
  }

  /** The template once the default primary type is resolved: name, flags, required and default types. */
  function Assemble(child: ChildLiteral, ndt: ChildTemplate, resolved: Option<string>): (t: ChildTemplate)
    ensures t.name == Some(LegacyFullname(child.literal))
    ensures t.requiredPrimaryTypeNames == Some(RequiredNames(child))
    ensures t.defaultPrimaryTypeName == Some(resolved)
    ensures RecordFlagsWritten(child.definition, ndt, t)
  {
    var flags := ApplyFlags(child.definition, ndt.(name := Some(LegacyFullname(child.literal))));
    flags.(requiredPrimaryTypeNames := Some(RequiredNames(child)), defaultPrimaryTypeName := Some(resolved))
  }

  /** JcrChild.configure. */
  function Configure(child: ChildLiteral, ndt: ChildTemplate): (r: Result<ChildTemplate, ChildError>)
    ensures r.Success? ==> r.value.name == Some(LegacyFullname(child.literal))
    ensures r.Success? ==> r.value.requiredPrimaryTypeNames == Some(RequiredNames(child))
    ensures r.Success? ==> r.value.defaultPrimaryTypeName.Some?
    ensures r.Success? ==> RecordFlagsWritten(child.definition, ndt, r.value)
    ensures r.Failure? <==> CapabilityDefault(child).Some? && AnnotatedDefault(child.definition).Some?
                            && CapabilityDefault(child) != AnnotatedDefault(child.definition)
  {
    var resolved :- ResolveDefault(CapabilityDefault(child), AnnotatedDefault(child.definition), RequiredNames(child));
    Success(Assemble(child, ndt, resolved))
  }

  /* ---------------- What configure promises ---------------- */

  /** The default primary type, characterised by the candidate set alone. */
  lemma DefaultFromCandidates(child: ChildLiteral, ndt: ChildTemplate)
    ensures |Candidates(child)| == 0 ==>
      Configure(child, ndt).Success? &&
      Configure(child, ndt).value.defaultPrimaryTypeName ==
        Some(if |RequiredNames(child)| == 1 then Some(RequiredNames(child)[0]) else None)
    ensures |Candidates(child)| == 1 ==>
      Configure(child, ndt).Success? &&
      var d := Configure(child, ndt).value.defaultPrimaryTypeName.value;
      d.Some? && Candidates(child) == {d.value}
    ensures |Candidates(child)| > 1 ==> Configure(child, ndt) == Failure(MultipleDefaultPrimaryTypes(Candidates(child)))
  {
    var cap := CapabilityDefault(child);
    var ann := AnnotatedDefault(child.definition);
    if cap.Some? && ann.Some? {
      if cap.value == ann.value {
        assert Candidates(child) == {cap.value};
      } else {
        assert Candidates(child) == {cap.value, ann.value};
      }
    } else if cap.Some? {
      assert Candidates(child) == {cap.value};
    } else if ann.Some? {
      assert Candidates(child) == {ann.value};
    } else {
      assert Candidates(child) == {};
    }
  }

  /** A blank annotated default counts as none: it neither conflicts nor is chosen. */
  lemma BlankDefaultIgnored(child: ChildLiteral, ndt: ChildTemplate)
    requires child.definition.Some? && IsBlank(child.definition.value.defaultPrimaryTypeName)
    requires child.defaultPrimaryType.Some?
    ensures Configure(child, ndt).Success?
    ensures Configure(child, ndt).value.defaultPrimaryTypeName == Some(Some(LegacyFullname(child.defaultPrimaryType.value)))
  {
  }

  /**
   * The required types start with the annotated names, first occurrences in order, followed by
   * exactly the capability fullnames the annotation did not list; they are written even when empty.
   */
  lemma RequiredTypesMerged(child: ChildLiteral, ndt: ChildTemplate)
    requires Configure(child, ndt).Success?
    ensures var declared := if child.definition.Some? then child.definition.value.requiredPrimaryTypeNames else [];
            var written := Configure(child, ndt).value.requiredPrimaryTypeNames.value;
            && Distinct(declared) <= written
            && forall x :: x in written <==> x in declared || exists i :: 0 <= i < |child.requiredPrimaryTypes| && LegacyFullname(child.requiredPrimaryTypes[i]) == x
  {
    var declared := if child.definition.Some? then child.definition.value.requiredPrimaryTypeNames else [];
    var caps := Map(child.requiredPrimaryTypes, LegacyFullname);
    NodeTypes.MergeKeepsDeclaredFirst(declared, caps);
    forall x | x in caps
      ensures exists i :: 0 <= i < |child.requiredPrimaryTypes| && LegacyFullname(child.requiredPrimaryTypes[i]) == x
    {
      CapabilityNameFrom(child.requiredPrimaryTypes, x);
    }
  }

  /** Every capability fullname is the fullname of one of the capability's literals. */
  lemma CapabilityNameFrom(lits: seq<Literal>, x: string)
    requires x in Map(lits, LegacyFullname)
    ensures exists i :: 0 <= i < |lits| && LegacyFullname(lits[i]) == x
  {
    var caps := Map(lits, LegacyFullname);
    var i :| 0 <= i < |caps| && caps[i] == x;
    assert LegacyFullname(lits[i]) == x;
  }

  /**
   * A bare constant (no annotation, no overrides) gets its name, no required types, a null
   * default primary type, and nothing else.
   */
  lemma BareChild(child: ChildLiteral, ndt: ChildTemplate)
    requires child.definition.None? && child.defaultPrimaryType.None? && child.requiredPrimaryTypes == []
    ensures Configure(child, ndt) ==
      Success(ndt.(name := Some(LegacyFullname(child.literal)), requiredPrimaryTypeNames := Some([]), defaultPrimaryTypeName := Some(None)))
  {
    assert NodeTypes.MergeNames([], []) == [];
  }
}

=== FILE: enum_names.dfy ===
/**
 * Names derived from enum constant names: EnumHelper's underscore-delimited-to-camel-case basename
 * (String.split("_"), WordUtils.capitalizeFully on each token, concatenation, WordUtils.uncapitalize)
 * and the initials DefaultSelectorNameStrategy builds selector names from (WordUtils.initials with
 * `_` as the only delimiter, lower-cased).
 */
module EnumNames {
  import opened Wrappers
  import opened Text

  /* ---------------- String.split("_") ---------------- */

  /** Every `_`-separated field of `s`, empty ones included: one more field than there are underscores. */
  function Fields(s: string): (r: seq<string>)
    ensures |r| >= 1
    ensures '_' !in s ==> r == [s]
    ensures forall i :: 0 <= i < |r| ==> '_' !in r[i]
    decreases |s|
  {
    if '_' !in s then [s]
    else
      var i := FirstUnderscore(s);
      [s[..i]] + Fields(s[i + 1..])
  }

  function FirstUnderscore(s: string): (i: nat)
    requires '_' in s
    ensures i < |s| && s[i] == '_' && '_' !in s[..i]
  {
    if s[0] == '_' then 0
    else
      assert '_' in s[1..] by {
        var k :| 0 <= k < |s| && s[k] == '_';
        assert s[1..][k - 1] == '_';
      }
      var j := FirstUnderscore(s[1..]);
      assert s[..j + 1] == [s[0]] + s[1..][..j];
      j + 1
  }

  /** String.split drops the empty fields at the end of the array. */
  function DropTrailingEmpty(parts: seq<string>): (r: seq<string>)
    ensures r <= parts
    ensures |r| == 0 || r[|r| - 1] != ""
    ensures forall i :: |r| <= i < |parts| ==> parts[i] == ""
    decreases |parts|
  {
    if |parts| > 0 && parts[|parts| - 1] == "" then DropTrailingEmpty(parts[..|parts| - 1]) else parts
  }

  /** String.split("_"): the whole string when there is no `_`, otherwise the fields without trailing empties. */
  function JavaSplit(s: string): (r: seq<string>)
    ensures '_' !in s ==> r == [s]
    ensures forall i :: 0 <= i < |r| ==> '_' !in r[i]
  {
    if '_' !in s then [s] else DropTrailingEmpty(Fields(s))
  }

  /* ---------------- WordUtils ---------------- */

  /** WordUtils.capitalizeFully on a word without whitespace: lower-case all, then upper-case the first character. */
  function CapitalizeFully(w: string): (r: string)
    ensures |r| == |w|
    ensures |w| > 0 ==> r[0] == ToUpper(w[0])
    ensures forall i :: 0 < i < |w| ==> r[i] == ToLower(w[i])
  {
    if |w| == 0 then w
    else
      var lower := LowerCase(w);
      [ToUpper(lower[0])] + lower[1..]
  }

  /** WordUtils.uncapitalize on a word without whitespace: lower-case the first character. */
  function Uncapitalize(s: string): (r: string)
    ensures |r| == |s|
    ensures |s| > 0 ==> r[0] == ToLower(s[0]) && r[1..] == s[1..]
  {
    if |s| == 0 then s else [ToLower(s[0])] + s[1..]
  }

  /** Stream.of(parts).map(WordUtils::capitalizeFully).collect(Collectors.joining()). */
  function JoinCapitalized(parts: seq<string>): string
    decreases |parts|
  {
    if |parts| == 0 then "" else CapitalizeFully(parts[0]) + JoinCapitalized(parts[1..])
  }

  /**
   * EnumHelper.underscoreDelimitedToCamelCase on a non-null string: it keeps every character but
   * the underscores; CamelCaseMatchesScan says what it does to each of them.
   */
  function CamelCase(s: string): (r: string)
    ensures |r| == |s| - CountUnderscores(s)
  {
    JoinCapitalizedFields(s);
    if '_' in s then
      JoinIgnoresTrailingEmpty(Fields(s));
      UncapitalizeScan(s);
      ScanLength(s, false, true);
      Uncapitalize(JoinCapitalized(JavaSplit(s)))
    else
      assert Fields(s) == [s];
      UncapitalizeScan(s);
      ScanLength(s, false, true);
      Uncapitalize(JoinCapitalized(JavaSplit(s)))
  }

  /** EnumHelper.underscoreDelimitedToCamelCase: null in, null out. */
  function UnderscoreDelimitedToCamelCase(s: Option<string>): (r: Option<string>)
    ensures s.None? <==> r.None?
    ensures s.Some? ==> r == Some(CamelCase(s.value)) && |r.value| <= |s.value|
  {
    match s
    case None => None
    case Some(v) =>
      CamelCaseMatchesScan(v);
      ScanLength(v, false, true);
      Some(CamelCase(v))
  }

  /* ---------------- A character-level reference for camel case ---------------- */

  /**
   * The camel-case rule stated one character at a time: every `_` is dropped; the first remaining
   * character is lower-cased; any later character that starts the string or follows a `_` is
   * upper-cased; every other character is lower-cased. `started` records whether a character has
   * been emitted, `boundary` whether the previous character was `_` (or there was none).
   */
  function Scan(s: string, started: bool, boundary: bool): string
    decreases |s|
  {
    if |s| == 0 then ""
    else if s[0] == '_' then Scan(s[1..], started, true)
    else [if !started || !boundary then ToLower(s[0]) else ToUpper(s[0])] + Scan(s[1..], true, false)
  }

  function CountUnderscores(s: string): nat
    decreases |s|
  {
    if |s| == 0 then 0 else (if s[0] == '_' then 1 else 0) + CountUnderscores(s[1..])
  }

  /** The scan keeps every character but the underscores. */
  lemma {:induction false} ScanLength(s: string, started: bool, boundary: bool)
    ensures |Scan(s, started, boundary)| == |s| - CountUnderscores(s)
    decreases |s|
  {
    if |s| > 0 {
      ScanLength(s[1..], s[0] != '_' || started, s[0] == '_');
    }
  }

  lemma LowerCaseCons(w: string)
    requires |w| > 0
    ensures LowerCase(w) == [ToLower(w[0])] + LowerCase(w[1..])
  {
  }

  lemma CapitalizeFullyCons(w: string)
    requires |w| > 0
    ensures CapitalizeFully(w) == [ToUpper(w[0])] + LowerCase(w[1..])
  {
  }

  /** Inside a token, the scan lower-cases. */
  lemma {:induction false} ScanInsideToken(w: string, t: string)
    requires '_' !in w
    ensures Scan(w + t, true, false) == LowerCase(w) + Scan(t, true, false)
    decreases |w|
  {
    if |w| > 0 {
      assert (w + t)[1..] == w[1..] + t;
      assert '_' !in w[1..];
      ScanInsideToken(w[1..], t);
      LowerCaseCons(w);
    } else {
      assert w + t == t;
    }
  }

  /** A whole token at a boundary is scanned exactly as WordUtils.capitalizeFully renders it. */
  lemma {:induction false} ScanToken(w: string, t: string)
    requires '_' !in w && |w| > 0
    ensures Scan(w + t, true, true) == CapitalizeFully(w) + Scan(t, true, false)
  {
    ConcatTail(w, t);
    assert w[0] in w;
    assert '_' !in w[1..];
    ScanInsideToken(w[1..], t);
    CapitalizeFullyCons(w);
    ConcatAssoc([ToUpper(w[0])], LowerCase(w[1..]), Scan(t, true, false));
  }

  /** A field followed by `_`: the fields are that field and then the fields of the rest. */
  lemma FieldsCons(w: string, r: string)
    requires '_' !in w
    ensures Fields(w + "_" + r) == [w] + Fields(r)
  {
    var s := w + "_" + r;
    var i := FirstUnderscore(s);
    assert s[|w|] == '_';
    assert s[..i] == w && s[i + 1..] == r;
  }

  /** A field followed by `_` scans to its capitalization, and the scan restarts at a boundary. */
  lemma ScanField(w: string, r: string)
    requires '_' !in w
    ensures Scan(w + "_" + r, true, true) == CapitalizeFully(w) + Scan(r, true, true)
  {
    assert Scan("_" + r, true, true) == Scan(r, true, true) && Scan("_" + r, true, false) == Scan(r, true, true) by {
      assert ("_" + r)[1..] == r;
    }
    assert w + "_" + r == w + ("_" + r);
    if |w| > 0 {
      ScanToken(w, "_" + r);
    } else {
      assert w + ("_" + r) == "_" + r;
    }
  }

  lemma JoinCapitalizedCons(w: string, rest: seq<string>)
    ensures JoinCapitalized([w] + rest) == CapitalizeFully(w) + JoinCapitalized(rest)
  {
    assert ([w] + rest)[1..] == rest;
  }

  /** Capitalizing each field and concatenating is the scan with capitalization from the start. */
  lemma {:induction false} JoinCapitalizedFields(s: string)
    ensures JoinCapitalized(Fields(s)) == Scan(s, true, true)
    decreases |s|
  {
    if '_' !in s {
      if |s| > 0 {
        ScanToken(s, "");
        assert s + "" == s;
      }
    } else {
      var i := FirstUnderscore(s);
      var w, r := s[..i], s[i + 1..];
      assert s == w + "_" + r;
      JoinCapitalizedFields(r);
      FieldsCons(w, r);
      JoinCapitalizedCons(w, Fields(r));
      ScanField(w, r);
    }
  }

  lemma {:induction false} JoinCapitalizedSnoc(parts: seq<string>, x: string)
    ensures JoinCapitalized(parts + [x]) == JoinCapitalized(parts) + CapitalizeFully(x)
    decreases |parts|
  {
    if |parts| == 0 {
      assert [] + [x] == [x];
    } else {
      assert (parts + [x])[1..] == parts[1..] + [x];
      JoinCapitalizedSnoc(parts[1..], x);
      ConcatAssoc(CapitalizeFully(parts[0]), JoinCapitalized(parts[1..]), CapitalizeFully(x));
    }
  }

  /** Dropping empty fields never changes the joined result, since an empty token capitalizes to "". */
  lemma {:induction false} JoinIgnoresTrailingEmpty(parts: seq<string>)
    ensures JoinCapitalized(DropTrailingEmpty(parts)) == JoinCapitalized(parts)
    decreases |parts|
  {
    if |parts| > 0 && parts[|parts| - 1] == "" {
      var init := parts[..|parts| - 1];
      JoinIgnoresTrailingEmpty(init);
      assert parts == init + [""];
      JoinCapitalizedSnoc(init, "");
    }
  }

  lemma {:induction false} UncapitalizeScan(s: string)
    ensures Uncapitalize(Scan(s, true, true)) == Scan(s, false, true)
    decreases |s|
  {
    if |s| > 0 && s[0] == '_' {
      UncapitalizeScan(s[1..]);
    }
  }

  /**
   * underscoreDelimitedToCamelCase agrees with the character-level rule: the split, the per-token
   * capitalization and the final uncapitalize together drop the underscores, lower-case the first
   * character, upper-case each later token's first character and lower-case everything else.
   */
  lemma CamelCaseMatchesScan(s: string)
    ensures CamelCase(s) == Scan(s, false, true)
  {
    JoinCapitalizedFields(s);
    if '_' in s {
      JoinIgnoresTrailingEmpty(Fields(s));
    } else {
      assert Fields(s) == [s];
    }
    UncapitalizeScan(s);
  }

  lemma {:induction false} ScanWithoutUnderscore(s: string)
    requires '_' !in s
    ensures Scan(s, false, true) == LowerCase(s)
  {
    if |s| > 0 {
      assert s == s[..1] + s[1..];
      assert '_' !in s[1..];
      ScanInsideToken(s[1..], "");
      assert s[1..] + "" == s[1..];
      LowerCaseCons(s);
    }
  }

  /** A name without underscores is simply lower-cased: STATUS becomes status. */
  lemma CamelCaseOfSingleWord(s: string)
    requires '_' !in s
    ensures CamelCase(s) == LowerCase(s)
  {
    CamelCaseMatchesScan(s);
    ScanWithoutUnderscore(s);
  }

  /** Before anything is emitted, a token is lower-cased whole. */
  lemma {:induction false} ScanFirstToken(w: string, t: string)
    requires '_' !in w && |w| > 0
    ensures Scan(w + t, false, true) == LowerCase(w) + Scan(t, true, false)
  {
    ConcatTail(w, t);
    assert w[0] in w;
    assert '_' !in w[1..];
    ScanInsideToken(w[1..], t);
    LowerCaseCons(w);
    ConcatAssoc([ToLower(w[0])], LowerCase(w[1..]), Scan(t, true, false));
  }

  /** Two words joined by one `_`, such as ORDER_DATE: the first is lower-cased, the second capitalized. */
  lemma CamelCaseTwoWords(a: string, b: string)
    requires '_' !in a && '_' !in b && |a| > 0 && |b| > 0
    ensures CamelCase(a + "_" + b) == LowerCase(a) + CapitalizeFully(b)
  {
    var rest := "_" + b;
    assert a + "_" + b == a + rest;
    ScanFirstToken(a, rest);
    assert rest[1..] == b;
    assert Scan(rest, true, false) == Scan(b, true, true);
    ScanToken(b, "");
    assert b + "" == b;
    assert CapitalizeFully(b) + "" == CapitalizeFully(b);
    CamelCaseMatchesScan(a + rest);
  }

  lemma {:induction false} ScanIgnoresDoubledUnderscore(a: string, b: string, started: bool, boundary: bool)
    ensures Scan(a + "__" + b, started, boundary) == Scan(a + "_" + b, started, boundary)
    decreases |a|
  {
    if |a| == 0 {
      assert a + "__" + b == "_" + ("_" + b);
      assert a + "_" + b == "_" + b;
      assert ("_" + ("_" + b))[1..] == "_" + b;
      assert ("_" + b)[1..] == b;
    } else {
      assert (a + "__" + b)[0] == a[0] == (a + "_" + b)[0];
      assert (a + "__" + b)[1..] == a[1..] + "__" + b;
      assert (a + "_" + b)[1..] == a[1..] + "_" + b;
      ScanIgnoresDoubledUnderscore(a[1..], b, started || a[0] != '_', a[0] == '_');
    }
  }

  lemma {:induction false} ScanIgnoresTrailingUnderscore(s: string, started: bool, boundary: bool)
    ensures Scan(s + "_", started, boundary) == Scan(s, started, boundary)
    decreases |s|
  {
    if |s| == 0 {
      assert s + "_" == "_";
      assert "_"[1..] == "";
    } else {
      assert (s + "_")[0] == s[0];
      assert (s + "_")[1..] == s[1..] + "_";
      ScanIgnoresTrailingUnderscore(s[1..], started || s[0] != '_', s[0] == '_');
    }
  }

  /**
   * Underscores only separate: a doubled `_` counts as one (A__B becomes aB), and a leading or
   * trailing `_` changes nothing (_A becomes a).
   */
  lemma CamelCaseUnderscores(a: string, b: string)
    ensures CamelCase(a + "__" + b) == CamelCase(a + "_" + b)
    ensures CamelCase("_" + a) == CamelCase(a)
    ensures CamelCase(a + "_") == CamelCase(a)
  {
    CamelCaseMatchesScan(a + "__" + b);
    CamelCaseMatchesScan(a + "_" + b);
    ScanIgnoresDoubledUnderscore(a, b, false, true);
    CamelCaseMatchesScan("_" + a);
    CamelCaseMatchesScan(a);
    assert ("_" + a)[1..] == a;
    CamelCaseMatchesScan(a + "_");
    ScanIgnoresTrailingUnderscore(a, false, true);
  }

  lemma {:induction false} ScanOfUnderscores(s: string, started: bool, boundary: bool)
    requires forall i :: 0 <= i < |s| ==> s[i] == '_'
    ensures Scan(s, started, boundary) == ""
    decreases |s|
  {
    if |s| > 0 {
      assert forall i :: 0 <= i < |s[1..]| ==> s[1..][i] == s[i + 1];
      ScanOfUnderscores(s[1..], started, true);
    }
  }

  /** A name made only of underscores, such as ___, has an empty camel case. */
  lemma CamelCaseOfUnderscores(s: string)
    requires forall i :: 0 <= i < |s| ==> s[i] == '_'
    ensures CamelCase(s) == ""
  {
    CamelCaseMatchesScan(s);
    ScanOfUnderscores(s, false, true);
  }

  /* ---------------- WordUtils.initials(name, '_') ---------------- */

  /** The first character of every maximal run without `_`; `gap` records that a `_` (or the start) came before. */
  function InitialsScan(s: string, gap: bool): (r: string)
    ensures |r| <= |s|
    ensures forall i :: 0 <= i < |r| ==> r[i] in s && r[i] != '_'
    decreases |s|
  {
    if |s| == 0 then ""
    else if s[0] == '_' then InitialsScan(s[1..], true)
    else if gap then [s[0]] + InitialsScan(s[1..], false)
    else InitialsScan(s[1..], false)
  }

  /** WordUtils.initials(name, '_'). */
  function Initials(s: string): string {
    InitialsScan(s, true)
  }

  /** DefaultSelectorNameStrategy's base selector: the initials, lower-cased. */
  function SelectorInitials(name: string): (r: string)
    ensures |r| <= |name|
    ensures forall i :: 0 <= i < |r| ==> r[i] != '_'
  {
    var init := Initials(name);
    LowerCase(init)
  }

  /** The first characters of the non-empty fields, in order. */
  function FirstChars(parts: seq<string>): string
    decreases |parts|
  {
    if |parts| == 0 then "" else (if |parts[0]| > 0 then [parts[0][0]] else "") + FirstChars(parts[1..])
  }

  lemma {:induction false} InitialsSkipToken(w: string, t: string)
    requires '_' !in w
    ensures InitialsScan(w + t, false) == InitialsScan(t, false)
    decreases |w|
  {
    if |w| > 0 {
      assert (w + t)[1..] == w[1..] + t;
      assert '_' !in w[1..];
      InitialsSkipToken(w[1..], t);
    } else {
      assert w + t == t;
    }
  }

  lemma {:induction false} InitialsOfToken(w: string, t: string)
    requires '_' !in w && |w| > 0
    ensures InitialsScan(w + t, true) == [w[0]] + InitialsScan(t, false)
  {
    assert (w + t)[1..] == w[1..] + t;
    assert '_' !in w[1..];
    InitialsSkipToken(w[1..], t);
  }

  lemma InitialsOfField(w: string, r: string)
    requires '_' !in w
    ensures InitialsScan(w + "_" + r, true) == (if |w| > 0 then [w[0]] else "") + InitialsScan(r, true)
  {
    assert InitialsScan("_" + r, true) == InitialsScan(r, true) && InitialsScan("_" + r, false) == InitialsScan(r, true) by {
      assert ("_" + r)[1..] == r;
    }
    assert w + "_" + r == w + ("_" + r);
    if |w| > 0 {
      InitialsOfToken(w, "_" + r);
    } else {
      assert w + ("_" + r) == "_" + r;
    }
  }

  lemma FirstCharsCons(w: string, rest: seq<string>)
    ensures FirstChars([w] + rest) == (if |w| > 0 then [w[0]] else "") + FirstChars(rest)
  {
    assert ([w] + rest)[1..] == rest;
  }

  /** WordUtils.initials with delimiter `_` takes the first character of each non-empty `_`-separated field. */
  lemma {:induction false} InitialsAreFirstChars(s: string)
    ensures Initials(s) == FirstChars(Fields(s))
    decreases |s|
  {
    if '_' !in s {
      if |s| > 0 {
        InitialsOfToken(s, "");
        assert s + "" == s;
      }
    } else {
      var i := FirstUnderscore(s);
      var w, r := s[..i], s[i + 1..];
      assert s == w + "_" + r;
      InitialsAreFirstChars(r);
      FieldsCons(w, r);
      FirstCharsCons(w, Fields(r));
      InitialsOfField(w, r);
    }
  }

  /** A single word, such as CAT, has its first character as initials: c. */
  lemma SelectorInitialsOfWord(w: string)
    requires '_' !in w && |w| > 0
    ensures SelectorInitials(w) == [ToLower(w[0])]
  {
    InitialsOfToken(w, "");
    assert w + "" == w;
  }

  /** Two words joined by one `_`, such as ORDER_DATE, give the first character of each: od. */
  lemma SelectorInitialsTwoWords(a: string, b: string)
    requires '_' !in a && '_' !in b && |a| > 0 && |b| > 0
    ensures SelectorInitials(a + "_" + b) == [ToLower(a[0]), ToLower(b[0])]
  {
    InitialsOfField(a, b);
    InitialsOfToken(b, "");
    assert b + "" == b;
  }

  lemma {:induction false} InitialsOfUnderscores(s: string, gap: bool)
    requires forall i :: 0 <= i < |s| ==> s[i] == '_'
    ensures InitialsScan(s, gap) == ""
    decreases |s|
  {
    if |s| > 0 {
      assert forall i :: 0 <= i < |s[1..]| ==> s[1..][i] == s[i + 1];
      InitialsOfUnderscores(s[1..], true);
    }
  }

  /** A name made only of underscores, such as ___, has no initials. */
  lemma SelectorInitialsOfUnderscores(s: string)
    requires forall i :: 0 <= i < |s| ==> s[i] == '_'
    ensures SelectorInitials(s) == ""
  {
    InitialsOfUnderscores(s, true);
  }
}

=== FILE: java_ints.dfy ===
/**
 * Java's fixed-width integers, which the core uses for annotation elements (`int`), literal
 * values (`long`) and the list iterator's position (`long`, narrowed to `int`).
 */
module JavaInts {

  /** A Java `int`. */
  type Int32 = x: int | -0x8000_0000 <= x < 0x8000_0000

  /** A Java `long`. */
  type Int64 = x: int | -0x8000_0000_0000_0000 <= x < 0x8000_0000_0000_0000

  /** Integer.MIN_VALUE, which annotation elements use for "not given". */
  const IntMinValue: Int32 := -0x8000_0000

  /** Integer.MAX_VALUE. */
  const IntMaxValue: Int32 := 0x7fff_ffff

  /** Long.MAX_VALUE. */
  const LongMaxValue: Int64 := 0x7fff_ffff_ffff_ffff

  /** The narrowing cast `(int) x`: the low 32 bits of `x`, read as two's complement. */
  function ToInt32(x: Int64): (r: Int32)
    ensures IntMinValue <= x <= IntMaxValue ==> r == x
    ensures (r - x) % 0x1_0000_0000 == 0
  {
    var low := x % 0x1_0000_0000;
    if low < 0x8000_0000 then low else low - 0x1_0000_0000
  }

  /** Java `long` addition, which wraps around on overflow. */
  function AddInt64(a: Int64, b: Int64): (r: Int64)
    ensures -0x8000_0000_0000_0000 <= a + b < 0x8000_0000_0000_0000 ==> r == a + b
    ensures (r - (a + b)) % 0x1_0000_0000_0000_0000 == 0
  {
    var low := (a + b) % 0x1_0000_0000_0000_0000;
    if low < 0x8000_0000_0000_0000 then low else low - 0x1_0000_0000_0000_0000
  }
}

=== FILE: literals.dfy ===
/**
 * The identity of an enum-backed JCR literal: the class nesting it lives in, the namespace found on
 * that nesting, its basename and its fully qualified name, in both the current `jcrbox.literal`
 * helpers (which walk outward through enclosing classes) and the older `jcrbox` helpers (which only
 * look at the class itself); and the query path that JcrQuery.path builds from a nested class.
 *
 * Reflection is replaced by data: a class is the chain of its scopes, innermost first, each scope
 * carrying its simple name and the annotations the core reads from it.
 */
module Literals {
  import opened Wrappers
  import opened Text
  import Memo
  import opened EnumNames
  import Paths
  import PathLaws

  /** The name of an enum constant: a Java identifier, so never empty. */
  type Identifier = s: string | |s| > 0 witness "A"

  /**
   * One class of a nesting chain: its simple name, the value of `jcrbox.literal.JcrNamespace` on it,
   * the value of the older `jcrbox.JcrNamespace` on it, its `JcrSchema` annotation and whether it
   * carries `JcrQuery.PathRoot`.
   */
  datatype Scope = Scope(
    simpleName: string,
    namespace: Option<string>,
    legacyNamespace: Option<string>,
    schema: Option<SchemaTag>,
    pathRoot: bool)

  /** A `JcrSchema` annotation: its member source types and its selector name strategy. */
  datatype SchemaTag = SchemaTag(members: seq<EnumType>, strategy: Strategy)

  /**
   * DefaultSelectorNameStrategy, or some other strategy class; `instantiable` is whether
   * Class.newInstance succeeds for it.
   */
  datatype Strategy = DefaultStrategy | CustomStrategy(className: string, instantiable: bool)

  /** An enum constant: its name, whether it declares a class body, and whether it carries `DefaultValue`. */
  datatype Constant = Constant(name: Identifier, hasBody: bool, isDefaultValue: bool)

  /**
   * An enum type: the package it is declared in, its class chain, starting with the enum class
   * itself and continuing through its enclosing classes (getEnclosingClass until null), and its
   * constants in declaration order. Package and chain together are the class's qualified name, so
   * two enums of the same simple name in different packages are different types.
   */
  datatype EnumType = EnumType(packageName: string, chain: seq<Scope>, constants: seq<Constant>)

  /** An enum constant as a literal: the enum that declares it and the constant. */
  datatype Literal = Literal(owner: EnumType, constant: Constant)

  /** The class of an anonymous constant body: no simple name, no annotations. */
  const AnonymousScope: Scope := Scope("", None, None, None, false)

  /** Enum.getDeclaringClass(): always the enum type itself. */
  function DeclaringClass(lit: Literal): seq<Scope> {
    lit.owner.chain
  }

  /**
   * Object.getClass(): for a constant with a class body, the anonymous subclass, whose enclosing
   * class is the enum; otherwise the enum type itself.
   */
  function RuntimeClass(lit: Literal): (c: seq<Scope>)
    ensures lit.constant.hasBody ==> c == [AnonymousScope] + DeclaringClass(lit)
    ensures !lit.constant.hasBody ==> c == DeclaringClass(lit)
  {
    if lit.constant.hasBody then [AnonymousScope] + lit.owner.chain else lit.owner.chain
  }

  /** JcrLiteral.asEnum(): the constant viewed as its enum; its name is the constant's name. */
  function AsEnum(lit: Literal): (c: Constant)
    ensures c.name == lit.constant.name
  {
    lit.constant
  }

  /* ---------------- jcrbox.literal.JcrNamespace.Helper ---------------- */

  /** findAnnotation: the first `JcrNamespace` met walking outward, as the index of its scope. */
  function FindNamespaceScope(chain: seq<Scope>): (r: Option<nat>)
    ensures r.Some? ==> r.value < |chain| && chain[r.value].namespace.Some?
    ensures r.Some? ==> forall j :: 0 <= j < r.value ==> chain[j].namespace.None?
    ensures r.None? ==> forall j :: 0 <= j < |chain| ==> chain[j].namespace.None?
    decreases |chain|
  {
    if |chain| == 0 then None
    else if chain[0].namespace.Some? then Some(0)
    else match FindNamespaceScope(chain[1..])
      case None => None
      case Some(i) => Some(i + 1)
  }

  /** getNamespace: the trimmed value of the nearest `JcrNamespace`, or "" when there is none. */
  function GetNamespace(chain: seq<Scope>): (ns: string)
    ensures IsTrimmed(ns)
  {
    match FindNamespaceScope(chain)
    case None => ""
    case Some(i) => Trim(chain[i].namespace.value)
  }

  /** format: `{ns}basename`, or the bare basename when the namespace is blank. */
  function Format(chain: seq<Scope>, basename: string): (r: string)
    ensures GetNamespace(chain) == "" ==> r == basename
    ensures GetNamespace(chain) != "" ==> r == "{" + GetNamespace(chain) + "}" + basename
  {
    var ns := GetNamespace(chain);
    TrimmedBlankIsEmpty(ns);
    if IsBlank(ns) then basename else "{" + ns + "}" + basename
  }

  /** getNamespace through the helper's cache (Map.computeIfAbsent). */
  function GetNamespaceCached(cache: map<seq<Scope>, string>, chain: seq<Scope>): (r: (string, map<seq<Scope>, string>))
    requires Memo.Consistent(cache, GetNamespace)
    ensures r.0 == GetNamespace(chain)
    ensures Memo.Consistent(r.1, GetNamespace) && chain in r.1
  {
    Memo.ComputeIfAbsent(cache, chain, GetNamespace)
  }

  /* ---------------- jcrbox.literal.JcrLiteral ---------------- */

  /**
   * JcrLiteral.namespace(): the namespace of the declaring enum. The walk from the runtime class
   * passes through a constant's anonymous body class, so both classes give the same namespace.
   */
  function Namespace(lit: Literal): (ns: string)
    ensures IsTrimmed(ns)
    ensures ns == GetNamespace(RuntimeClass(lit))
  {
    if lit.constant.hasBody then
      UnannotatedScopeIsTransparent(AnonymousScope, lit.owner.chain);
      GetNamespace(DeclaringClass(lit))
    else GetNamespace(DeclaringClass(lit))
  }

  /**
   * JcrLiteral.basename(): EnumHelper.basename, the camel-cased constant name. It keeps every
   * character but the underscores, and a name without underscores is just lower-cased.
   */
  function Basename(lit: Literal): (b: string)
    ensures |b| == |lit.constant.name| - CountUnderscores(lit.constant.name)
    ensures '_' !in lit.constant.name ==> b == LowerCase(lit.constant.name)
  {
    var n := lit.constant.name;
    if '_' in n then CamelCase(n)
    else
      CamelCaseOfSingleWord(n);
      CamelCase(n)
  }

  /**
   * JcrLiteral.fullname(): the basename formatted against the runtime class: the bare basename
   * when namespace() is empty, `{namespace}basename` otherwise, with or without a constant body.
   */
  function Fullname(lit: Literal): (r: string)
    ensures Namespace(lit) == "" ==> r == Basename(lit)
    ensures Namespace(lit) != "" ==> r == "{" + Namespace(lit) + "}" + Basename(lit)
  {
    Format(RuntimeClass(lit), Basename(lit))
  }

  /** The namespace on the nearest annotated scope wins, and the scopes beyond it do not matter. */
  lemma NearestNamespaceWins(chain: seq<Scope>, i: nat, outer: seq<Scope>)
    requires i < |chain| && chain[i].namespace.Some?
    requires forall j :: 0 <= j < i ==> chain[j].namespace.None?
    ensures GetNamespace(chain) == Trim(chain[i].namespace.value)
    ensures GetNamespace(chain[..i + 1] + outer) == GetNamespace(chain)
  {
    var c := chain[..i + 1] + outer;
    assert c[i] == chain[i];
    assert forall j :: 0 <= j < i ==> c[j] == chain[j];
  }

  /** Without any `JcrNamespace` on the enum or its enclosing classes, the fullname is the bare basename. */
  lemma NoNamespaceMeansBasename(lit: Literal)
    requires forall j :: 0 <= j < |lit.owner.chain| ==> lit.owner.chain[j].namespace.None?
    ensures Namespace(lit) == "" && Fullname(lit) == Basename(lit)
  {
    assert FindNamespaceScope(lit.owner.chain).None?;
    FullnameIsElement(lit);
  }

  /** Putting an unannotated scope in front of a chain does not change its namespace. */
  lemma UnannotatedScopeIsTransparent(s: Scope, chain: seq<Scope>)
    requires s.namespace.None?
    ensures GetNamespace([s] + chain) == GetNamespace(chain)
  {
    assert ([s] + chain)[1..] == chain;
  }

  /**
   * The fullname is the namespace and basename, rendered as a Path element: because the walk
   * passes through a constant's anonymous body class to the enum, fullname() and namespace() agree,
   * whether or not the constant has a body.
   */
  lemma FullnameIsElement(lit: Literal)
    ensures Fullname(lit) == Paths.Element(Namespace(lit), Basename(lit)).ToString()
  {
    if lit.constant.hasBody {
      UnannotatedScopeIsTransparent(AnonymousScope, lit.owner.chain);
    }
  }

  /**
   * A fullname reads back through Path.parse as the one-element relative path of its namespace
   * and basename, provided the basename is a plain name and the namespace has no `}`.
   */
  lemma FullnameParses(lit: Literal)
    requires |Basename(lit)| > 0
    requires '/' !in Basename(lit) && ':' !in Basename(lit) && '{' !in Basename(lit)
    requires '}' !in Namespace(lit)
    ensures Paths.Parse(None, Fullname(lit)) == Success(Paths.Path(false, [Paths.Element(Namespace(lit), Basename(lit))]))
  {
    FullnameIsElement(lit);
    PathLaws.ElementRoundTrip(Paths.Element(Namespace(lit), Basename(lit)));
  }

  /* ---------------- jcrbox.JcrNamespace.Helper and jcrbox.JcrLiteral ---------------- */

  /** The older getNamespace: the trimmed `jcrbox.JcrNamespace` value on the class itself, or "". */
  function LegacyGetNamespace(chain: seq<Scope>): (ns: string)
    ensures IsTrimmed(ns)
    ensures |chain| == 0 || chain[0].legacyNamespace.None? ==> ns == ""
    ensures |chain| > 0 && chain[0].legacyNamespace.Some? ==> ns == Trim(chain[0].legacyNamespace.value)
  {
    if |chain| > 0 && chain[0].legacyNamespace.Some? then Trim(chain[0].legacyNamespace.value) else ""
  }

  /**
   * The older lookup never consults an enclosing class: the class's own tag decides, whatever
   * encloses it, while the walking lookup reaches an enclosing class's tag when the class has none.
   */
  lemma LegacyIgnoresEnclosing(own: Scope, outer: seq<Scope>)
    ensures LegacyGetNamespace([own] + outer) == LegacyGetNamespace([own])
    ensures own.legacyNamespace.None? ==> LegacyGetNamespace([own] + outer) == ""
    ensures own.namespace.None? && |outer| > 0 && outer[0].namespace.Some? ==>
            GetNamespace([own] + outer) == Trim(outer[0].namespace.value)
  {
    var c := [own] + outer;
    assert c[0] == own;
    if own.namespace.None? && |outer| > 0 && outer[0].namespace.Some? {
      NearestNamespaceWins(c, 1, []);
    }
  }

  /** The older getNamespace through its own cache (Map.computeIfAbsent). */
  function LegacyGetNamespaceCached(cache: map<seq<Scope>, string>, chain: seq<Scope>): (r: (string, map<seq<Scope>, string>))
    requires Memo.Consistent(cache, LegacyGetNamespace)
    ensures r.0 == LegacyGetNamespace(chain)
    ensures Memo.Consistent(r.1, LegacyGetNamespace) && chain in r.1
  {
    Memo.ComputeIfAbsent(cache, chain, LegacyGetNamespace)
  }

  /** The older format: `{ns}basename`, or the basename when the class's own namespace is blank. */
  function LegacyFormat(chain: seq<Scope>, basename: string): (r: string)
    ensures LegacyGetNamespace(chain) == "" ==> r == basename
    ensures LegacyGetNamespace(chain) != "" ==> r == "{" + LegacyGetNamespace(chain) + "}" + basename
  {
    var ns := LegacyGetNamespace(chain);
    TrimmedBlankIsEmpty(ns);
    if IsBlank(ns) then basename else "{" + ns + "}" + basename
  }

  /**
   * jcrbox.JcrLiteral.namespace(): the declaring enum's own namespace; without a constant body it
   * is also the namespace the older fullname looks up.
   */
  function LegacyNamespace(lit: Literal): (ns: string)
    ensures IsTrimmed(ns)
    ensures !lit.constant.hasBody ==> ns == LegacyGetNamespace(RuntimeClass(lit))
  {
    LegacyGetNamespace(DeclaringClass(lit))
  }

  /**
   * jcrbox.JcrLiteral.fullname(): the basename formatted against the runtime class, without
   * walking: without a body it is namespace and basename as a Path element; with a body the
   * anonymous class has no namespace and only the basename is left.
   */
  function LegacyFullname(lit: Literal): (r: string)
    ensures !lit.constant.hasBody ==> r == Paths.Element(LegacyNamespace(lit), Basename(lit)).ToString()
    ensures lit.constant.hasBody ==> r == Basename(lit)
  {
    LegacyFormat(RuntimeClass(lit), Basename(lit))
  }

  /** jcrbox.EnumHelper.renderName: the basename formatted against the declaring enum. */
  function RenderName(lit: Literal): (r: string)
    ensures r == Paths.Element(LegacyNamespace(lit), Basename(lit)).ToString()
  {
    LegacyFormat(lit.owner.chain, Basename(lit))
  }

  /** Without a body, the older fullname is renderName: namespace and basename as a Path element. */
  lemma LegacyFullnameWithoutBody(lit: Literal)
    requires !lit.constant.hasBody
    ensures LegacyFullname(lit) == RenderName(lit)
    ensures LegacyFullname(lit) == Paths.Element(LegacyNamespace(lit), Basename(lit)).ToString()
  {
  }

  /**
   * With a body, the older fullname looks only at the anonymous class, finds no namespace and
   * returns the bare basename, whatever namespace() reports.
   */
  lemma LegacyFullnameDropsNamespace(lit: Literal)
    requires lit.constant.hasBody
    ensures LegacyFullname(lit) == Basename(lit)
    ensures LegacyNamespace(lit) != "" ==> LegacyFullname(lit) != RenderName(lit)
  {
    if LegacyNamespace(lit) != "" {
      assert |RenderName(lit)| > |Basename(lit)|;
    }
  }

  /* ---------------- JcrQuery.path ---------------- */

  /** The scopes JcrQuery.path visits: from the query class outward, through the first `PathRoot`. */
  function QueryScopes(chain: seq<Scope>): (r: seq<Scope>)
    ensures r <= chain
    ensures forall j :: 0 <= j < |r| - 1 ==> !r[j].pathRoot
    ensures |r| < |chain| ==> |r| > 0 && r[|r| - 1].pathRoot
    decreases |chain|
  {
    if |chain| == 0 then []
    else if chain[0].pathRoot then [chain[0]]
    else [chain[0]] + QueryScopes(chain[1..])
  }

  /** The Path element for one visited scope: its simple name under its own (older) namespace. */
  function QueryElement(scopes: seq<Scope>, j: nat): Paths.Element
    requires j < |scopes|
  {
    Paths.Element(LegacyGetNamespace(scopes[j..]), scopes[j].simpleName)
  }

  /** The elements of the query path, outermost visited scope first. */
  function QueryElements(chain: seq<Scope>): (r: seq<Paths.Element>)
    ensures |r| == |QueryScopes(chain)|
  {
    var scopes := QueryScopes(chain);
    seq(|scopes|, k requires 0 <= k < |scopes| => QueryElement(scopes, |scopes| - 1 - k))
  }

  /** One pushed segment: the scope's simple name formatted against that scope. */
  function QuerySegment(scopes: seq<Scope>, j: nat): string
    requires j < |scopes|
  {
    LegacyFormat(scopes[j..], scopes[j].simpleName)
  }

  /**
   * The deque of JcrQuery.path after visiting `scopes[..n]`: each segment was pushed on the front,
   * so the most recently visited scope comes first.
   */
  function PushedSegments(scopes: seq<Scope>, n: nat): (d: seq<string>)
    requires n <= |scopes|
    ensures |d| == n
    ensures forall k :: 0 <= k < n ==> d[k] == QuerySegment(scopes, n - 1 - k)
  {
    if n == 0 then [] else [QuerySegment(scopes, n - 1)] + PushedSegments(scopes, n - 1)
  }

  /** JcrQuery.path: the deque streamed from its head, joined with `/` after a leading `/`. */
  function QueryPath(chain: seq<Scope>): (r: string)
    ensures |r| > 0 && r[0] == '/'
    ensures QueryScopes(chain) == [] ==> r == "/"
  {
    var scopes := QueryScopes(chain);
    "/" + Join(PushedSegments(scopes, |scopes|), "/")
  }

  lemma {:induction false} JoinRendersElements(segments: seq<string>, els: seq<Paths.Element>)
    requires |segments| == |els|
    requires forall k :: 0 <= k < |els| ==> segments[k] == Paths.RenderElement(None, els[k])
    ensures Join(segments, "/") == Paths.RenderElements(None, els)
    decreases |els|
  {
    if |els| > 1 {
      JoinRendersElements(segments[1..], els[1..]);
    }
  }

  /**
   * The query path is the rendering of an absolute Path whose elements are the visited scopes'
   * simple names under their own namespaces, outermost first.
   */
  lemma QueryPathIsPath(chain: seq<Scope>)
    ensures QueryPath(chain) == Paths.Path(true, QueryElements(chain)).ToString()
  {
    var scopes := QueryScopes(chain);
    var segments := PushedSegments(scopes, |scopes|);
    var els := QueryElements(chain);
    forall k | 0 <= k < |els|
      ensures segments[k] == Paths.RenderElement(None, els[k])
    {
      var j := |scopes| - 1 - k;
      assert els[k] == QueryElement(scopes, j);
    }
    JoinRendersElements(segments, els);
  }

  /**
   * So Path.parse reads a query path back into its elements, provided every visited simple name is
   * a plain non-empty name and no visited namespace contains `}`.
   */
  lemma QueryPathParses(chain: seq<Scope>)
    requires forall k :: 0 <= k < |QueryElements(chain)| ==> PathLaws.Renderable(QueryElements(chain)[k])
    ensures Paths.Parse(None, QueryPath(chain)) == Success(Paths.Path(true, QueryElements(chain)))
  {
    QueryPathIsPath(chain);
    PathLaws.ToStringRoundTrip(Paths.Path(true, QueryElements(chain)));
  }

  /**
   * A query class nested directly in a `PathRoot` class: the path is `/`, the root's simple name
   * under the root's own namespace, `/`, and the query's simple name; classes further out are not
   * visited.
   */
  lemma NestedQueryPath(query: Scope, root: Scope, outer: seq<Scope>)
    requires !query.pathRoot && query.legacyNamespace.None? && root.pathRoot
    ensures QueryPath([query, root] + outer) ==
            "/" + Paths.Element(LegacyGetNamespace([root]), root.simpleName).ToString() + "/" + query.simpleName
  {
    var chain := [query, root] + outer;
    assert chain[1..] == [root] + outer;
    assert QueryScopes(chain) == [query, root];
    var scopes := [query, root];
    assert scopes[1..] == [root];
    assert PushedSegments(scopes, 2) == [QuerySegment(scopes, 1), QuerySegment(scopes, 0)];
    assert QuerySegment(scopes, 0) == query.simpleName;
  }
}

=== FILE: memo.dfy ===
/**
 * The process-wide caches of the core (the namespace cache of both JcrNamespace helpers and the
 * two tables of Schemae) all follow Map.computeIfAbsent. Because every cached function is pure,
 * a cache only ever holds values the function itself would compute; this module states that once.
 */
module Memo {

  /** Every entry of the cache is the value `f` computes for its key. */
  ghost predicate Consistent<K(!new), V>(cache: map<K, V>, f: K -> V) {
    forall k :: k in cache ==> cache[k] == f(k)
  }

  /** Map.computeIfAbsent: the cached value if the key is present, otherwise `f(k)`, which is then stored. */
  function ComputeIfAbsent<K(!new), V>(cache: map<K, V>, k: K, f: K -> V): (r: (V, map<K, V>))
    requires Consistent(cache, f)
    ensures r.0 == f(k)
    ensures Consistent(r.1, f)
    ensures r.1.Keys == cache.Keys + {k}
    ensures k in cache ==> r.1 == cache
  {
    if k in cache then (cache[k], cache) else (f(k), cache[k := f(k)])
  }

  /** Asking twice gives the same answer, and the second lookup leaves the cache alone. */
  lemma RepeatedLookup<K(!new), V>(cache: map<K, V>, k: K, f: K -> V)
    requires Consistent(cache, f)
    ensures var (v1, c1) := ComputeIfAbsent(cache, k, f);
            var (v2, c2) := ComputeIfAbsent(c1, k, f);
            v1 == v2 && c2 == c1
  {
  }
}

=== FILE: node_types.dfy ===
/**
 * JcrNode.configure: compiling a node-type literal and its optional `NodeDefinition` into a
 * NodeTypeTemplate, in the current `jcrbox.literal` form and the older `jcrbox` form, which differ
 * only in how fullnames are computed.
 */
module NodeTypes {
  import opened Wrappers
  import opened Text
  import opened Literals

  /** The `NodeDefinition` annotation. */
  datatype NodeDefinition = NodeDefinition(
    isAbstract: bool,
    supertypes: seq<string>,
    mixin: bool,
    orderableChildNodes: bool,
    primaryItemName: string,
    queryable: bool)

  /** `@NodeDefinition` with every element left at its default. */
  const DefaultNodeDefinition: NodeDefinition := NodeDefinition(false, [], false, false, "", true)

  /**
   * The fields of a NodeTypeTemplate that configure may write. `None` is a field configure has not
   * written and the caller never set, so "left untouched" and "written" stay apart.
   */
  datatype NodeTypeTemplate = NodeTypeTemplate(
    name: Option<string>,
    isAbstract: Option<bool>,
    mixin: Option<bool>,
    orderableChildNodes: Option<bool>,
    primaryItemName: Option<string>,
    queryable: Option<bool>,
    declaredSupertypes: Option<seq<string>>)

  /** NodeTypeManager.createNodeTypeTemplate(): nothing set. */
  const EmptyTemplate: NodeTypeTemplate := NodeTypeTemplate(None, None, None, None, None, None, None)

  /**
   * A node-type literal: the constant, its `NodeDefinition` if it carries one, and what its
   * getSupertypes() returns (the empty set unless the constant overrides it), in iteration order.
   */
  datatype NodeLiteral = NodeLiteral(literal: Literal, definition: Option<NodeDefinition>, supertypes: seq<Literal>)

  /** The supertypes named by the annotation: none without one. */
  function AnnotatedSupertypes(definition: Option<NodeDefinition>): (r: seq<string>)
    ensures definition.None? ==> r == []
  {
    if definition.Some? then definition.value.supertypes else []
  }

  /** Stream.concat(declared, capabilities).distinct(): first occurrences, declared names first. */
  function MergeNames(declared: seq<string>, capabilities: seq<string>): (r: seq<string>)
    ensures forall x :: x in r <==> x in declared || x in capabilities
    ensures NoDuplicates(r)
  {
    Distinct(declared + capabilities)
  }

  /**
   * The body of configure once the fullnames are known: the name is always written; the five
   * annotation fields are written exactly when the annotation is present; the merged supertypes are
   * written exactly when there is at least one.
   */
  function Apply(ntt: NodeTypeTemplate, fullname: string, definition: Option<NodeDefinition>, capabilities: seq<string>): (r: NodeTypeTemplate)
    ensures r.name == Some(fullname)
    ensures definition.Some? ==>
      && r.isAbstract == Some(definition.value.isAbstract)
      && r.mixin == Some(definition.value.mixin)
      && r.orderableChildNodes == Some(definition.value.orderableChildNodes)
      && r.primaryItemName == Some(definition.value.primaryItemName)
      && r.queryable == Some(definition.value.queryable)
    ensures definition.None? ==>
      && r.isAbstract == ntt.isAbstract && r.mixin == ntt.mixin
      && r.orderableChildNodes == ntt.orderableChildNodes
      && r.primaryItemName == ntt.primaryItemName && r.queryable == ntt.queryable
    ensures var merged := MergeNames(AnnotatedSupertypes(definition), capabilities);
            r.declaredSupertypes == if |merged| > 0 then Some(merged) else ntt.declaredSupertypes
  {
    var named := ntt.(name := Some(fullname));
    var annotated :=
      if definition.Some? then
        var d := definition.value;
        named.(isAbstract := Some(d.isAbstract), mixin := Some(d.mixin),
               orderableChildNodes := Some(d.orderableChildNodes),
               primaryItemName := Some(d.primaryItemName), queryable := Some(d.queryable))
      else named;
    var supertypes := MergeNames(AnnotatedSupertypes(definition), capabilities);
    if |supertypes| > 0 then annotated.(declaredSupertypes := Some(supertypes)) else annotated
  }

  /** jcrbox.literal.JcrNode.configure: fullnames resolved by the walking namespace lookup. */
  function Configure(node: NodeLiteral, ntt: NodeTypeTemplate): (r: NodeTypeTemplate)
    ensures r.name == Some(Fullname(node.literal))
  {
    Apply(ntt, Fullname(node.literal), node.definition, Map(node.supertypes, Fullname))
  }

  /** jcrbox.JcrNode.configure: the same steps with the older, non-walking fullnames. */
  function LegacyConfigure(node: NodeLiteral, ntt: NodeTypeTemplate): (r: NodeTypeTemplate)
    ensures r.name == Some(LegacyFullname(node.literal))
  {
    Apply(ntt, LegacyFullname(node.literal), node.definition, Map(node.supertypes, LegacyFullname))
  }

  /**
   * The merged supertypes start with the annotated ones (first occurrences, in order), and what
   * follows is exactly the capability names the annotation did not already list.
   */
  lemma MergeKeepsDeclaredFirst(declared: seq<string>, capabilities: seq<string>)
    ensures Distinct(declared) <= MergeNames(declared, capabilities)
    ensures forall x :: x in MergeNames(declared, capabilities)[|Distinct(declared)|..] <==> x in capabilities && x !in declared
  {
    DistinctConcat(declared, capabilities);
  }

  /** Names already free of duplicates and no capabilities: the annotated list is written unchanged. */
  lemma MergeOfDistinctDeclared(declared: seq<string>)
    requires NoDuplicates(declared)
    ensures MergeNames(declared, []) == declared
  {
    assert declared + [] == declared;
    DistinctOfDistinct(declared);
  }

  /**
   * Without an annotation and without capability supertypes, configure writes only the name and
   * leaves every other field as the caller left it.
   */
  lemma PlainConstantWritesOnlyName(node: NodeLiteral, ntt: NodeTypeTemplate)
    requires node.definition.None? && node.supertypes == []
    ensures Configure(node, ntt) == ntt.(name := Some(Fullname(node.literal)))
  {
    assert MergeNames([], []) == [];
  }

  /**
   * The test layout's INVOICE, a constant of an enum implementing jcrbox.JcrNode, declared with
   * `supertypes = nt:resource` and no capability supertypes: the older configure writes exactly
   * that one supertype and the record's defaults.
   */
  lemma AnnotatedSupertypeWritten(node: NodeLiteral, ntt: NodeTypeTemplate)
    requires node.definition == Some(DefaultNodeDefinition.(supertypes := ["nt:resource"]))
    requires node.supertypes == []
    ensures LegacyConfigure(node, ntt).declaredSupertypes == Some(["nt:resource"])
    ensures LegacyConfigure(node, ntt).queryable == Some(true) && LegacyConfigure(node, ntt).isAbstract == Some(false)
    ensures LegacyConfigure(node, ntt).mixin == Some(false) && LegacyConfigure(node, ntt).orderableChildNodes == Some(false)
  {
    MergeOfDistinctDeclared(["nt:resource"]);
  }

  /** Both configure forms agree when the constant has no body of its own. */
  lemma LegacyAgreesWithoutBodies(node: NodeLiteral, ntt: NodeTypeTemplate)
    requires !node.literal.constant.hasBody
    requires forall i :: 0 <= i < |node.supertypes| ==> !node.supertypes[i].constant.hasBody
    requires forall i :: 0 <= i < |node.supertypes| ==> Namespace(node.supertypes[i]) == LegacyNamespace(node.supertypes[i])
    requires Namespace(node.literal) == LegacyNamespace(node.literal)
    ensures Configure(node, ntt) == LegacyConfigure(node, ntt)
  {
    FullnameIsElement(node.literal);
    LegacyFullnameWithoutBody(node.literal);
    forall i | 0 <= i < |node.supertypes|
      ensures Fullname(node.supertypes[i]) == LegacyFullname(node.supertypes[i])
    {
      FullnameIsElement(node.supertypes[i]);
      LegacyFullnameWithoutBody(node.supertypes[i]);
    }
    assert Map(node.supertypes, Fullname) == Map(node.supertypes, LegacyFullname);
  }
}

=== FILE: path_laws.dfy ===
/**
 * What the Path parser and renderers promise about each other: the round trips through
 * toString() and toString(registry), the failure cases of the parser, the dropped trailing `/`,
 * and the laws of parent(), absolute(), relative(), child() and equals().
 */
module PathLaws {
  import opened Wrappers
  import opened Text
  import opened Paths

  /* ---------------- Which elements survive a round trip ---------------- */

  /**
   * An element the parser can read back from its plain rendering: a non-empty local name free of
   * `/`, `:` and `{`, and a trimmed namespace free of `}`.
   */
  predicate Renderable(e: Element) {
    && |e.name| > 0
    && '/' !in e.name && ':' !in e.name && '{' !in e.name
    && '}' !in e.ns && IsTrimmed(e.ns)
  }

  /** The element is rendered as `prefix:name` under `render`. */
  predicate PrefixForm(render: Option<Registry>, e: Element) {
    e.ns != "" && render.Some? && e.ns in render.value.prefixOf
  }

  /** A prefix the parser reads as a prefix: no `/` or `:` in it, and it does not open with `{`. */
  predicate WellFormedPrefix(prefix: string) {
    '/' !in prefix && ':' !in prefix && (|prefix| == 0 || prefix[0] != '{')
  }

  /** Rendering `e` under `render` and parsing the text under `parse` yields `e` again. */
  predicate ReadsBack(parse: Option<Registry>, render: Option<Registry>, e: Element) {
    && Renderable(e)
    && (PrefixForm(render, e) ==>
          var prefix := render.value.prefixOf[e.ns];
          && WellFormedPrefix(prefix)
          && parse.Some? && prefix in parse.value.uriOf && parse.value.uriOf[prefix] == e.ns)
  }

  /** getPrefix and getURI are inverse on every URI the registry knows, and every prefix is well formed. */
  predicate RegistryConsistent(registry: Registry) {
    forall uri :: uri in registry.prefixOf ==>
      && WellFormedPrefix(registry.prefixOf[uri])
      && registry.prefixOf[uri] in registry.uriOf
      && registry.uriOf[registry.prefixOf[uri]] == uri
  }

  /* ---------------- Cursor facts ---------------- */

  /** Find stops exactly at `to` when nothing before it is a stop character and `to` is one (or the end). */
  lemma FindAt(s: string, from: nat, to: nat, stops: set<char>)
    requires from <= to <= |s|
    requires forall k :: from <= k < to ==> s[k] !in stops
    requires to == |s| || s[to] in stops
    ensures Find(s, from, stops) == to
    decreases |s| - from
  {
    if from < to {
      FindAt(s, from + 1, to, stops);
    }
  }

  /** Appending one character changes Find only when the search ran off the end. */
  lemma FindSnoc(s: string, c: char, from: nat, stops: set<char>)
    requires from <= |s|
    ensures Find(s, from, stops) < |s| ==> Find(s + [c], from, stops) == Find(s, from, stops)
    ensures Find(s, from, stops) == |s| && c in stops ==> Find(s + [c], from, stops) == |s|
  {
    var t := s + [c];
    var i := Find(s, from, stops);
    FindSkips(s, from, stops);
    if i < |s| {
      FindAt(t, from, i, stops);
    } else if c in stops {
      FindAt(t, from, |s|, stops);
    }
  }

  /* ---------------- Round trips ---------------- */

  lemma RenderedElementShape(render: Option<Registry>, e: Element)
    requires Renderable(e)
    ensures |RenderElement(render, e)| > 0
    ensures PrefixForm(render, e) ==> RenderElement(render, e) == render.value.prefixOf[e.ns] + ":" + e.name
    ensures e.ns == "" ==> RenderElement(render, e) == e.name
    ensures e.ns != "" && !PrefixForm(render, e) ==> RenderElement(render, e) == "{" + e.ns + "}" + e.name
  {
  }

  /** The facts about one parsed segment that the round trip needs. */
  predicate SegmentReadAs(parse: Option<Registry>, s: string, pos: nat, end: nat, e: Element)
    requires pos < |s| && end <= |s|
  {
    && SegmentNamespace(parse, s, pos).Success?
    && SegmentNamespace(parse, s, pos).value.1 <= end
    && Find(s, SegmentNamespace(parse, s, pos).value.1, {'/'}) == end
    && NewElement(SegmentNamespace(parse, s, pos).value.0, s[SegmentNamespace(parse, s, pos).value.1..end]) == e
  }

  lemma SliceOf(s: string, pos: nat, end: nat, t: string, i: nat, j: nat)
    requires pos <= end <= |s| && s[pos..end] == t && i <= j <= |t|
    ensures s[pos + i..pos + j] == t[i..j]
  {
    forall k | 0 <= k < j - i
      ensures s[pos + i..pos + j][k] == t[i..j][k]
    {
      assert s[pos + i + k] == s[pos..end][i + k];
    }
  }

  /** Find runs over a stretch holding none of the stop characters and halts right after it. */
  lemma FindOverSlice(s: string, from: nat, to: nat, stops: set<char>)
    requires from <= to <= |s|
    requires forall c :: c in stops ==> c !in s[from..to]
    requires to == |s| || s[to] in stops
    ensures Find(s, from, stops) == to
  {
    forall k | from <= k < to
      ensures s[k] !in stops
    {
      assert s[k] == s[from..to][k - from];
    }
    FindAt(s, from, to, stops);
  }

  lemma PlainSegmentReadsBack(parse: Option<Registry>, e: Element, s: string, pos: nat, end: nat)
    requires Renderable(e) && e.ns == ""
    requires pos <= end <= |s| && s[pos..end] == e.name
    requires end == |s| || s[end] == '/'
    ensures pos < |s| && SegmentReadAs(parse, s, pos, end, e)
  {
    assert s[pos] == e.name[0];
    FindOverSlice(s, pos, end, {'/', ':'});
    FindOverSlice(s, pos, end, {'/'});
  }

  lemma PrefixSegmentReadsBack(parse: Option<Registry>, e: Element, prefix: string, s: string, pos: nat, end: nat)
    requires Renderable(e) && e.ns != "" && WellFormedPrefix(prefix)
    requires parse.Some? && prefix in parse.value.uriOf && parse.value.uriOf[prefix] == e.ns
    requires pos <= end <= |s| && s[pos..end] == prefix + ":" + e.name
    requires end == |s| || s[end] == '/'
    ensures pos < |s| && SegmentReadAs(parse, s, pos, end, e)
  {
    var t := prefix + ":" + e.name;
    var colon := pos + |prefix|;
    assert s[pos] != '{' && s[colon] == ':' && s[pos..colon] == prefix && s[colon + 1..end] == e.name by {
      assert s[colon] == t[|prefix|];
      assert s[pos] == t[0];
      SliceOf(s, pos, end, t, 0, |prefix|);
      assert t[0..|prefix|] == prefix;
      SliceOf(s, pos, end, t, |prefix| + 1, |t|);
      assert t[|prefix| + 1..|t|] == e.name;
    }
    assert Find(s, pos, {'/', ':'}) == colon by {
      FindOverSlice(s, pos, colon, {'/', ':'});
    }
    assert Find(s, colon + 1, {'/'}) == end by {
      FindOverSlice(s, colon + 1, end, {'/'});
    }
    assert SegmentNamespace(parse, s, pos) == Success((Some(e.ns), colon + 1));
    assert NewElement(Some(e.ns), s[colon + 1..end]) == e;
  }

  lemma ExpandedSegmentReadsBack(parse: Option<Registry>, e: Element, s: string, pos: nat, end: nat)
    requires Renderable(e) && e.ns != ""
    requires pos <= end <= |s| && s[pos..end] == "{" + e.ns + "}" + e.name
    requires end == |s| || s[end] == '/'
    ensures pos < |s| && SegmentReadAs(parse, s, pos, end, e)
  {
    var t := "{" + e.ns + "}" + e.name;
    var close := pos + 1 + |e.ns|;
    assert s[pos] == '{' && s[close] == '}' && s[pos + 1..close] == e.ns && s[close + 1..end] == e.name by {
      assert s[pos] == t[0];
      assert s[close] == t[1 + |e.ns|];
      SliceOf(s, pos, end, t, 1, 1 + |e.ns|);
      assert t[1..1 + |e.ns|] == e.ns;
      SliceOf(s, pos, end, t, 2 + |e.ns|, |t|);
      assert t[2 + |e.ns|..|t|] == e.name;
    }
    assert Find(s, pos + 1, {'}'}) == close by {
      FindOverSlice(s, pos + 1, close, {'}'});
    }
    assert Find(s, close + 1, {'/'}) == end by {
      FindOverSlice(s, close + 1, end, {'/'});
    }
    assert SegmentNamespace(parse, s, pos) == Success((Some(e.ns), close + 1));
    assert NewElement(Some(e.ns), s[close + 1..end]) == e;
  }

  /** One rendered segment, followed by `/` or the end of the text, parses back to its element. */
  lemma SegmentReadsBack(parse: Option<Registry>, render: Option<Registry>, e: Element, s: string, pos: nat, end: nat)
    requires ReadsBack(parse, render, e)
    requires pos <= end <= |s|
    requires s[pos..end] == RenderElement(render, e)
    requires end == |s| || s[end] == '/'
    ensures pos < |s| && SegmentReadAs(parse, s, pos, end, e)
  {
    RenderedElementShape(render, e);
    if e.ns == "" {
      PlainSegmentReadsBack(parse, e, s, pos, end);
    } else if PrefixForm(render, e) {
      PrefixSegmentReadsBack(parse, e, render.value.prefixOf[e.ns], s, pos, end);
    } else {
      ExpandedSegmentReadsBack(parse, e, s, pos, end);
    }
  }

  /** Every element of the list reads back, stated element by element from the head. */
  predicate AllReadBack(parse: Option<Registry>, render: Option<Registry>, els: seq<Element>)
    decreases |els|
  {
    |els| == 0 || (ReadsBack(parse, render, els[0]) && AllReadBack(parse, render, els[1..]))
  }

  lemma {:induction false} AllReadBackFromEach(parse: Option<Registry>, render: Option<Registry>, els: seq<Element>)
    requires forall i :: 0 <= i < |els| ==> ReadsBack(parse, render, els[i])
    ensures AllReadBack(parse, render, els)
    decreases |els|
  {
    if |els| > 0 {
      var rest := els[1..];
      forall i | 0 <= i < |rest| ensures ReadsBack(parse, render, rest[i]) {
        assert rest[i] == els[i + 1];
      }
      AllReadBackFromEach(parse, render, rest);
    }
  }

  /**
   * The elements rendered one after another from `pos`, separated by single `/`s and running to
   * the end of the text.
   */
  predicate RenderedAt(render: Option<Registry>, els: seq<Element>, s: string, pos: nat)
    decreases |els|
  {
    && |els| > 0
    && var end := pos + |RenderElement(render, els[0])|;
    && end <= |s| && s[pos..end] == RenderElement(render, els[0])
    && if |els| == 1 then end == |s|
       else end < |s| && s[end] == '/' && RenderedAt(render, els[1..], s, end + 1)
  }

  /** The text after `pos` being the rendering of the list means the list is rendered at `pos`. */
  lemma {:induction false} RenderingIsRenderedAt(render: Option<Registry>, els: seq<Element>, s: string, pos: nat)
    requires |els| > 0 && pos <= |s| && s[pos..] == RenderElements(render, els)
    ensures RenderedAt(render, els, s, pos)
    decreases |els|
  {
    var r := RenderElement(render, els[0]);
    var end := pos + |r|;
    if |els| == 1 {
      assert RenderElements(render, els) == r;
      assert end == |s| && s[pos..end] == r;
      RenderedAtLast(render, els, s, pos);
    } else {
      SplitRendering(render, els, s, pos);
      RenderingIsRenderedAt(render, els[1..], s, end + 1);
      RenderedAtCons(render, els, s, pos);
    }
  }

  lemma RenderedAtLast(render: Option<Registry>, els: seq<Element>, s: string, pos: nat)
    requires |els| == 1 && pos + |RenderElement(render, els[0])| == |s|
    requires s[pos..|s|] == RenderElement(render, els[0])
    ensures RenderedAt(render, els, s, pos)
  {
  }

  lemma RenderedAtCons(render: Option<Registry>, els: seq<Element>, s: string, pos: nat)
    requires |els| > 1
    requires var end := pos + |RenderElement(render, els[0])|;
             && end < |s| && s[pos..end] == RenderElement(render, els[0]) && s[end] == '/'
             && RenderedAt(render, els[1..], s, end + 1)
    ensures RenderedAt(render, els, s, pos)
  {
  }

  /** The element the parser's loop reads from the segment at `pos`. */
  function ElementAt(registry: Option<Registry>, s: string, pos: nat): Element
    requires pos < |s| && SegmentNamespace(registry, s, pos).Success?
  {
    var (ns, nameStart) := SegmentNamespace(registry, s, pos).value;
    NewElement(ns, s[nameStart..Find(s, nameStart, {'/'})])
  }

  /** Where the parser's loop resumes after the segment at `pos`: past its `/`, or at the end. */
  function NextSegment(registry: Option<Registry>, s: string, pos: nat): (next: nat)
    requires pos < |s| && SegmentNamespace(registry, s, pos).Success?
    ensures next <= |s|
  {
    var slash := Find(s, SegmentNamespace(registry, s, pos).value.1, {'/'});
    if slash < |s| then slash + 1 else slash
  }

  /** One turn of the parser's loop, failure of the rest included. */
  lemma ParseUnfold(registry: Option<Registry>, s: string, pos: nat)
    requires pos < |s| && SegmentNamespace(registry, s, pos).Success?
    ensures var next := NextSegment(registry, s, pos);
            ParseSegments(registry, s, pos) ==
              if ParseSegments(registry, s, next).Success?
              then Success([ElementAt(registry, s, pos)] + ParseSegments(registry, s, next).value)
              else ParseSegments(registry, s, next)
  {
  }

  /** A segment read as `e` and ending at `end` yields `e` and resumes past `end`. */
  lemma SegmentReadAsStep(parse: Option<Registry>, s: string, pos: nat, end: nat, e: Element)
    requires pos < |s| && end <= |s| && SegmentReadAs(parse, s, pos, end, e)
    ensures ElementAt(parse, s, pos) == e
    ensures NextSegment(parse, s, pos) == if end < |s| then end + 1 else end
  {
  }

  /** Segment by segment from `pos`, the parser's loop reads exactly `els` and reaches the end. */
  predicate ReadsAs(parse: Option<Registry>, s: string, pos: nat, els: seq<Element>)
    decreases |els|
  {
    && |els| > 0 && pos < |s| && SegmentNamespace(parse, s, pos).Success?
    && ElementAt(parse, s, pos) == els[0]
    && if |els| == 1 then NextSegment(parse, s, pos) == |s|
       else NextSegment(parse, s, pos) < |s| && ReadsAs(parse, s, NextSegment(parse, s, pos), els[1..])
  }

  /** Rendered elements that each read back are read segment by segment. */
  lemma {:induction false} RenderedReadsAs(parse: Option<Registry>, render: Option<Registry>, els: seq<Element>, s: string, pos: nat)
    requires AllReadBack(parse, render, els) && RenderedAt(render, els, s, pos)
    ensures ReadsAs(parse, s, pos, els)
    decreases |els|
  {
    var end := pos + |RenderElement(render, els[0])|;
    if |els| > 1 {
      RenderedReadsAs(parse, render, els[1..], s, end + 1);
    }
    SegmentReadsBack(parse, render, els[0], s, pos, end);
    SegmentReadAsStep(parse, s, pos, end, els[0]);
  }

  /** The parser's loop over segments read as `els` collects exactly `els`. */
  lemma {:induction false} ReadsAsParse(parse: Option<Registry>, s: string, pos: nat, els: seq<Element>)
    requires ReadsAs(parse, s, pos, els)
    ensures ParseSegments(parse, s, pos) == Success(els)
    decreases |els|
  {
    if |els| == 1 {
      LastSegmentParses(parse, s, pos, els);
    } else {
      ReadsAsParse(parse, s, NextSegment(parse, s, pos), els[1..]);
      ConsSegmentParses(parse, s, pos, els);
    }
  }

  lemma LastSegmentParses(parse: Option<Registry>, s: string, pos: nat, els: seq<Element>)
    requires |els| == 1 && pos < |s| && SegmentNamespace(parse, s, pos).Success?
    requires ElementAt(parse, s, pos) == els[0] && NextSegment(parse, s, pos) == |s|
    ensures ParseSegments(parse, s, pos) == Success(els)
  {
    ParseUnfold(parse, s, pos);
    assert [els[0]] + [] == els;
  }

  lemma ConsSegmentParses(parse: Option<Registry>, s: string, pos: nat, els: seq<Element>)
    requires |els| > 1 && pos < |s| && SegmentNamespace(parse, s, pos).Success?
    requires ElementAt(parse, s, pos) == els[0]
    requires ParseSegments(parse, s, NextSegment(parse, s, pos)) == Success(els[1..])
    ensures ParseSegments(parse, s, pos) == Success(els)
  {
    ParseUnfold(parse, s, pos);
    assert [els[0]] + els[1..] == els;
  }

  /** The rendering of a list of elements, found at `pos`, parses back to exactly that list. */
  lemma ElementsReadBack(parse: Option<Registry>, render: Option<Registry>, els: seq<Element>, s: string, pos: nat)
    requires AllReadBack(parse, render, els) && RenderedAt(render, els, s, pos)
    ensures ParseSegments(parse, s, pos) == Success(els)
  {
    RenderedReadsAs(parse, render, els, s, pos);
    ReadsAsParse(parse, s, pos, els);
  }

  lemma SplitRendering(render: Option<Registry>, els: seq<Element>, s: string, pos: nat)
    requires |els| > 1 && pos <= |s| && s[pos..] == RenderElements(render, els)
    ensures var r := RenderElement(render, els[0]);
            && pos + |r| < |s| && s[pos..pos + |r|] == r && s[pos + |r|] == '/'
            && s[pos + |r| + 1..] == RenderElements(render, els[1..])
  {
    var r := RenderElement(render, els[0]);
    var tail := RenderElements(render, els[1..]);
    assert s[pos..] == r + "/" + tail;
    assert s[pos..][|r|] == '/';
    assert s[pos..][|r| + 1..] == tail;
    assert s[pos..][..|r|] == r;
  }

  /**
   * The general round trip: a path that is absolute or non-empty, rendered under `render`,
   * parses under `parse` to the same path, provided every element reads back.
   */
  lemma ReadBack(parse: Option<Registry>, render: Option<Registry>, p: Path)
    requires p.absolute || |p.elements| > 0
    requires forall i :: 0 <= i < |p.elements| ==> ReadsBack(parse, render, p.elements[i])
    ensures Parse(parse, Render(render, p)) == Success(p)
  {
    var s := Render(render, p);
    var body := RenderElements(render, p.elements);
    if p.absolute {
      assert s == "/" + body;
      if |p.elements| > 0 {
        AllReadBackFromEach(parse, render, p.elements);
        assert s[1..] == body;
        RenderingIsRenderedAt(render, p.elements, s, 1);
        ElementsReadBack(parse, render, p.elements, s, 1);
      }
    } else {
      assert s == body;
      var e := p.elements[0];
      assert ReadsBack(parse, render, e);
      RenderedFirstChar(parse, render, p.elements);
      assert s[0..] == body;
      AllReadBackFromEach(parse, render, p.elements);
      RenderingIsRenderedAt(render, p.elements, s, 0);
      ElementsReadBack(parse, render, p.elements, s, 0);
    }
  }

  lemma RenderedFirstChar(parse: Option<Registry>, render: Option<Registry>, els: seq<Element>)
    requires |els| > 0
    requires ReadsBack(parse, render, els[0])
    ensures |RenderElements(render, els)| > 0 && RenderElements(render, els)[0] != '/'
  {
    var e := els[0];
    RenderedElementShape(render, e);
    var r := RenderElement(render, e);
    assert RenderElements(render, els)[..|r|] == r;
    if PrefixForm(render, e) {
      var prefix := render.value.prefixOf[e.ns];
      if |prefix| > 0 {
        assert r[0] == prefix[0];
      }
    } else if e.ns == "" {
      assert r[0] == e.name[0];
    }
  }

  /**
   * parse(null, p.toString()) == p for every path that is absolute or non-empty whose names are
   * non-empty and free of `/`, `:` and `{` and whose URIs contain no `}`.
   */
  lemma ToStringRoundTrip(p: Path)
    requires p.absolute || |p.elements| > 0
    requires forall i :: 0 <= i < |p.elements| ==> Renderable(p.elements[i])
    ensures Parse(None, p.ToString()) == Success(p)
  {
    ReadBack(None, None, p);
  }

  /** A renderable element's toString() reads back as the one-element relative path of it. */
  lemma ElementRoundTrip(e: Element)
    requires Renderable(e)
    ensures Parse(None, e.ToString()) == Success(Path(false, [e]))
  {
    var p := Path(false, [e]);
    assert RenderElements(None, p.elements) == RenderElement(None, e);
    assert p.ToString() == "" + e.ToString() == e.ToString();
    ToStringRoundTrip(p);
  }

  /** parse(registry, p.toString(registry)) == p when the registry's two directions agree. */
  lemma ToStringWithRoundTrip(registry: Registry, p: Path)
    requires RegistryConsistent(registry)
    requires p.absolute || |p.elements| > 0
    requires forall i :: 0 <= i < |p.elements| ==> Renderable(p.elements[i])
    ensures Parse(Some(registry), p.ToStringWith(registry)) == Success(p)
  {
    ReadBack(Some(registry), Some(registry), p);
  }

  /** With prefix `ns` bound to `http://x`, `ns:foo` and `{http://x}foo` parse to the same path. */
  lemma PrefixedAndExpandedAgree()
    ensures var registry := Registry(map["ns" := "http://x"], map["http://x" := "ns"]);
            var p := Path(false, [Element("http://x", "foo")]);
            && p.ToStringWith(registry) == "ns:foo"
            && p.ToString() == "{http://x}foo"
            && Parse(Some(registry), "ns:foo") == Success(p)
            && Parse(Some(registry), "{http://x}foo") == Success(p)
  {
    var registry := Registry(map["ns" := "http://x"], map["http://x" := "ns"]);
    var e := Element("http://x", "foo");
    var p := Path(false, [e]);
    assert Renderable(e) by {
      assert IsTrimmed("http://x");
      assert '}' !in e.ns && '/' !in e.name && ':' !in e.name && '{' !in e.name;
    }
    assert WellFormedPrefix("ns");
    assert ReadsBack(Some(registry), Some(registry), e);
    assert ReadsBack(Some(registry), None, e);
    assert p.ToStringWith(registry) == "ns:foo";
    assert p.ToString() == "{http://x}foo";
    ReadBack(Some(registry), Some(registry), p);
    ReadBack(Some(registry), None, p);
  }

  /* ---------------- Failures and edge cases of the parser ---------------- */

  /** The cursor position of the first segment: after a leading `/`, else 0. */
  function FirstSegment(s: string): nat
    requires |s| > 0
  {
    if s[0] == '/' then 1 else 0
  }

  /** A `{` opening a segment with no `}` anywhere after it fails with the offset of the `{`. */
  lemma UnterminatedUri(registry: Option<Registry>, s: string)
    requires |s| > 0 && FirstSegment(s) < |s|
    requires s[FirstSegment(s)] == '{'
    requires forall k :: FirstSegment(s) < k < |s| ==> s[k] != '}'
    ensures Parse(registry, s) == Failure(MalformedUri(FirstSegment(s)))
  {
    var start := FirstSegment(s);
    FindAt(s, start + 1, |s|, {'}'});
  }

  /**
   * A first segment `prefix:...` with no `/` before the `:` resolves through the registry: with no
   * registry the parse fails naming the prefix, with an unknown prefix it fails likewise, and
   * otherwise the element's namespace is the trimmed URI.
   */
  lemma QualifiedSegment(registry: Option<Registry>, s: string, colon: nat)
    requires |s| > 0 && FirstSegment(s) <= colon < |s|
    requires s[FirstSegment(s)] != '{' && s[colon] == ':'
    requires forall k :: FirstSegment(s) <= k < colon ==> s[k] != '/' && s[k] != ':'
    ensures var prefix := s[FirstSegment(s)..colon];
            && (registry.None? ==> Parse(registry, s) == Failure(NoRegistry(prefix)))
            && (registry.Some? && prefix !in registry.value.uriOf ==> Parse(registry, s) == Failure(UnknownPrefix(prefix)))
            && (registry.Some? && prefix in registry.value.uriOf && Parse(registry, s).Success? ==>
                  Parse(registry, s).value.elements[0].ns == Trim(registry.value.uriOf[prefix]))
  {
    FindAt(s, FirstSegment(s), colon, {'/', ':'});
  }

  /** A first segment with no `:` before its `/` (or the end) is an unqualified element. */
  lemma UnqualifiedSegment(registry: Option<Registry>, s: string, end: nat)
    requires |s| > 0 && FirstSegment(s) < end <= |s|
    requires s[FirstSegment(s)] != '{'
    requires forall k :: FirstSegment(s) <= k < end ==> s[k] != '/' && s[k] != ':'
    requires end == |s| || s[end] == '/'
    ensures Parse(registry, s).Success? ==> Parse(registry, s).value.elements[0] == Element("", s[FirstSegment(s)..end])
  {
    var start := FirstSegment(s);
    FindAt(s, start, end, {'/', ':'});
    FindAt(s, start, end, {'/'});
  }

  lemma NamespaceIgnoresTrailingSlash(registry: Option<Registry>, s: string, pos: nat)
    requires pos < |s|
    ensures SegmentNamespace(registry, s + "/", pos) == SegmentNamespace(registry, s, pos)
  {
    var t := s + "/";
    assert t[pos] == s[pos];
    if s[pos] == '{' {
      FindSnoc(s, '/', pos + 1, {'}'});
      FindSkips(s, pos + 1, {'}'});
      var close := Find(s, pos + 1, {'}'});
      if close == |s| {
        FindAt(t, pos + 1, |t|, {'}'});
      } else {
        assert t[pos + 1..close] == s[pos + 1..close];
      }
    } else {
      FindSnoc(s, '/', pos, {'/', ':'});
      var stop := Find(s, pos, {'/', ':'});
      if stop < |s| {
        assert t[stop] == s[stop];
        assert t[pos..stop] == s[pos..stop];
      }
    }
  }

  /**
   * A segment whose namespace reads without error is read the same way, ends at the same `/` or
   * at the old end, and has the same name once a `/` is appended to the text.
   */
  lemma SegmentIgnoresTrailingSlash(registry: Option<Registry>, s: string, pos: nat)
    requires pos < |s| && SegmentNamespace(registry, s, pos).Success?
    ensures var t := s + "/";
            var nameStart := SegmentNamespace(registry, s, pos).value.1;
            var slash := Find(s, nameStart, {'/'});
            && SegmentNamespace(registry, t, pos) == SegmentNamespace(registry, s, pos)
            && Find(t, nameStart, {'/'}) == slash
            && ElementAt(registry, t, pos) == ElementAt(registry, s, pos)
  {
    var t := s + "/";
    NamespaceIgnoresTrailingSlash(registry, s, pos);
    var nameStart := SegmentNamespace(registry, s, pos).value.1;
    FindSnoc(s, '/', nameStart, {'/'});
    var slash := Find(s, nameStart, {'/'});
    assert t[nameStart..slash] == s[nameStart..slash];
  }

  /**
   * Two texts whose segments at `pos` read the same namespace and the same name, and whose loops
   * then resume with equal results, parse equally from `pos`.
   */
  lemma SameStepSameParse(registry: Option<Registry>, s: string, t: string, pos: nat)
    requires pos < |s| && pos < |t| && SegmentNamespace(registry, s, pos).Success?
    requires SegmentNamespace(registry, t, pos) == SegmentNamespace(registry, s, pos)
    requires ElementAt(registry, t, pos) == ElementAt(registry, s, pos)
    requires ParseSegments(registry, t, NextSegment(registry, t, pos)) == ParseSegments(registry, s, NextSegment(registry, s, pos))
    ensures ParseSegments(registry, t, pos) == ParseSegments(registry, s, pos)
  {
    ParseUnfold(registry, s, pos);
    ParseUnfold(registry, t, pos);
  }

  lemma {:induction false} SegmentsIgnoreTrailingSlash(registry: Option<Registry>, s: string, pos: nat)
    requires pos < |s| && s[|s| - 1] != '/'
    ensures ParseSegments(registry, s + "/", pos) == ParseSegments(registry, s, pos)
    decreases |s| - pos
  {
    var t := s + "/";
    if SegmentNamespace(registry, s, pos).Success? {
      SegmentIgnoresTrailingSlash(registry, s, pos);
      var next := NextSegment(registry, s, pos);
      if next < |s| {
        SegmentsIgnoreTrailingSlash(registry, s, next);
        assert NextSegment(registry, t, pos) == next;
      } else {
        assert NextSegment(registry, t, pos) == |t|;
      }
      SameStepSameParse(registry, s, t, pos);
    } else {
      NamespaceIgnoresTrailingSlash(registry, s, pos);
    }
  }

  /** A trailing `/` adds no element: parse("a/") equals parse("a"). */
  lemma TrailingSlashIgnored(registry: Option<Registry>, s: string)
    requires |s| > 0 && s[|s| - 1] != '/'
    ensures Parse(registry, s + "/") == Parse(registry, s)
  {
    var t := s + "/";
    assert t[0] == s[0];
    SegmentsIgnoreTrailingSlash(registry, s, FirstSegment(s));
  }

  /** Empty names are not rejected: "a//b" has an empty-named middle element. */
  lemma EmptyNamesKept()
    ensures Parse(None, "a//b") == Success(Path(false, [Element("", "a"), Element("", ""), Element("", "b")]))
  {
    var s := "a//b";
    FindAt(s, 0, 1, {'/', ':'});
    FindAt(s, 0, 1, {'/'});
    FindAt(s, 2, 2, {'/', ':'});
    FindAt(s, 2, 2, {'/'});
    FindAt(s, 3, 4, {'/', ':'});
    FindAt(s, 3, 4, {'/'});
    var ea, e0, eb := Element("", "a"), Element("", ""), Element("", "b");
    assert SegmentNamespace(None, s, 3) == Success((None, 3));
    assert s[3..4] == "b";
    assert SegmentReadAs(None, s, 3, 4, eb);
    SegmentReadAsStep(None, s, 3, 4, eb);
    assert SegmentNamespace(None, s, 2) == Success((None, 2));
    assert s[2..2] == "";
    assert SegmentReadAs(None, s, 2, 2, e0);
    SegmentReadAsStep(None, s, 2, 2, e0);
    assert SegmentNamespace(None, s, 0) == Success((None, 0));
    assert s[0..1] == "a";
    assert SegmentReadAs(None, s, 0, 1, ea);
    SegmentReadAsStep(None, s, 0, 1, ea);
    var els := [ea, e0, eb];
    assert els[1..] == [e0, eb] && els[1..][1..] == [eb];
    assert ReadsAs(None, s, 0, els);
    ReadsAsParse(None, s, 0, els);
  }

  /* ---------------- Derived operations ---------------- */

  /** child().next(n).get().parent() is the original path. */
  lemma ChildThenParent(p: Path, uri: Option<string>, name: string)
    ensures p.Child().Next(uri, name).Get().Parent() == p
  {
    var q := p.Child().Next(uri, name).Get();
    assert q.elements[..|q.elements| - 1] == p.elements;
  }

  /** absolute() and relative() are idempotent and undo each other. */
  lemma AbsoluteRelativeLaws(p: Path)
    ensures p.ToAbsolute().ToAbsolute() == p.ToAbsolute()
    ensures p.ToRelative().ToRelative() == p.ToRelative()
    ensures p.ToAbsolute().ToRelative() == p.ToRelative()
    ensures p.ToRelative().ToAbsolute() == p.ToAbsolute()
    ensures p.ToAbsolute().IsEmpty() == p.IsEmpty() && p.ToRelative().IsEmpty() == p.IsEmpty()
  {
  }

  /** parse("/a/b").parent() == parse("/a"), and the empty path is its own parent. */
  lemma ParentOfParsed()
    ensures Parse(None, "/a/b").Success? && Parse(None, "/a").Success?
    ensures Parse(None, "/a/b").value.Parent() == Parse(None, "/a").value
    ensures Parse(None, "/").value.Parent() == Parse(None, "/").value
  {
    var ab := Path(true, [Element("", "a"), Element("", "b")]);
    var a := Path(true, [Element("", "a")]);
    assert ab.ToString() == "/a/b";
    assert a.ToString() == "/a";
    ToStringRoundTrip(ab);
    ToStringRoundTrip(a);
    assert ab.Parent() == a;
  }

  /** Path.equals holds exactly when the two paths are the same value. */
  lemma {:induction false} ElementListEqualsIsEquality(a: seq<Element>, b: seq<Element>)
    ensures ElementListEquals(a, b) <==> a == b
    decreases |a|
  {
    if |a| > 0 && |b| > 0 {
      ElementListEqualsIsEquality(a[1..], b[1..]);
      if a[0] == b[0] && a[1..] == b[1..] && |a| == |b| {
        assert a == [a[0]] + a[1..] && b == [b[0]] + b[1..];
      }
    }
  }

  lemma PathEqualsIsEquality(p: Path, q: Path)
    ensures PathEquals(p, q) <==> p == q
  {
    ElementListEqualsIsEquality(p.elements, q.elements);
  }

  /** A registry that maps no URI renders every path exactly as toString() does. */
  lemma {:induction false} EmptyRegistryRendersPlain(registry: Registry, els: seq<Element>)
    requires registry.prefixOf == map[]
    ensures RenderElements(Some(registry), els) == RenderElements(None, els)
    ensures Path(true, els).ToStringWith(registry) == Path(true, els).ToString()
    ensures Path(false, els).ToStringWith(registry) == Path(false, els).ToString()
    decreases |els|
  {
    if |els| > 1 {
      EmptyRegistryRendersPlain(registry, els[1..]);
    }
  }
}

=== FILE: paths.dfy ===
/**
 * jcrbox's Path: an absolute flag and a list of (namespace URI, local name) elements, its builder,
 * its left-to-right cursor parser over the two JCR name forms (expanded `{uri}local` and qualified
 * `prefix:local`, section 3.2.5 of the JCR 2.0 specification, JSR 283) and its renderings.
 */
module Paths {
  import opened Wrappers
  import opened Text

  /** Path.Element: a namespace URI, "" when the element is unqualified, and a local name. */
  datatype Element = Element(ns: string, name: string) {

    /** Element.toString(): `name` when unqualified, `{ns}name` otherwise. */
    function ToString(): (r: string)
      ensures ns == "" ==> r == name
      ensures ns != "" ==> r == "{" + ns + "}" + name
    {
      RenderElement(None, this)
    }

    /** Element.toString(NamespaceRegistry): `prefix:name` when the registry knows the URI. */
    function ToStringWith(registry: Registry): (r: string)
      ensures ns == "" ==> r == name
      ensures ns != "" && ns in registry.prefixOf ==> r == registry.prefixOf[ns] + ":" + name
      ensures ns != "" && ns !in registry.prefixOf ==> r == ToString()
    {
      RenderElement(Some(registry), this)
    }
  }

  /**
   * The NamespaceRegistry collaborator: getURI(prefix) reads `uriOf`, getPrefix(uri) reads
   * `prefixOf`; a key that is absent stands for the NamespaceException either would throw.
   */
  datatype Registry = Registry(uriOf: map<string, string>, prefixOf: map<string, string>)

  /** The exceptions the parser lets escape. */
  datatype PathError =
    | EmptyPath                   // charAt(0) of ""
    | MalformedUri(start: nat)    // a `{` with no closing `}`; the offset of the `{`
    | NoRegistry(prefix: string)  // a `prefix:` with no registry to resolve it
    | UnknownPrefix(prefix: string) // the registry's getURI throws

  /**
   * The private Element constructor: the namespace is passed through StringUtils.trimToEmpty,
   * so null (the parser's "no namespace") becomes "".
   */
  function NewElement(ns: Option<string>, name: string): (e: Element)
    ensures e.name == name
    ensures IsTrimmed(e.ns)
    ensures ns.None? ==> e.ns == ""
    ensures ns.Some? && IsTrimmed(ns.value) ==> e.ns == ns.value
  {
    Element(TrimToEmpty(ns), name)
  }

  /** Element.equals: equal namespace and equal name. */
  predicate ElementEquals(a: Element, b: Element) {
    a.ns == b.ns && a.name == b.name
  }

  /** Every element went through NewElement, so its namespace is trimmed. */
  predicate TrimmedNamespaces(els: seq<Element>) {
    forall i :: 0 <= i < |els| ==> IsTrimmed(els[i].ns)
  }

  /** The elements a Path can hold. */
  predicate ValidPath(p: Path) {
    TrimmedNamespaces(p.elements)
  }

  /** Path.Builder: an absolute flag (false until set) and the elements added so far. */
  datatype Builder = Builder(absolute: bool, elements: seq<Element>) {

    /** Builder.absolute(boolean). */
    function Absolute(flag: bool): (b: Builder)
      ensures b.absolute == flag && b.elements == elements
    {
      this.(absolute := flag)
    }

    /** Builder.next(uri, name): appends one element, trimming the URI. */
    function Next(uri: Option<string>, name: string): (b: Builder)
      ensures b.absolute == absolute
      ensures |b.elements| == |elements| + 1 && b.elements[..|elements|] == elements
      ensures b.elements[|elements|] == NewElement(uri, name)
    {
      this.(elements := elements + [NewElement(uri, name)])
    }

    /** Builder.next(name): an unqualified element. */
    function NextName(name: string): (b: Builder)
      ensures b.elements == elements + [Element("", name)]
      ensures b.absolute == absolute
    {
      Next(Some(""), name)
    }

    /** Builder.get(). */
    function Get(): (p: Path)
      ensures p.absolute == absolute && p.elements == elements
    {
      Path(absolute, elements)
    }
  }

  /** Path.builder(): relative and empty. */
  const NewBuilder: Builder := Builder(false, [])

  /** An immutable path; Path.equals compares exactly these two fields. */
  datatype Path = Path(absolute: bool, elements: seq<Element>) {

    predicate IsRelative() {
      !absolute
    }

    predicate IsEmpty() {
      |elements| == 0
    }

    /** Path.parent(): the empty path is its own parent, otherwise the last element is dropped. */
    function Parent(): (r: Path)
      ensures |elements| == 0 ==> r == this
      ensures |elements| > 0 ==> r.absolute == absolute && r.elements + [elements[|elements| - 1]] == elements
    {
      if |elements| == 0 then this else Path(absolute, elements[..|elements| - 1])
    }

    /** Path.absolute(): this path when already absolute, else the same elements flagged absolute. */
    function ToAbsolute(): (r: Path)
      ensures r.absolute && r.elements == elements
      ensures absolute ==> r == this
    {
      if absolute then this else Path(true, elements)
    }

    /** Path.relative(): this path when already relative, else the same elements flagged relative. */
    function ToRelative(): (r: Path)
      ensures !r.absolute && r.elements == elements
      ensures !absolute ==> r == this
    {
      if absolute then Path(false, elements) else this
    }

    /** Path.child(): a builder seeded with this path's flag and elements. */
    function Child(): (b: Builder)
      ensures b.Get() == this
    {
      Builder(false, elements).Absolute(absolute)
    }

    /** Path.toString(): elements joined by `/`, with a leading `/` iff absolute. */
    function ToString(): (r: string)
      ensures absolute ==> |r| > 0 && r[0] == '/'
      ensures |elements| == 0 ==> (r == "/" <==> absolute) && (r == "" <==> !absolute)
    {
      Render(None, this)
    }

    /**
     * Path.toString(NamespaceRegistry): the same shape as toString(), with known URIs written as
     * their prefixes.
     */
    function ToStringWith(registry: Registry): (r: string)
      ensures absolute ==> |r| > 0 && r[0] == '/'
      ensures |elements| == 0 ==> r == ToString()
      ensures |elements| == 1 ==> r == (if absolute then "/" else "") + elements[0].ToStringWith(registry)
    {
      Render(Some(registry), this)
    }
  }

  /* ---------------- Rendering ---------------- */

  /** One element, rendered with the registry when one is given and it knows the URI. */
  function RenderElement(registry: Option<Registry>, e: Element): string {
    if e.ns == "" then e.name
    else if registry.Some? && e.ns in registry.value.prefixOf then registry.value.prefixOf[e.ns] + ":" + e.name
    else "{" + e.ns + "}" + e.name
  }

  /** The elements, rendered one by one and joined by `/`. */
  function RenderElements(registry: Option<Registry>, els: seq<Element>): string
    decreases |els|
  {
    if |els| == 0 then ""
    else if |els| == 1 then RenderElement(registry, els[0])
    else RenderElement(registry, els[0]) + "/" + RenderElements(registry, els[1..])
  }

  function Render(registry: Option<Registry>, p: Path): string {
    (if p.absolute then "/" else "") + RenderElements(registry, p.elements)
  }

  /* ---------------- Parsing ---------------- */

  /**
   * String.indexOf generalised to a set of characters: the first index at or after `from` whose
   * character is in `stops`, or |s| when there is none.
   */
  function Find(s: string, from: nat, stops: set<char>): (i: nat)
    requires from <= |s|
    ensures from <= i <= |s|
    ensures i < |s| ==> s[i] in stops
    decreases |s| - from
  {
    if from == |s| || s[from] in stops then from else Find(s, from + 1, stops)
  }

  /** Find skips only characters outside `stops`. */
  lemma {:induction false} FindSkips(s: string, from: nat, stops: set<char>)
    requires from <= |s|
    ensures forall k :: from <= k < Find(s, from, stops) ==> s[k] !in stops
    decreases |s| - from
  {
    if from < |s| && s[from] !in stops {
      FindSkips(s, from + 1, stops);
    }
  }

  /**
   * Parser.namespace(): at a segment start, either `{uri}` (the text up to the next `}`, which must
   * exist), or `prefix:` when a `:` comes before any `/` (resolved through the registry), or no
   * namespace at all. Also returns where the local name starts.
   */
  function SegmentNamespace(registry: Option<Registry>, s: string, start: nat): (r: Result<(Option<string>, nat), PathError>)
    requires start < |s|
    ensures r.Success? ==> start <= r.value.1 <= |s|
    ensures r.Success? && r.value.0.None? ==> r.value.1 == start
    ensures r.Failure? && s[start] == '{' ==> r.error == MalformedUri(start)
  {
    if s[start] == '{' then
      var close := Find(s, start + 1, {'}'});
      if close < |s| then Success((Some(s[start + 1..close]), close + 1))
      else Failure(MalformedUri(start))
    else
      var stop := Find(s, start, {'/', ':'});
      if stop < |s| && s[stop] == ':' then
        var prefix := s[start..stop];
        if registry.None? then Failure(NoRegistry(prefix))
        else if prefix !in registry.value.uriOf then Failure(UnknownPrefix(prefix))
        else Success((Some(registry.value.uriOf[prefix]), stop + 1))
      else Success((None, start))
  }

  /**
   * The loop of Parser.parse from cursor `pos`: one element per segment, the local name running to
   * the next `/` (Parser.seek), and the `/` itself skipped.
   */
  function ParseSegments(registry: Option<Registry>, s: string, pos: nat): (r: Result<seq<Element>, PathError>)
    requires pos <= |s|
    ensures pos == |s| ==> r == Success([])
    ensures r.Failure? ==> !r.error.EmptyPath?
    ensures registry.None? && r.Failure? ==> !r.error.UnknownPrefix?
    decreases |s| - pos
  {
    if pos == |s| then Success([])
    else
      match SegmentNamespace(registry, s, pos)
      case Failure(err) => Failure(err)
      case Success((ns, nameStart)) =>
        var slash := Find(s, nameStart, {'/'});
        var next := if slash < |s| then slash + 1 else slash;
        match ParseSegments(registry, s, next)
        case Failure(err) => Failure(err)
        case Success(rest) => Success([NewElement(ns, s[nameStart..slash])] + rest)
  }

  /** Every element the loop collects went through NewElement, so its namespace is trimmed. */
  lemma {:induction false} SegmentsTrimmed(registry: Option<Registry>, s: string, pos: nat)
    requires pos <= |s|
    ensures ParseSegments(registry, s, pos).Success? ==> TrimmedNamespaces(ParseSegments(registry, s, pos).value)
    decreases |s| - pos
  {
    if pos < |s| && SegmentNamespace(registry, s, pos).Success? {
      var (ns, nameStart) := SegmentNamespace(registry, s, pos).value;
      var slash := Find(s, nameStart, {'/'});
      var next := if slash < |s| then slash + 1 else slash;
      SegmentsTrimmed(registry, s, next);
      if ParseSegments(registry, s, next).Success? {
        TrimmedCons(NewElement(ns, s[nameStart..slash]), ParseSegments(registry, s, next).value);
      }
    }
  }

  lemma TrimmedCons(e: Element, rest: seq<Element>)
    requires IsTrimmed(e.ns) && TrimmedNamespaces(rest)
    ensures TrimmedNamespaces([e] + rest)
  {
  }

  /**
   * Path.parse(registry, path): a leading `/` makes the path absolute; the first character is read
   * unconditionally, so "" is rejected; "/" is the absolute empty path.
   */
  function Parse(registry: Option<Registry>, s: string): (r: Result<Path, PathError>)
    ensures |s| == 0 <==> r == Failure(EmptyPath)
    ensures r.Success? ==> (r.value.absolute <==> s[0] == '/') && ValidPath(r.value)
    ensures s == "/" ==> r == Success(Path(true, []))
  {
    if |s| == 0 then Failure(EmptyPath)
    else
      var abs := s[0] == '/';
      SegmentsTrimmed(registry, s, if abs then 1 else 0);
      match ParseSegments(registry, s, if abs then 1 else 0)
      case Failure(err) => Failure(err)
      case Success(els) => Success(Path(abs, els))
  }

  /* ---------------- Equality ---------------- */

  /** List.equals over elements: same size and pairwise Element.equals. */
  predicate ElementListEquals(a: seq<Element>, b: seq<Element>)
    decreases |a|
  {
    |a| == |b| && (|a| == 0 || (ElementEquals(a[0], b[0]) && ElementListEquals(a[1..], b[1..])))
  }

  /** Path.equals: same absolute flag and equal element lists. */
  predicate PathEquals(p: Path, q: Path) {
    p.absolute == q.absolute && ElementListEquals(p.elements, q.elements)
  }
}

=== FILE: properties.dfy ===
/**
 * jcrbox.literal.JcrProperty.configure: validating a property literal's `PropertyDefinition` and
 * compiling it into a PropertyDefinitionTemplate. The ValueFactory is replaced by the `Value`
 * datatype: each createValue call becomes a constructor of it.
 */
module Properties {
  import opened Wrappers
  import opened Text
  import opened Literals
  import opened JavaInts

  /** PropertyType.STRING. */
  const StringType: Int32 := 1

  /** `DefaultValues.Other`: a value in its string form together with its property type. */
  datatype Other = Other(value: string, propertyType: Int32)

  /** `PropertyDefinition.DefaultValues`: one list per value kind, all empty by default. */
  datatype DefaultValues = DefaultValues(b: seq<bool>, d: seq<bv64>, l: seq<Int64>, s: seq<string>, other: seq<Other>)

  const NoDefaultValues: DefaultValues := DefaultValues([], [], [], [], [])

  /** The `PropertyDefinition` annotation. */
  datatype PropertyDefinition = PropertyDefinition(
    value: Int32,
    autoCreated: bool,
    availableQueryOperators: seq<string>,
    defaultValues: DefaultValues,
    fullTextSearchable: bool,
    mandatory: bool,
    multiple: bool,
    onParentVersion: Int32,
    isProtected: bool,
    queryOrderable: bool,
    valueConstraints: seq<string>,
    constrainAsEnum: seq<EnumType>)

  /** `@PropertyDefinition` with every element left at its default. */
  const DefaultPropertyDefinition: PropertyDefinition :=
    PropertyDefinition(IntMinValue, false, [], NoDefaultValues, true, false, false, IntMinValue, false, true, [], [])

  /**
   * A JCR Value as ValueFactory.createValue makes it; a double is kept as its IEEE bit pattern and
   * a value given with an explicit type as its text and type.
   */
  datatype Value =
    | BooleanValue(b: bool)
    | DoubleValue(bits: bv64)
    | LongValue(l: Int64)
    | StringValue(s: string)
    | TypedValue(text: string, propertyType: Int32)

  /** The fields of a PropertyDefinitionTemplate that configure may write; `None` is never written. */
  datatype PropertyTemplate = PropertyTemplate(
    name: Option<string>,
    autoCreated: Option<bool>,
    fullTextSearchable: Option<bool>,
    mandatory: Option<bool>,
    multiple: Option<bool>,
    isProtected: Option<bool>,
    queryOrderable: Option<bool>,
    availableQueryOperators: Option<seq<string>>,
    onParentVersion: Option<Int32>,
    requiredType: Option<Int32>,
    valueConstraints: Option<seq<string>>,
    defaultValues: Option<seq<Value>>)

  const EmptyTemplate: PropertyTemplate :=
    PropertyTemplate(None, None, None, None, None, None, None, None, None, None, None, None)

  /** A property literal: the constant and its `PropertyDefinition`, if it carries one. */
  datatype PropertyLiteral = PropertyLiteral(literal: Literal, definition: Option<PropertyDefinition>)

  /**
   * Why configure throws, before writing anything. Each Validate.validState failure carries the
   * literal, whose declaring class and name the message reports.
   */
  datatype PropertyError =
    | MissingDefinition                  // the annotation is dereferenced unconditionally
    | BothEnumAndConstraints(literal: Literal)
    | EnumRequiresString(literal: Literal)
    | TooManyEnums(literal: Literal)

  /* ---------------- ValidationHandler ---------------- */

  /** The three validity rules of a definition, as a reference for Validate. */
  predicate ValidDefinition(def: PropertyDefinition) {
    && (|def.constrainAsEnum| == 0 || |def.valueConstraints| == 0)
    && (|def.constrainAsEnum| == 0 || def.value < 0 || def.value == StringType)
    && |def.constrainAsEnum| <= 1
  }

  /**
   * ValidationHandler.validate: the annotation is read, then the rules are checked in the order
   * mutual exclusion, string type, count; the first broken rule is reported.
   */
  function Validate(p: PropertyLiteral): (r: Result<PropertyDefinition, PropertyError>)
    ensures r.Success? <==> p.definition.Some? && ValidDefinition(p.definition.value)
    ensures r.Success? ==> r.value == p.definition.value
    ensures p.definition.None? ==> r == Failure(MissingDefinition)
    ensures p.definition.Some? && |p.definition.value.constrainAsEnum| > 0 && |p.definition.value.valueConstraints| > 0
            ==> r == Failure(BothEnumAndConstraints(p.literal))
  {
    if p.definition.None? then Failure(MissingDefinition)
    else
      var def := p.definition.value;
      if !(|def.constrainAsEnum| == 0 || |def.valueConstraints| == 0) then Failure(BothEnumAndConstraints(p.literal))
      else if !(|def.constrainAsEnum| == 0 || def.value < 0 || def.value == StringType) then Failure(EnumRequiresString(p.literal))
      else if !(|def.constrainAsEnum| <= 1) then Failure(TooManyEnums(p.literal))
      else Success(def)
  }

  /* ---------------- DefinitionHandler ---------------- */

  /** The constant names of an enum, in declaration order (getEnumConstants mapped by name()). */
  function ConstantNames(e: EnumType): (r: seq<string>)
    ensures |r| == |e.constants|
    ensures forall i :: 0 <= i < |r| ==> r[i] == e.constants[i].name
  {
    seq(|e.constants|, i requires 0 <= i < |e.constants| => e.constants[i].name)
  }

  /** The names of the constants carrying `DefaultValue`, in declaration order. */
  function DefaultValueNames(constants: seq<Constant>): (r: seq<string>)
    ensures |r| <= |constants|
    ensures forall x :: x in r <==> exists i :: 0 <= i < |constants| && constants[i].isDefaultValue && constants[i].name == x
  {
    if |constants| == 0 then []
    else
      var rest := DefaultValueNames(constants[1..]);
      assert forall i :: 0 < i < |constants| ==> constants[i] == constants[1..][i - 1];
      if constants[0].isDefaultValue then [constants[0].name] + rest else rest
  }

  /** Every kind of default value, in the order the loops add them to the HashSet. */
  function AllDefaultValues(v: DefaultValues): (r: seq<Value>)
    ensures |r| == |v.b| + |v.d| + |v.l| + |v.s| + |v.other|
  {
    Map(v.b, b => BooleanValue(b)) + Map(v.d, d => DoubleValue(d)) + Map(v.l, l => LongValue(l))
    + Map(v.s, s => StringValue(s)) + Map(v.other, (o: Other) => TypedValue(o.value, o.propertyType))
  }

  /** `x` is one of the values `DefaultValues` lists. */
  predicate Listed(v: DefaultValues, x: Value) {
    match x
    case BooleanValue(b) => b in v.b
    case DoubleValue(d) => d in v.d
    case LongValue(l) => l in v.l
    case StringValue(s) => s in v.s
    case TypedValue(text, t) => Other(text, t) in v.other
  }

  /** The listed values are exactly the ones the five loops create. */
  lemma AllDefaultValuesListed(v: DefaultValues, x: Value)
    ensures x in AllDefaultValues(v) <==> Listed(v, x)
  {
    var bs := Map(v.b, b => BooleanValue(b));
    var ds := Map(v.d, d => DoubleValue(d));
    var ls := Map(v.l, l => LongValue(l));
    var ss := Map(v.s, s => StringValue(s));
    var os := Map(v.other, (o: Other) => TypedValue(o.value, o.propertyType));
    assert AllDefaultValues(v) == bs + ds + ls + ss + os;
    match x
    case BooleanValue(b) =>
      if b in v.b { var i :| 0 <= i < |v.b| && v.b[i] == b; assert bs[i] == x; }
    case DoubleValue(d) =>
      if d in v.d { var i :| 0 <= i < |v.d| && v.d[i] == d; assert ds[i] == x; }
    case LongValue(l) =>
      if l in v.l { var i :| 0 <= i < |v.l| && v.l[i] == l; assert ls[i] == x; }
    case StringValue(s) =>
      if s in v.s { var i :| 0 <= i < |v.s| && v.s[i] == s; assert ss[i] == x; }
    case TypedValue(text, t) =>
      if Other(text, t) in v.other { var i :| 0 <= i < |v.other| && v.other[i] == Other(text, t); assert os[i] == x; }
  }

  /** handle(T[], next): an array is passed on only when it is not empty. */
  function WhenNotEmpty<T>(t: seq<T>, current: Option<seq<T>>): (r: Option<seq<T>>)
    ensures |t| > 0 ==> r == Some(t)
    ensures |t| == 0 ==> r == current
  {
    if |t| > 0 then Some(t) else current
  }

  /** handle(int, next): an int is passed on only when it is not negative. */
  function WhenNotNegative(i: Int32, current: Option<Int32>): (r: Option<Int32>)
    ensures i >= 0 ==> r == Some(i)
    ensures i < 0 ==> r == current
  {
    if i >= 0 then Some(i) else current
  }

  /** handleConstraints: an enum forces STRING and constrains to its constant names. */
  function Constraints(def: PropertyDefinition, pdt: PropertyTemplate): (r: PropertyTemplate)
    ensures SameFlags(r, pdt)
    ensures r.availableQueryOperators == pdt.availableQueryOperators && r.onParentVersion == pdt.onParentVersion
    ensures |def.constrainAsEnum| == 1 ==> r.requiredType == Some(StringType)
    ensures |def.constrainAsEnum| != 1 ==> r.requiredType == pdt.requiredType
  {
    if |def.constrainAsEnum| == 1 then
      pdt.(requiredType := Some(StringType),
           valueConstraints := WhenNotEmpty(ConstantNames(def.constrainAsEnum[0]), pdt.valueConstraints))
    else pdt.(valueConstraints := WhenNotEmpty(def.valueConstraints, pdt.valueConstraints))
  }

  /**
   * handleDefaultValues: for an enum, the names of its `DefaultValue` constants as string values;
   * otherwise every listed value once. Written in both cases, even when empty.
   */
  function Defaults(def: PropertyDefinition): (r: seq<Value>)
    ensures |def.constrainAsEnum| == 1 ==> |r| <= |def.constrainAsEnum[0].constants|
    ensures |def.constrainAsEnum| != 1 ==> NoDuplicates(r)
  {
    if |def.constrainAsEnum| == 1 then
      var names := DefaultValueNames(def.constrainAsEnum[0].constants);
      seq(|names|, i requires 0 <= i < |names| => StringValue(names[i]))
    else Distinct(AllDefaultValues(def.defaultValues))
  }

  /** The name and the six flags are the same in both templates. */
  predicate SameFlags(a: PropertyTemplate, b: PropertyTemplate) {
    && a.name == b.name && a.autoCreated == b.autoCreated && a.fullTextSearchable == b.fullTextSearchable
    && a.mandatory == b.mandatory && a.multiple == b.multiple && a.isProtected == b.isProtected
    && a.queryOrderable == b.queryOrderable
  }

  /** The six flags, copied verbatim. */
  function CopyFlags(def: PropertyDefinition, pdt: PropertyTemplate): (t: PropertyTemplate)
    ensures t.name == pdt.name
    ensures && t.autoCreated == Some(def.autoCreated) && t.fullTextSearchable == Some(def.fullTextSearchable)
            && t.mandatory == Some(def.mandatory) && t.multiple == Some(def.multiple)
            && t.isProtected == Some(def.isProtected) && t.queryOrderable == Some(def.queryOrderable)
    ensures t.availableQueryOperators == pdt.availableQueryOperators && t.onParentVersion == pdt.onParentVersion
    ensures t.requiredType == pdt.requiredType && t.valueConstraints == pdt.valueConstraints
  {
    pdt.(autoCreated := Some(def.autoCreated), fullTextSearchable := Some(def.fullTextSearchable),
         mandatory := Some(def.mandatory), multiple := Some(def.multiple),
         isProtected := Some(def.isProtected), queryOrderable := Some(def.queryOrderable))
  }

  /** The three guarded setters: query operators when given, onParentVersion and the type when not negative. */
  function HandleGuarded(def: PropertyDefinition, pdt: PropertyTemplate): (t: PropertyTemplate)
    ensures SameFlags(t, pdt) && t.valueConstraints == pdt.valueConstraints
    ensures t.availableQueryOperators == WhenNotEmpty(def.availableQueryOperators, pdt.availableQueryOperators)
    ensures t.onParentVersion == WhenNotNegative(def.onParentVersion, pdt.onParentVersion)
    ensures t.requiredType == WhenNotNegative(def.value, pdt.requiredType)
  {
    pdt.(availableQueryOperators := WhenNotEmpty(def.availableQueryOperators, pdt.availableQueryOperators),
         onParentVersion := WhenNotNegative(def.onParentVersion, pdt.onParentVersion),
         requiredType := WhenNotNegative(def.value, pdt.requiredType))
  }

  /** The annotation-present branch of configure, applied to a template. */
  function ApplyDefinition(def: PropertyDefinition, pdt: PropertyTemplate): (t: PropertyTemplate)
    ensures SameFlags(t, CopyFlags(def, pdt))
    ensures t.availableQueryOperators == (if |def.availableQueryOperators| > 0 then Some(def.availableQueryOperators) else pdt.availableQueryOperators)
    ensures t.onParentVersion == (if def.onParentVersion >= 0 then Some(def.onParentVersion) else pdt.onParentVersion)
    ensures t.defaultValues == Some(Defaults(def))
  {
    var handled := HandleGuarded(def, CopyFlags(def, pdt));
    Constraints(def, handled).(defaultValues := Some(Defaults(def)))
  }

  /**
   * The default values say exactly what the source lists: for a single enum, one string value per
   * `DefaultValue` constant; otherwise each annotated value of any type.
   */
  lemma DefaultsAreListed(def: PropertyDefinition, x: Value)
    ensures |def.constrainAsEnum| == 1 ==>
      var cs := def.constrainAsEnum[0].constants;
      (x in Defaults(def) <==> exists i :: 0 <= i < |cs| && cs[i].isDefaultValue && x == StringValue(cs[i].name))
    ensures |def.constrainAsEnum| != 1 ==> (x in Defaults(def) <==> Listed(def.defaultValues, x))
  {
    if |def.constrainAsEnum| == 1 {
      var names := DefaultValueNames(def.constrainAsEnum[0].constants);
      if x in Defaults(def) {
        var k :| 0 <= k < |names| && Defaults(def)[k] == x;
        assert names[k] in names;
      } else {
        forall n | n in names
          ensures StringValue(n) in Defaults(def)
        {
          var k :| 0 <= k < |names| && names[k] == n;
          assert Defaults(def)[k] == StringValue(n);
        }
      }
    } else {
      AllDefaultValuesListed(def.defaultValues, x);
    }
  }

  /**
   * JcrProperty.configure: validate, then write the fullname and everything the definition says.
   * A failure writes nothing.
   */
  function Configure(p: PropertyLiteral, pdt: PropertyTemplate): (r: Result<PropertyTemplate, PropertyError>)
    ensures r.Failure? <==> Validate(p).Failure?
    ensures r.Failure? ==> r.error == Validate(p).error
    ensures r.Success? ==> r.value.name == Some(Fullname(p.literal))
    ensures r.Success? ==> r.value.autoCreated == Some(p.definition.value.autoCreated)
  {
    var def :- Validate(p);
    Success(ApplyDefinition(def, pdt.(name := Some(Fullname(p.literal)))))
  }

  /* ---------------- What configure promises ---------------- */

  /** Rules are reported in order: a broken type rule is reported only when mutual exclusion holds. */
  lemma ValidationOrder(p: PropertyLiteral)
    requires p.definition.Some?
    ensures var def := p.definition.value;
      && (|def.constrainAsEnum| == 0 || |def.valueConstraints| == 0) && def.value >= 0 && def.value != StringType
         && |def.constrainAsEnum| > 0
      ==> Configure(p, EmptyTemplate) == Failure(EnumRequiresString(p.literal))
    ensures var def := p.definition.value;
      |def.constrainAsEnum| > 1 && |def.valueConstraints| == 0
      && (def.value < 0 || def.value == StringType)
      ==> Configure(p, EmptyTemplate) == Failure(TooManyEnums(p.literal))
  {
  }

  /**
   * With one enum constraint, the required type is STRING whatever `value()` said, the value
   * constraints are the enum's constant names in declaration order (written only when there are
   * any), and the default values are the names of its `DefaultValue` constants.
   */
  lemma EnumConstrainedProperty(p: PropertyLiteral, pdt: PropertyTemplate, e: EnumType)
    requires p.definition.Some? && p.definition.value.constrainAsEnum == [e]
    requires ValidDefinition(p.definition.value)
    ensures Configure(p, pdt).Success?
    ensures Configure(p, pdt).value.requiredType == Some(StringType)
    ensures |e.constants| > 0 ==> Configure(p, pdt).value.valueConstraints == Some(ConstantNames(e))
    ensures |e.constants| == 0 ==> Configure(p, pdt).value.valueConstraints == pdt.valueConstraints
    ensures var names := DefaultValueNames(e.constants);
            var values := Configure(p, pdt).value.defaultValues.value;
            |values| == |names| && forall i :: 0 <= i < |names| ==> values[i] == StringValue(names[i])
  {
  }

  /**
   * Without an enum constraint, the required type is `value()` when given, the value constraints
   * are the declared ones when there are any, and the default values hold every listed value
   * exactly once.
   */
  lemma PlainProperty(p: PropertyLiteral, pdt: PropertyTemplate)
    requires p.definition.Some? && p.definition.value.constrainAsEnum == []
    ensures Configure(p, pdt).Success?
    ensures Configure(p, pdt).value == ApplyDefinition(p.definition.value, pdt.(name := Some(Fullname(p.literal))))
    ensures var def := p.definition.value; var t := Configure(p, pdt).value;
      && t.requiredType == (if def.value >= 0 then Some(def.value) else pdt.requiredType)
      && t.valueConstraints == (if |def.valueConstraints| > 0 then Some(def.valueConstraints) else pdt.valueConstraints)
      && t.defaultValues.Some?
      && NoDuplicates(t.defaultValues.value)
      && (forall v :: v in t.defaultValues.value <==> Listed(def.defaultValues, v))
  {
    forall v | true
      ensures v in Configure(p, pdt).value.defaultValues.value <==> Listed(p.definition.value.defaultValues, v)
    {
      AllDefaultValuesListed(p.definition.value.defaultValues, v);
    }
  }

  /**
   * A property annotated like the test layout's STATUS, constrained to an enum shaped like
   * InvoiceStatus whose one default is CREATED, as jcrbox.literal.JcrProperty configures it.
   */
  lemma InvoiceStatusDefault(p: PropertyLiteral, pdt: PropertyTemplate)
    requires p.definition == Some(DefaultPropertyDefinition.(constrainAsEnum := [EnumType("", [], [
      Constant("CREATED", false, true), Constant("STAGED", false, false),
      Constant("SUBMITTED", false, false), Constant("COMPLETED", false, false)])], autoCreated := true))
    ensures Configure(p, pdt).Success?
    ensures Configure(p, pdt).value.defaultValues == Some([StringValue("CREATED")])
    ensures Configure(p, pdt).value.valueConstraints == Some(["CREATED", "STAGED", "SUBMITTED", "COMPLETED"])
    ensures Configure(p, pdt).value.requiredType == Some(StringType)
    ensures Configure(p, pdt).value.autoCreated == Some(true)
  {
    var cs := p.definition.value.constrainAsEnum[0].constants;
    assert DefaultValueNames(cs[3..]) == [];
    assert cs[2..][1..] == cs[3..];
    assert cs[1..][1..] == cs[2..];
    assert cs[1..] == [cs[1]] + cs[2..];
    assert DefaultValueNames(cs[1..]) == [];
    assert DefaultValueNames(cs) == ["CREATED"];
    assert Defaults(p.definition.value) == [StringValue("CREATED")];
    assert ConstantNames(p.definition.value.constrainAsEnum[0]) == ["CREATED", "STAGED", "SUBMITTED", "COMPLETED"];
  }
}

=== FILE: ranged_iterator.dfy ===
/**
 * RangedIterator.OfList: a position over a list, as RangedIterator.of(List) creates it. The
 * iterator is a value: each operation that moves the position returns the moved iterator.
 */
module RangedIterators {
  import opened Wrappers
  import opened JavaInts

  /** Why next() throws. */
  datatype IterError = NoSuchElement

  /** A list a Java List can hold: its size and its indices are `int`s. */
  predicate JavaList<T>(list: seq<T>) {
    |list| <= IntMaxValue
  }

  /** OfList: the wrapped list and the `long` position of the next element. */
  datatype ListIterator<T> = ListIterator(list: seq<T>, pos: Int64) {

    /**
     * hasNext(): the position is below the size. It agrees with next() except at a negative
     * position, which skip() can reach: there hasNext() is true and next() still throws.
     */
    predicate HasNext()
      ensures HasNext() <==> Next().0.Success? || pos < 0
      ensures pos < 0 ==> HasNext() && Next().0.Failure?
    {
      pos < |list|
    }

    /** position(): how far next() and skip() have moved the iterator; see PositionCountsNextCalls. */
    function Position(): Int64 {
      pos
    }

    /** size(): the size of the list, whatever the position. */
    function Size(): (n: nat)
      ensures n == |list|
    {
      |list|
    }

    /** isEmpty(): the list's own isEmpty, whatever the position: a fresh iterator has no element. */
    predicate IsEmpty()
      ensures IsEmpty() <==> !Of(list).HasNext()
      ensures IsEmpty() ==> !HasNext() || pos < 0
    {
      |list| == 0
    }

    /** stream(): the whole wrapped list, from its first element, whatever the position. */
    function Stream(): (r: seq<T>)
      ensures |r| == Size() && forall i :: 0 <= i < |r| ==> r[i] == list[i]
    {
      list
    }

    /** skip(count): the count is added to the position, without a bounds check; `long` addition wraps. */
    function Skip(count: Int64): (r: ListIterator<T>)
      ensures r.list == list
      ensures -0x8000_0000_0000_0000 <= pos + count < 0x8000_0000_0000_0000 ==> r.pos == pos + count
    {
      this.(pos := AddInt64(pos, count))
    }

    /**
     * next() as written: the position is narrowed with `(int) pos++` before List.get, so a position
     * past the int range reads the element at its low 32 bits. The position moves in every case.
     */
    function NextAsWritten(): (r: (Result<T, IterError>, ListIterator<T>))
      ensures r.1.list == list && r.1.pos == AddInt64(pos, 1)
      ensures IntMinValue <= pos <= IntMaxValue ==> r == Next()
    {
      var index := ToInt32(pos);
      var moved := this.(pos := AddInt64(pos, 1));
      if 0 <= index < |list| then (Success(list[index]), moved) else (Failure(NoSuchElement), moved)
    }

    /**
     * next(): the element at the position, or NoSuchElementException when the position is not an
     * index of the list; the position moves in every case, because `pos++` runs before List.get.
     */
    function Next(): (r: (Result<T, IterError>, ListIterator<T>))
      ensures r.1.list == list && r.1.pos == AddInt64(pos, 1)
      ensures r.0.Success? <==> 0 <= pos < |list|
      ensures r.0.Success? ==> r.0.value == list[pos]
    {
      var moved := this.(pos := AddInt64(pos, 1));
      if 0 <= pos < |list| then (Success(list[pos]), moved) else (Failure(NoSuchElement), moved)
    }
  }

  /** RangedIterator.of(List): positioned at the start. */
  function Of<T>(list: seq<T>): (it: ListIterator<T>)
    ensures it.list == list && it.Position() == 0
    ensures it.HasNext() <==> |list| > 0
  {
    ListIterator(list, 0)
  }

  /** The interface's default isEmpty(): size() < 1. */
  predicate DefaultIsEmpty(size: nat) {
    size < 1
  }

  /** OfList's isEmpty agrees with the default it overrides, at every position. */
  lemma IsEmptyAgreesWithDefault<T>(it: ListIterator<T>)
    ensures it.IsEmpty() <==> DefaultIsEmpty(it.Size())
    ensures it.IsEmpty() == it.Skip(1).IsEmpty()
  {
  }

  /** Moving the position changes neither the stream nor the size. */
  lemma StreamIgnoresPosition<T>(it: ListIterator<T>, count: Int64)
    ensures it.Skip(count).Stream() == it.Stream() == it.Next().1.Stream()
    ensures it.Skip(count).Size() == it.Size()
  {
  }

  /** Calling next() `k` times: the results in order, and the iterator afterwards. */
  function NextTimes<T>(it: ListIterator<T>, k: nat): (r: (seq<Result<T, IterError>>, ListIterator<T>))
    ensures |r.0| == k && r.1.list == it.list
    decreases k
  {
    if k == 0 then ([], it)
    else
      var (first, moved) := it.Next();
      var (rest, last) := NextTimes(moved, k - 1);
      ([first] + rest, last)
  }

  /**
   * Iterating a fresh iterator over a Java list to the end yields every element in order, each as
   * a success, and leaves the position at the size with hasNext() false.
   */
  lemma {:induction false} IterationYieldsList<T>(list: seq<T>, start: nat)
    requires JavaList(list) && start <= |list|
    ensures var (results, last) := NextTimes(ListIterator(list, start), |list| - start);
            && (forall i :: 0 <= i < |results| ==> results[i] == Success(list[start + i]))
            && last.pos == |list| && !last.HasNext()
    decreases |list| - start
  {
    if start < |list| {
      IterationYieldsList(list, start + 1);
      var (results, last) := NextTimes(ListIterator(list, start), |list| - start);
      var (rest, _) := NextTimes(ListIterator(list, start + 1), |list| - start - 1);
      assert results == [Success(list[start])] + rest;
    }
  }

  /**
   * position() counts the calls to next(): each one moves it by one, whether it returned an
   * element or threw, as long as the `long` does not overflow.
   */
  lemma {:induction false} PositionCountsNextCalls<T>(it: ListIterator<T>, k: nat)
    requires it.pos + k <= LongMaxValue
    ensures NextTimes(it, k).1.Position() == it.Position() + k
    decreases k
  {
    if k > 0 {
      PositionCountsNextCalls(it.Next().1, k - 1);
    }
  }

  /** Past the end, next() throws, yet the position still moves on. */
  lemma NextPastEnd<T>(it: ListIterator<T>)
    requires !it.HasNext() && it.pos < LongMaxValue
    ensures it.Next().0 == Failure(NoSuchElement)
    ensures it.Next().1.Position() == it.Position() + 1
  {
  }

  /** With the corrected next(), an element is returned only when hasNext() said so. */
  lemma NextOnlyWhenHasNext<T>(it: ListIterator<T>)
    ensures it.Next().0.Success? ==> it.HasNext()
  {
  }

  /**
   * As written, a position skipped past the int range wraps: with one element and the position at
   * 2^32, hasNext() is false but next() returns the element.
   */
  lemma NextAsWrittenWraps<T>(x: T)
    ensures var it := Of([x]).Skip(0x1_0000_0000);
            && !it.HasNext()
            && it.NextAsWritten().0 == Success(x)
  {
  }
}

=== FILE: selectors.dfy ===
/**
 * Selector names for query sources: DefaultSelectorNameStrategy's numbered initials, the schema
 * lookup of Schemae with its implicit one-type schema and its two caches, and the older per-enum
 * JcrNode.selectorName.
 */
module Selectors {
  import opened Wrappers
  import opened Text
  import opened EnumNames
  import opened Literals

  /** The selector names of a schema, by source literal. */
  type SelectorMap = map<Literal, string>

  /* ---------------- DefaultSelectorNameStrategy.generateSelectors ---------------- */

  /**
   * The lower-cased `_`-initials of a source's constant name: no longer than the name, never
   * holding `_`, and one character for a name that is a single word.
   */
  function InitialsOf(s: Literal): (r: string)
    ensures |r| <= |s.constant.name| && '_' !in r
    ensures '_' !in s.constant.name && |s.constant.name| > 0 ==> r == [ToLower(s.constant.name[0])]
  {
    var name := s.constant.name;
    if '_' !in name && |name| > 0 then
      SelectorInitialsOfWord(name);
      SelectorInitials(name)
    else SelectorInitials(name)
  }

  /** What follows the initials of the k-th source with those initials: nothing for the first, k after. */
  function Suffix(k: nat): (r: string)
    ensures forall i :: 0 <= i < |r| ==> IsDigit(r[i])
    ensures k == 1 <==> r == ""
  {
    if k == 1 then "" else DecimalString(k)
  }

  /** The name of the k-th source with the given initials. */
  function Numbered(initials: string, k: nat): (r: string)
    ensures initials <= r
    ensures r == initials <==> k == 1
  {
    initials + Suffix(k)
  }

  /** The loop state: how many sources met so far had each initials, and the names assigned so far. */
  datatype Tally = Tally(counts: map<string, nat>, result: SelectorMap)

  /** How many sources met so far had these initials. */
  function CountOf(t: Tally, initials: string): nat {
    if initials in t.counts then t.counts[initials] else 0
  }

  /** One iteration: bump the count of the source's initials and name the source after it. */
  function Put(t: Tally, s: Literal): (r: Tally)
    ensures CountOf(r, InitialsOf(s)) == CountOf(t, InitialsOf(s)) + 1
    ensures forall ini :: ini != InitialsOf(s) ==> CountOf(r, ini) == CountOf(t, ini)
    ensures r.result.Keys == t.result.Keys + {s}
    ensures r.result[s] == Numbered(InitialsOf(s), CountOf(r, InitialsOf(s)))
    ensures forall x :: x in t.result && x != s ==> r.result[x] == t.result[x]
  {
    var initials := InitialsOf(s);
    var count := CountOf(t, initials) + 1;
    Tally(t.counts[initials := count], t.result[s := Numbered(initials, count)])
  }

  /** The loop over the sources in iteration order. */
  function Run(sources: seq<Literal>): (r: Tally)
    ensures forall x :: x in r.result <==> x in sources
    decreases |sources|
  {
    if |sources| == 0 then Tally(map[], map[])
    else Put(Run(sources[..|sources| - 1]), sources[|sources| - 1])
  }

  /**
   * generateSelectors with the result kept in a plain map. The source's TreeMap would throw for
   * sources of different enums; GenerateSelectorsAsWritten models that.
   */
  function GenerateSelectors(sources: seq<Literal>): (r: SelectorMap)
    ensures forall x :: x in r <==> x in sources
  {
    Run(sources).result
  }

  /** How many of the sources have these initials. */
  function Occurrences(sources: seq<Literal>, initials: string): nat
    decreases |sources|
  {
    if |sources| == 0 then 0
    else Occurrences(sources[..|sources| - 1], initials) + (if InitialsOf(sources[|sources| - 1]) == initials then 1 else 0)
  }

  /** Reference: the i-th source is named after how many of the first i + 1 sources share its initials. */
  function SelectorFor(sources: seq<Literal>, i: nat): string
    requires i < |sources|
  {
    Numbered(InitialsOf(sources[i]), Occurrences(sources[..i + 1], InitialsOf(sources[i])))
  }

  lemma {:induction false} RunCounts(sources: seq<Literal>, initials: string)
    ensures CountOf(Run(sources), initials) == Occurrences(sources, initials)
    decreases |sources|
  {
    if |sources| > 0 {
      RunCounts(sources[..|sources| - 1], initials);
    }
  }

  /**
   * Every source gets exactly one entry, and the i-th source met gets the bare initials when it is
   * the first with those initials and the initials followed by k when it is the k-th.
   */
  lemma {:induction false} GenerateSelectorsMeaning(sources: seq<Literal>)
    requires NoDuplicates(sources)
    ensures forall i :: 0 <= i < |sources| ==> GenerateSelectors(sources)[sources[i]] == SelectorFor(sources, i)
    decreases |sources|
  {
    if |sources| > 0 {
      var n := |sources| - 1;
      var pre := sources[..n];
      var last := sources[n];
      assert NoDuplicates(pre);
      GenerateSelectorsMeaning(pre);
      forall i | 0 <= i < n
        ensures GenerateSelectors(sources)[sources[i]] == SelectorFor(sources, i)
      {
        EarlierNameKept(sources, i);
      }
      LastNamed(sources);
    }
  }

  /** The last source is named after how many sources, itself included, share its initials. */
  lemma LastNamed(sources: seq<Literal>)
    requires |sources| > 0
    ensures GenerateSelectors(sources)[sources[|sources| - 1]] == SelectorFor(sources, |sources| - 1)
  {
    var n := |sources| - 1;
    RunCounts(sources[..n], InitialsOf(sources[n]));
    assert sources[..n + 1] == sources;
  }

  /** Putting the last source leaves the name of an earlier one as it was after the earlier ones alone. */
  lemma EarlierNameKept(sources: seq<Literal>, i: nat)
    requires NoDuplicates(sources) && i < |sources| - 1
    requires var pre := sources[..|sources| - 1]; pre[i] in GenerateSelectors(pre) && GenerateSelectors(pre)[pre[i]] == SelectorFor(pre, i)
    ensures sources[i] in GenerateSelectors(sources)
    ensures GenerateSelectors(sources)[sources[i]] == SelectorFor(sources, i)
  {
    var pre := sources[..|sources| - 1];
    assert sources[i] == pre[i] && sources[i] != sources[|sources| - 1];
    assert pre[..i + 1] == sources[..i + 1];
  }

  /** Every assigned name starts with the initials of its source. */
  lemma NamesStartWithInitials(sources: seq<Literal>, i: nat)
    requires NoDuplicates(sources) && i < |sources|
    ensures InitialsOf(sources[i]) <= GenerateSelectors(sources)[sources[i]]
  {
    GenerateSelectorsMeaning(sources);
  }

  lemma {:induction false} NoOccurrences(sources: seq<Literal>, initials: string)
    ensures Occurrences(sources, initials) == 0 <==> forall j :: 0 <= j < |sources| ==> InitialsOf(sources[j]) != initials
    decreases |sources|
  {
    if |sources| > 0 {
      var pre := sources[..|sources| - 1];
      NoOccurrences(pre, initials);
      assert forall j :: 0 <= j < |pre| ==> pre[j] == sources[j];
    }
  }

  /**
   * The bare initials go to the first source met with those initials, and to no other: which of
   * several colliding sources gets them depends on the iteration order alone.
   */
  lemma BareInitialsGoToFirst(sources: seq<Literal>, i: nat)
    requires NoDuplicates(sources) && i < |sources|
    ensures GenerateSelectors(sources)[sources[i]] == InitialsOf(sources[i])
            <==> forall j :: 0 <= j < i ==> InitialsOf(sources[j]) != InitialsOf(sources[i])
  {
    var ini := InitialsOf(sources[i]);
    var k := Occurrences(sources[..i + 1], ini);
    assert GenerateSelectors(sources)[sources[i]] == Numbered(ini, k) by {
      GenerateSelectorsMeaning(sources);
    }
    assert k == Occurrences(sources[..i], ini) + 1 by {
      assert sources[..i + 1][..i] == sources[..i];
    }
    assert (Occurrences(sources[..i], ini) == 0) <==> forall j :: 0 <= j < i ==> InitialsOf(sources[j]) != ini by {
      NoOccurrences(sources[..i], ini);
      assert forall j :: 0 <= j < i ==> sources[..i][j] == sources[j];
    }
  }

  lemma {:induction false} OccurrencesGrow(sources: seq<Literal>, m: nat, n: nat, initials: string)
    requires m <= n <= |sources|
    ensures Occurrences(sources[..m], initials) <= Occurrences(sources[..n], initials)
    decreases n - m
  {
    if m < n {
      OccurrencesGrow(sources, m, n - 1, initials);
      assert sources[..n][..n - 1] == sources[..n - 1];
    }
  }

  /** A later source with the same initials is counted strictly higher. */
  lemma LaterCountsHigher(sources: seq<Literal>, i: nat, j: nat)
    requires i < j < |sources| && InitialsOf(sources[i]) == InitialsOf(sources[j])
    ensures Occurrences(sources[..i + 1], InitialsOf(sources[i])) < Occurrences(sources[..j + 1], InitialsOf(sources[j]))
  {
    OccurrencesGrow(sources, i + 1, j, InitialsOf(sources[i]));
    assert sources[..j + 1][..j] == sources[..j];
  }

  /** The source met is counted at least once. */
  lemma CountedAtLeastOnce(sources: seq<Literal>, i: nat)
    requires i < |sources|
    ensures Occurrences(sources[..i + 1], InitialsOf(sources[i])) >= 1
  {
    assert sources[..i + 1][..i] == sources[..i];
  }

  /** No `_`-separated token of the name starts with a digit. */
  predicate NoDigitTokens(name: string) {
    forall k :: 0 <= k < |Fields(name)| && |Fields(name)[k]| > 0 ==> !IsDigit(Fields(name)[k][0])
  }

  lemma {:induction false} FirstCharsFrom(parts: seq<string>)
    ensures forall c :: c in FirstChars(parts) ==> exists k :: 0 <= k < |parts| && |parts[k]| > 0 && parts[k][0] == c
    decreases |parts|
  {
    if |parts| > 0 {
      FirstCharsFrom(parts[1..]);
      forall c | c in FirstChars(parts)
        ensures exists k :: 0 <= k < |parts| && |parts[k]| > 0 && parts[k][0] == c
      {
        if c !in (if |parts[0]| > 0 then [parts[0][0]] else "") {
          assert c in FirstChars(parts[1..]);
          var k :| 0 <= k < |parts[1..]| && |parts[1..][k]| > 0 && parts[1..][k][0] == c;
          assert parts[k + 1] == parts[1..][k];
        }
      }
    }
  }

  /** Initials of such a name contain no digit. */
  lemma InitialsHaveNoDigits(name: string)
    requires NoDigitTokens(name)
    ensures forall i :: 0 <= i < |SelectorInitials(name)| ==> !IsDigit(SelectorInitials(name)[i])
  {
    InitialsAreFirstChars(name);
    FirstCharsFrom(Fields(name));
    forall i | 0 <= i < |SelectorInitials(name)|
      ensures !IsDigit(SelectorInitials(name)[i])
    {
      assert Initials(name)[i] in FirstChars(Fields(name));
    }
  }

  /** How many characters precede the first digit. */
  function LeadingNonDigits(s: string): (n: nat)
    ensures n <= |s|
    decreases |s|
  {
    if |s| == 0 || IsDigit(s[0]) then 0 else 1 + LeadingNonDigits(s[1..])
  }

  lemma {:induction false} LeadingNonDigitsOf(a: string, d: string)
    requires forall i :: 0 <= i < |a| ==> !IsDigit(a[i])
    requires forall i :: 0 <= i < |d| ==> IsDigit(d[i])
    ensures LeadingNonDigits(a + d) == |a|
    decreases |a|
  {
    if |a| == 0 {
      assert a + d == d;
    } else {
      assert (a + d)[1..] == a[1..] + d;
      LeadingNonDigitsOf(a[1..], d);
    }
  }

  /** A digit-free text followed by digits splits in one way only. */
  lemma SplitUnique(a1: string, d1: string, a2: string, d2: string)
    requires forall i :: 0 <= i < |a1| ==> !IsDigit(a1[i])
    requires forall i :: 0 <= i < |a2| ==> !IsDigit(a2[i])
    requires forall i :: 0 <= i < |d1| ==> IsDigit(d1[i])
    requires forall i :: 0 <= i < |d2| ==> IsDigit(d2[i])
    requires a1 + d1 == a2 + d2
    ensures a1 == a2 && d1 == d2
  {
    LeadingNonDigitsOf(a1, d1);
    LeadingNonDigitsOf(a2, d2);
    assert |a1| == |a2|;
    assert a1 == (a1 + d1)[..|a1|];
    assert a2 == (a2 + d2)[..|a2|];
    assert d1 == (a1 + d1)[|a1|..];
    assert d2 == (a2 + d2)[|a2|..];
  }

  /** Different counts give different suffixes. */
  lemma SuffixInjective(k1: nat, k2: nat)
    requires k1 >= 1 && k2 >= 1 && Suffix(k1) == Suffix(k2)
    ensures k1 == k2
  {
    if k1 != 1 && k2 != 1 {
      DecimalInjective(k1, k2);
    }
  }

  /**
   * Different sources get different names, provided no `_`-token of their constant names starts
   * with a digit (so the initials never end in a digit a count could extend).
   */
  lemma NamesDistinct(sources: seq<Literal>, i: nat, j: nat)
    requires NoDuplicates(sources) && i < j < |sources|
    requires NoDigitTokens(sources[i].constant.name) && NoDigitTokens(sources[j].constant.name)
    ensures GenerateSelectors(sources)[sources[i]] != GenerateSelectors(sources)[sources[j]]
  {
    GenerateSelectorsMeaning(sources);
    var ini, inj := InitialsOf(sources[i]), InitialsOf(sources[j]);
    var ki, kj := Occurrences(sources[..i + 1], ini), Occurrences(sources[..j + 1], inj);
    if Numbered(ini, ki) == Numbered(inj, kj) {
      InitialsHaveNoDigits(sources[i].constant.name);
      InitialsHaveNoDigits(sources[j].constant.name);
      SplitUnique(ini, Suffix(ki), inj, Suffix(kj));
      CountedAtLeastOnce(sources, i);
      CountedAtLeastOnce(sources, j);
      SuffixInjective(ki, kj);
      LaterCountsHigher(sources, i, j);
      assert false;
    }
  }

  /**
   * Three sources met in this order, the first two with the same initials and the third with
   * those initials followed by 2, collide: the second and the third are both named that way.
   */
  lemma CountCollidesWithDigit(sources: seq<Literal>, initials: string)
    requires |sources| == 3 && NoDuplicates(sources)
    requires InitialsOf(sources[0]) == initials && InitialsOf(sources[1]) == initials
    requires InitialsOf(sources[2]) == initials + "2"
    ensures GenerateSelectors(sources)[sources[1]] == GenerateSelectors(sources)[sources[2]] == initials + "2"
  {
    GenerateSelectorsMeaning(sources);
    assert sources[..2][..1] == sources[..1];
    assert sources[..3][..2] == sources[..2];
    assert sources[..1][..0] == [];
    assert Occurrences(sources[..1], initials) == 1;
    assert Occurrences(sources[..2], initials) == 2;
    assert initials != initials + "2";
    assert Occurrences(sources[..1], initials + "2") == 0;
    assert Occurrences(sources[..2], initials + "2") == 0;
    assert Occurrences(sources[..3], initials + "2") == 1;
    assert DecimalString(2) == "2";
  }

  /**
   * With a `_`-token that starts with a digit, names can collide: met in the order C, CAT, C_2,
   * CAT is the second source with initials c and is named c2, and C_2 has initials c2 of its own.
   */
  lemma DigitTokensCollide(e: EnumType)
    requires e.constants == [Constant("C", false, false), Constant("CAT", false, false), Constant("C_2", false, false)]
    ensures var sources := [Literal(e, e.constants[0]), Literal(e, e.constants[1]), Literal(e, e.constants[2])];
            GenerateSelectors(sources)[sources[1]] == GenerateSelectors(sources)[sources[2]] == "c2"
  {
    var sources := [Literal(e, e.constants[0]), Literal(e, e.constants[1]), Literal(e, e.constants[2])];
    SelectorInitialsOfWord("C");
    SelectorInitialsOfWord("CAT");
    SelectorInitialsTwoWords("C", "2");
    assert "C" + "_" + "2" == "C_2";
    assert "c" + "2" == "c2";
    CountCollidesWithDigit(sources, "c");
  }

  /* ---------------- The TreeMap of the source ---------------- */

  /** Why selector names cannot be produced. */
  datatype SchemaError =
    | NullSourceType                     // Objects.requireNonNull
    | CannotInstantiate(className: string)
    | ClassCast                          // Enum.compareTo between constants of two enums

  /** All sources are constants of the enum of the first one, so TreeMap can compare them. */
  predicate SingleEnum(sources: seq<Literal>) {
    forall i :: 0 <= i < |sources| ==> sources[i].owner == sources[0].owner
  }

  /**
   * generateSelectors as written: the result is a TreeMap ordered by Enum.compareTo, which throws
   * ClassCastException as soon as a constant of a second enum is put next to one of the first.
   */
  function GenerateSelectorsAsWritten(sources: seq<Literal>): (r: Result<SelectorMap, SchemaError>)
    ensures r.Success? <==> SingleEnum(sources)
    ensures r.Success? ==> r.value == GenerateSelectors(sources)
  {
    if SingleEnum(sources) then Success(GenerateSelectors(sources)) else Failure(ClassCast)
  }

  /* ---------------- Schemae ---------------- */

  /** The first `JcrSchema` met walking outward from a class. */
  function FindSchema(chain: seq<Scope>): (r: Option<SchemaTag>)
    ensures r.Some? ==> exists i :: 0 <= i < |chain| && chain[i].schema == r && forall j :: 0 <= j < i ==> chain[j].schema.None?
    ensures r.None? ==> forall j :: 0 <= j < |chain| ==> chain[j].schema.None?
    decreases |chain|
  {
    if |chain| == 0 then None
    else if chain[0].schema.Some? then chain[0].schema
    else
      var r := FindSchema(chain[1..]);
      assert r.Some? ==> exists i :: 0 <= i < |chain| && chain[i].schema == r && forall j :: 0 <= j < i ==> chain[j].schema.None? by {
        if r.Some? {
          var i :| 0 <= i < |chain[1..]| && chain[1..][i].schema == r && forall j :: 0 <= j < i ==> chain[1..][j].schema.None?;
          assert chain[i + 1].schema == r;
          assert forall j :: 1 <= j < i + 1 ==> chain[j] == chain[1..][j - 1];
        }
      }
      r
  }

  /** The proxy schema of a class without one: the class itself as sole member, default strategy. */
  function ImplicitSchema(sourceType: EnumType): (r: SchemaTag)
    ensures r.members == [sourceType] && r.strategy == DefaultStrategy
  {
    SchemaTag([sourceType], DefaultStrategy)
  }

  /** Schemae.schema: the nearest `JcrSchema`, else the implicit one. */
  function Schema(sourceType: EnumType): (r: SchemaTag)
    ensures FindSchema(sourceType.chain).None? ==> r == ImplicitSchema(sourceType)
    ensures FindSchema(sourceType.chain).Some? ==> r == FindSchema(sourceType.chain).value
  {
    match FindSchema(sourceType.chain)
    case None => ImplicitSchema(sourceType)
    case Some(tag) => tag
  }

  /** One member type's constants as literals, in declaration order (EnumUtils.getEnumList). */
  function MemberLiterals(t: EnumType): (r: seq<Literal>)
    ensures forall x :: x in r <==> x.owner == t && x.constant in t.constants
  {
    var r := seq(|t.constants|, i requires 0 <= i < |t.constants| => Literal(t, t.constants[i]));
    assert forall x: Literal :: x.owner == t && x.constant in t.constants ==> x in r by {
      forall x: Literal | x.owner == t && x.constant in t.constants
        ensures x in r
      {
        var i :| 0 <= i < |t.constants| && t.constants[i] == x.constant;
        assert r[i] == x;
      }
    }
    r
  }

  /** Every member's literals, member by member. */
  function AllMemberLiterals(members: seq<EnumType>): (r: seq<Literal>)
    ensures forall x :: x in r <==> x.owner in members && x.constant in x.owner.constants
    decreases |members|
  {
    if |members| == 0 then []
    else
      var r := MemberLiterals(members[0]) + AllMemberLiterals(members[1..]);
      assert forall t :: t in members <==> t == members[0] || t in members[1..];
      r
  }

  /**
   * Schemae.sources: the HashSet of every member's constants. The set is listed member by member
   * in declaration order, which fixes the iteration order the strategy sees.
   */
  function Sources(schema: SchemaTag): (r: seq<Literal>)
    ensures NoDuplicates(r)
    ensures forall x :: x in r <==> x.owner in schema.members && x.constant in x.owner.constants
  {
    Distinct(AllMemberLiterals(schema.members))
  }

  /**
   * Schemae.selectorNames: instantiate the strategy and run it on the schema's sources. A custom
   * strategy is code outside the core, so what it returns is a parameter.
   */
  function SelectorNames(schema: SchemaTag, custom: (string, seq<Literal>) -> SelectorMap): (r: Result<SelectorMap, SchemaError>)
    ensures schema.strategy.CustomStrategy? && !schema.strategy.instantiable ==> r == Failure(CannotInstantiate(schema.strategy.className))
    ensures schema.strategy.DefaultStrategy? ==> r == Success(GenerateSelectors(Sources(schema)))
  {
    match schema.strategy
    case DefaultStrategy => Success(GenerateSelectors(Sources(schema)))
    case CustomStrategy(className, instantiable) =>
      if instantiable then Success(custom(className, Sources(schema))) else Failure(CannotInstantiate(className))
  }

  /** The two caches of Schemae: schema by source type, selector names by schema. */
  datatype Caches = Caches(schemae: map<EnumType, SchemaTag>, selectorNames: map<SchemaTag, SelectorMap>)

  /** Every cached entry is what Schema and SelectorNames compute; a failure is never cached. */
  ghost predicate CachesConsistent(caches: Caches, custom: (string, seq<Literal>) -> SelectorMap) {
    && (forall t :: t in caches.schemae ==> caches.schemae[t] == Schema(t))
    && (forall s :: s in caches.selectorNames ==> SelectorNames(s, custom) == Success(caches.selectorNames[s]))
  }

  /**
   * Schemae.getSelectorNames: a null source type is rejected; otherwise the schema and then its
   * selector names come from the caches, computed and stored when absent. A failing computation
   * stores nothing.
   */
  function GetSelectorNames(sourceType: Option<EnumType>, caches: Caches, custom: (string, seq<Literal>) -> SelectorMap)
    : (r: (Result<SelectorMap, SchemaError>, Caches))
    requires CachesConsistent(caches, custom)
    ensures sourceType.None? ==> r.0 == Failure(NullSourceType) && r.1 == caches
    ensures sourceType.Some? ==> r.0 == SelectorNames(Schema(sourceType.value), custom)
    ensures CachesConsistent(r.1, custom)
    ensures sourceType.Some? && r.0.Success? ==> Schema(sourceType.value) in r.1.selectorNames
  {
    if sourceType.None? then (Failure(NullSourceType), caches)
    else
      var t := sourceType.value;
      var schema := if t in caches.schemae then caches.schemae[t] else Schema(t);
      var schemae := caches.schemae[t := schema];
      if schema in caches.selectorNames then (Success(caches.selectorNames[schema]), Caches(schemae, caches.selectorNames))
      else match SelectorNames(schema, custom)
        case Failure(e) => (Failure(e), Caches(schemae, caches.selectorNames))
        case Success(names) => (Success(names), Caches(schemae, caches.selectorNames[schema := names]))
  }

  /** Source types that resolve to the same schema share one table, whatever the caches hold. */
  lemma SharedSchemaSharesNames(t1: EnumType, t2: EnumType, caches: Caches, custom: (string, seq<Literal>) -> SelectorMap)
    requires CachesConsistent(caches, custom) && Schema(t1) == Schema(t2)
    ensures var (r1, c1) := GetSelectorNames(Some(t1), caches, custom);
            r1 == GetSelectorNames(Some(t2), c1, custom).0
  {
  }

  /** The default strategy names exactly the constants of the schema's member types, of one enum or several. */
  lemma DefaultStrategyNamesAllSources(schema: SchemaTag)
    ensures forall x :: x in GenerateSelectors(Sources(schema)) <==> x.owner in schema.members && x.constant in x.owner.constants
  {
  }

  /** Without a `JcrSchema` anywhere around it, a type's selector names cover exactly its own constants. */
  lemma ImplicitSchemaCoversOwnConstants(t: EnumType)
    requires forall j :: 0 <= j < |t.chain| ==> t.chain[j].schema.None?
    ensures forall x :: x in GenerateSelectors(Sources(Schema(t))) <==> x.owner == t && x.constant in t.constants
  {
    assert FindSchema(t.chain).None?;
    DefaultStrategyNamesAllSources(Schema(t));
  }

  /** An explicit schema that does not list the source type leaves the type's own constants unnamed. */
  lemma ExplicitSchemaMayOmitSource(t: EnumType, c: Constant)
    requires FindSchema(t.chain).Some? && t !in Schema(t).members
    ensures Literal(t, c) !in Sources(Schema(t))
  {
  }

  /** The implicit schema holds one enum, so even the TreeMap of the source copes with it. */
  lemma ImplicitSchemaIsSingleEnum(t: EnumType)
    ensures SingleEnum(Sources(ImplicitSchema(t)))
  {
  }

  /**
   * A schema naming two enums makes the TreeMap of the source throw: the two one-constant enums
   * below cannot share a selector table as written.
   */
  lemma TwoEnumSchemaFails(a: EnumType, b: EnumType)
    requires a != b && |a.constants| > 0 && |b.constants| > 0
    ensures !SingleEnum(Sources(SchemaTag([a, b], DefaultStrategy)))
    ensures GenerateSelectorsAsWritten(Sources(SchemaTag([a, b], DefaultStrategy))) == Failure(ClassCast)
  {
    var sources := Sources(SchemaTag([a, b], DefaultStrategy));
    var la, lb := Literal(a, a.constants[0]), Literal(b, b.constants[0]);
    assert la in sources && lb in sources;
    var i :| 0 <= i < |sources| && sources[i] == la;
    var j :| 0 <= j < |sources| && sources[j] == lb;
  }

  /** Two different sources without digit tokens get different selector names, in either order. */
  lemma SelectorsApart(sources: seq<Literal>, x: Literal, y: Literal)
    requires NoDuplicates(sources) && x in sources && y in sources && x != y
    requires NoDigitTokens(x.constant.name) && NoDigitTokens(y.constant.name)
    ensures GenerateSelectors(sources)[x] != GenerateSelectors(sources)[y]
  {
    var i :| 0 <= i < |sources| && sources[i] == x;
    var j :| 0 <= j < |sources| && sources[j] == y;
    if i < j {
      NamesDistinct(sources, i, j);
    } else {
      NamesDistinct(sources, j, i);
    }
  }

  /**
   * Two enums that differ only in their package, such as com.a.Status and com.b.Status with the
   * same constants: the schema keeps the constants of both, the source's TreeMap throws on them,
   * and the corrected generation names them apart.
   */
  lemma SameSimpleNameDifferentPackages(a: EnumType, b: EnumType)
    requires a.chain == b.chain && a.constants == b.constants && a.packageName != b.packageName
    requires |a.constants| > 0 && NoDigitTokens(a.constants[0].name)
    ensures var sources := Sources(SchemaTag([a, b], DefaultStrategy));
            && Literal(a, a.constants[0]) in sources
            && Literal(b, a.constants[0]) in sources
            && GenerateSelectorsAsWritten(sources) == Failure(ClassCast)
            && GenerateSelectors(sources)[Literal(a, a.constants[0])] != GenerateSelectors(sources)[Literal(b, a.constants[0])]
  {
    var sources := Sources(SchemaTag([a, b], DefaultStrategy));
    TwoEnumSchemaFails(a, b);
    SelectorsApart(sources, Literal(a, a.constants[0]), Literal(b, a.constants[0]));
  }

  /* ---------------- jcrbox.JcrNode.selectorName ---------------- */

  /** The first character of the lower-cased name. */
  function Mnemonic(c: Constant): (r: string)
    ensures |r| == 1 && r <= LowerCase(c.name)
  {
    LowerCase(c.name)[..1]
  }

  /** How many constants share this mnemonic. */
  function MnemonicCount(constants: seq<Constant>, m: string): nat
    decreases |constants|
  {
    if |constants| == 0 then 0
    else (if Mnemonic(constants[0]) == m then 1 else 0) + MnemonicCount(constants[1..], m)
  }

  /** The mnemonic when no other constant of the enum shares it, else the whole lower-cased name. */
  function SelectorNameAmong(constants: seq<Constant>, c: Constant): (r: string)
    ensures r == Mnemonic(c) || r == LowerCase(c.name)
    ensures r <= LowerCase(c.name)
  {
    if MnemonicCount(constants, Mnemonic(c)) == 1 then Mnemonic(c) else LowerCase(c.name)
  }

  /** Why the older selectorName cannot answer. */
  datatype LegacyError = NullPointer

  /**
   * selectorName as written: the constants come from getClass().getEnumConstants(), which is null
   * for the anonymous class of a constant with a body, so Stream.of throws.
   */
  function LegacySelectorNameAsWritten(lit: Literal): (r: Result<string, LegacyError>)
    ensures r.Failure? <==> lit.constant.hasBody
    ensures r.Success? ==> r.value == LegacySelectorName(lit)
  {
    if lit.constant.hasBody then Failure(NullPointer) else Success(SelectorNameAmong(lit.owner.constants, lit.constant))
  }

  /** selectorName reading the constants of the declaring enum, as getDeclaringClass() would give them. */
  function LegacySelectorName(lit: Literal): (r: string)
    ensures r <= LowerCase(lit.constant.name)
  {
    SelectorNameAmong(lit.owner.constants, lit.constant)
  }

  /** A constant with a body has no selector name as written. */
  lemma LegacySelectorNameFailsWithBody(lit: Literal)
    requires lit.constant.hasBody
    ensures LegacySelectorNameAsWritten(lit) == Failure(NullPointer)
  {
  }

  lemma {:induction false} MnemonicCountTwo(constants: seq<Constant>, i: nat, j: nat, m: string)
    requires i < j < |constants| && Mnemonic(constants[i]) == m && Mnemonic(constants[j]) == m
    ensures MnemonicCount(constants, m) >= 2
    decreases |constants|
  {
    if i > 0 {
      MnemonicCountTwo(constants[1..], i - 1, j - 1, m);
    } else {
      MnemonicCountOne(constants[1..], j - 1, m);
    }
  }

  lemma {:induction false} MnemonicCountOne(constants: seq<Constant>, j: nat, m: string)
    requires j < |constants| && Mnemonic(constants[j]) == m
    ensures MnemonicCount(constants, m) >= 1
    decreases |constants|
  {
    if j > 0 {
      MnemonicCountOne(constants[1..], j - 1, m);
    }
  }

  lemma {:induction false} MnemonicCountNone(constants: seq<Constant>, m: string)
    requires forall k :: 0 <= k < |constants| ==> Mnemonic(constants[k]) != m
    ensures MnemonicCount(constants, m) == 0
    decreases |constants|
  {
    if |constants| > 0 {
      MnemonicCountNone(constants[1..], m);
    }
  }

  lemma {:induction false} MnemonicCountAtMostOne(constants: seq<Constant>, i: nat, m: string)
    requires i < |constants|
    requires forall k :: 0 <= k < |constants| && k != i ==> Mnemonic(constants[k]) != m
    ensures MnemonicCount(constants, m) <= 1
    decreases |constants|
  {
    if i > 0 {
      MnemonicCountAtMostOne(constants[1..], i - 1, m);
    } else {
      MnemonicCountNone(constants[1..], m);
    }
  }

  /**
   * The rule of selectorName, both ways: the i-th constant of an enum is named by its one-letter
   * mnemonic when no other constant of the enum shares that mnemonic, and by its whole lower-cased
   * name when another one does.
   */
  lemma LegacySelectorNameRule(e: EnumType, i: nat)
    requires i < |e.constants|
    ensures (forall j :: 0 <= j < |e.constants| && j != i ==> Mnemonic(e.constants[j]) != Mnemonic(e.constants[i])) ==>
      SelectorNameAmong(e.constants, e.constants[i]) == Mnemonic(e.constants[i])
      && LegacySelectorName(Literal(e, e.constants[i])) == Mnemonic(e.constants[i])
    ensures (exists j :: 0 <= j < |e.constants| && j != i && Mnemonic(e.constants[j]) == Mnemonic(e.constants[i])) ==>
      SelectorNameAmong(e.constants, e.constants[i]) == LowerCase(e.constants[i].name)
      && LegacySelectorName(Literal(e, e.constants[i])) == LowerCase(e.constants[i].name)
  {
    var cs, m := e.constants, Mnemonic(e.constants[i]);
    if exists j :: 0 <= j < |cs| && j != i && Mnemonic(cs[j]) == m {
      var j :| 0 <= j < |cs| && j != i && Mnemonic(cs[j]) == m;
      if i < j {
        MnemonicCountTwo(cs, i, j, m);
      } else {
        MnemonicCountTwo(cs, j, i, m);
      }
    } else {
      MnemonicCountOne(cs, i, m);
      MnemonicCountAtMostOne(cs, i, m);
    }
  }

  /** Two constants of an enum whose lower-cased names differ get different selector names. */
  lemma LegacySelectorNamesDistinct(e: EnumType, i: nat, j: nat)
    requires i < |e.constants| && j < |e.constants| && i != j
    requires LowerCase(e.constants[i].name) != LowerCase(e.constants[j].name)
    ensures SelectorNameAmong(e.constants, e.constants[i]) != SelectorNameAmong(e.constants, e.constants[j])
  {
    var ci, cj := e.constants[i], e.constants[j];
    var ri, rj := SelectorNameAmong(e.constants, ci), SelectorNameAmong(e.constants, cj);
    if ri == rj {
      if ri == Mnemonic(ci) || rj == Mnemonic(cj) {
        assert Mnemonic(ci) == Mnemonic(cj) by {
          if ri == Mnemonic(ci) && rj == LowerCase(cj.name) {
            assert |LowerCase(cj.name)| == 1;
            assert Mnemonic(cj) == LowerCase(cj.name)[..1] == LowerCase(cj.name);
          } else if rj == Mnemonic(cj) && ri == LowerCase(ci.name) {
            assert |LowerCase(ci.name)| == 1;
            assert Mnemonic(ci) == LowerCase(ci.name)[..1] == LowerCase(ci.name);
          }
        }
        if i < j { MnemonicCountTwo(e.constants, i, j, Mnemonic(ci)); }
        else { MnemonicCountTwo(e.constants, j, i, Mnemonic(ci)); }
      }
    }
  }
}

=== FILE: text.dfy ===
/**
 * The pieces of the Java and Apache Commons string library that the core relies on:
 * US-locale case mapping (restricted to ASCII), String.trim, StringUtils.isBlank,
 * Stream.distinct and Collectors.joining.
 */
module Text {

  /* ---------------- ASCII case mapping ---------------- */

  predicate IsUpper(c: char) {
    'A' <= c <= 'Z'
  }

  predicate IsLower(c: char) {
    'a' <= c <= 'z'
  }

  predicate IsDigit(c: char) {
    '0' <= c <= '9'
  }

  /** Character.toLowerCase for ASCII letters; every other character is left alone. */
  function ToLower(c: char): (r: char)
    ensures IsUpper(c) ==> IsLower(r)
    ensures !IsUpper(c) ==> r == c
    ensures IsDigit(r) <==> IsDigit(c)
  {
    if IsUpper(c) then (c as int - 'A' as int + 'a' as int) as char else c
  }

  /** Character.toUpperCase for ASCII letters; every other character is left alone. */
  function ToUpper(c: char): (r: char)
    ensures IsLower(c) ==> IsUpper(r)
    ensures !IsLower(c) ==> r == c
  {
    if IsLower(c) then (c as int - 'a' as int + 'A' as int) as char else c
  }

  /** Upper- and lower-casing a letter only changes its case. */
  lemma CaseRoundTrip(c: char)
    ensures ToLower(ToUpper(c)) == ToLower(c)
    ensures ToLower(ToLower(c)) == ToLower(c)
  {
  }

  /** String.toLowerCase(Locale.US), on ASCII. */
  function LowerCase(s: string): (r: string)
    ensures |r| == |s|
    ensures forall i :: 0 <= i < |s| ==> r[i] == ToLower(s[i])
  {
    seq(|s|, i requires 0 <= i < |s| => ToLower(s[i]))
  }

  lemma LowerCaseAppend(a: string, b: string)
    ensures LowerCase(a + b) == LowerCase(a) + LowerCase(b)
  {
  }

  /* ---------------- Sequence facts used by the scans ---------------- */

  lemma ConcatAssoc<T>(a: seq<T>, b: seq<T>, c: seq<T>)
    ensures a + (b + c) == (a + b) + c
  {
  }

  lemma ConcatTail<T>(a: seq<T>, b: seq<T>)
    requires |a| > 0
    ensures (a + b)[0] == a[0] && (a + b)[1..] == a[1..] + b
  {
  }

  /* ---------------- String.trim and StringUtils.isBlank ---------------- */

  /** String.trim removes every leading and trailing character whose code point is at most U+0020. */
  predicate IsTrimmable(c: char) {
    c <= ' '
  }

  predicate IsTrimmed(s: string) {
    |s| == 0 || (!IsTrimmable(s[0]) && !IsTrimmable(s[|s| - 1]))
  }

  function TrimStart(s: string, i: nat): (k: nat)
    requires i <= |s|
    ensures i <= k <= |s|
    ensures k < |s| ==> !IsTrimmable(s[k])
    decreases |s| - i
  {
    if i == |s| || !IsTrimmable(s[i]) then i else TrimStart(s, i + 1)
  }

  function TrimEnd(s: string, lo: nat, j: nat): (k: nat)
    requires lo <= j <= |s|
    ensures lo <= k <= j
    ensures k == lo && lo < j ==> IsTrimmable(s[lo])
    ensures k > lo ==> !IsTrimmable(s[k - 1])
    decreases j
  {
    if j == lo || !IsTrimmable(s[j - 1]) then j else TrimEnd(s, lo, j - 1)
  }

  /** String.trim. */
  function Trim(s: string): (r: string)
    ensures IsTrimmed(r)
    ensures IsTrimmed(s) ==> r == s
    ensures exists lo, hi :: 0 <= lo <= hi <= |s| && r == s[lo..hi]
  {
    var lo := TrimStart(s, 0);
    var hi := TrimEnd(s, lo, |s|);
    assert lo < |s| ==> hi > lo;
    s[lo..hi]
  }

  /** TrimStart passes over trimmable characters only. */
  lemma {:induction false} TrimStartSkipsTrimmable(s: string, i: nat)
    requires i <= |s|
    ensures forall k :: i <= k < TrimStart(s, i) ==> IsTrimmable(s[k])
    decreases |s| - i
  {
    if i < |s| && IsTrimmable(s[i]) {
      TrimStartSkipsTrimmable(s, i + 1);
    }
  }

  /** TrimEnd passes over trimmable characters only. */
  lemma {:induction false} TrimEndSkipsTrimmable(s: string, lo: nat, j: nat)
    requires lo <= j <= |s|
    ensures forall k :: TrimEnd(s, lo, j) <= k < j ==> IsTrimmable(s[k])
    decreases j
  {
    if j > lo && IsTrimmable(s[j - 1]) {
      TrimEndSkipsTrimmable(s, lo, j - 1);
    }
  }

  /**
   * String.trim removes exactly the leading and trailing characters up to U+0020: the result is the
   * slice between the first and the last character above U+0020, and everything outside it is
   * trimmable.
   */
  lemma TrimRemovesOnlyEnds(s: string)
    ensures var lo := TrimStart(s, 0);
            var hi := TrimEnd(s, lo, |s|);
            && Trim(s) == s[lo..hi]
            && (forall k :: 0 <= k < lo ==> IsTrimmable(s[k]))
            && (forall k :: hi <= k < |s| ==> IsTrimmable(s[k]))
  {
    var lo := TrimStart(s, 0);
    TrimStartSkipsTrimmable(s, 0);
    TrimEndSkipsTrimmable(s, lo, |s|);
  }

  lemma TrimIdempotent(s: string)
    ensures Trim(Trim(s)) == Trim(s)
  {
  }

  /** StringUtils.trimToEmpty: null becomes "", anything else is trimmed. */
  function TrimToEmpty(s: Option<string>): (r: string)
    ensures IsTrimmed(r)
    ensures s.None? ==> r == ""
    ensures s.Some? ==> r == Trim(s.value)
  {
    match s
    case None => ""
    case Some(v) => Trim(v)
  }

  /** Character.isWhitespace, restricted to ASCII. */
  predicate IsWhitespace(c: char) {
    c == ' ' || '\t' <= c <= '\r' || '\U{1C}' <= c <= '\U{1F}'
  }

  /** StringUtils.isBlank for a non-null string. */
  predicate IsBlank(s: string) {
    forall i :: 0 <= i < |s| ==> IsWhitespace(s[i])
  }

  /** On a trimmed string, being blank and being empty coincide. */
  lemma TrimmedBlankIsEmpty(s: string)
    requires IsTrimmed(s)
    ensures IsBlank(s) <==> s == ""
  {
    if |s| > 0 {
      assert !IsWhitespace(s[0]);
    }
  }

  /* ---------------- Stream.distinct ---------------- */

  predicate NoDuplicates<T(==)>(s: seq<T>) {
    forall i, j :: 0 <= i < j < |s| ==> s[i] != s[j]
  }

  /** Stream.map: one image per element, in order. */
  function Map<T, U>(xs: seq<T>, f: T -> U): (r: seq<U>)
    ensures |r| == |xs|
    ensures forall i :: 0 <= i < |xs| ==> r[i] == f(xs[i])
  {
    seq(|xs|, i requires 0 <= i < |xs| => f(xs[i]))
  }

  /**
   * Stream.distinct on an ordered stream: the elements of `s`, each kept at its
   * first occurrence, in encounter order.
   */
  function Distinct<T(==,!new)>(s: seq<T>): (r: seq<T>)
    ensures forall x :: x in r <==> x in s
    ensures NoDuplicates(r)
    ensures |r| <= |s|
    decreases |s|
  {
    if |s| == 0 then []
    else
      var init := s[..|s| - 1];
      var last := s[|s| - 1];
      assert s == init + [last];
      var d := Distinct(init);
      if last in d then d else d + [last]
  }

  /** A list that is already free of duplicates passes through unchanged. */
  lemma {:induction false} DistinctOfDistinct<T(!new)>(s: seq<T>)
    requires NoDuplicates(s)
    ensures Distinct(s) == s
    decreases |s|
  {
    if |s| > 0 {
      var init := s[..|s| - 1];
      DistinctOfDistinct(init);
      assert s[|s| - 1] !in init;
      assert init + [s[|s| - 1]] == s;
    }
  }

  /** Appending elements never disturbs the distinct prefix already produced. */
  lemma {:induction false} DistinctPrefix<T(!new)>(a: seq<T>, b: seq<T>)
    ensures Distinct(a) <= Distinct(a + b)
    decreases |b|
  {
    if |b| == 0 {
      assert a + b == a;
    } else {
      var b' := b[..|b| - 1];
      DistinctPrefix(a, b');
      assert (a + b)[..|a + b| - 1] == a + b';
    }
  }

  /**
   * Distinct(a + b) lists Distinct(a) first, followed by exactly those elements of
   * `b` that do not occur in `a`.
   */
  lemma {:induction false} DistinctConcat<T(!new)>(a: seq<T>, b: seq<T>)
    ensures Distinct(a) <= Distinct(a + b)
    ensures forall x :: x in Distinct(a + b)[|Distinct(a)|..] <==> x in b && x !in a
  {
    DistinctPrefix(a, b);
    forall x | x in Distinct(a + b)[|Distinct(a)|..]
      ensures x in b && x !in a
    {
      DistinctTailFromB(a, b, x);
    }
    forall x | x in b && x !in a
      ensures x in Distinct(a + b)[|Distinct(a)|..]
    {
      DistinctTailHasB(a, b, x);
    }
  }

  lemma {:induction false} DistinctTailFromB<T(!new)>(a: seq<T>, b: seq<T>, x: T)
    requires Distinct(a) <= Distinct(a + b)
    requires x in Distinct(a + b)[|Distinct(a)|..]
    ensures x in b && x !in a
  {
    var d := Distinct(a + b);
    var da := Distinct(a);
    var k := |da|;
    var j :| 0 <= j < |d| - k && d[k..][j] == x;
    assert d[k + j] == x;
    assert x !in a;
    assert x in a + b;
  }

  lemma {:induction false} DistinctTailHasB<T(!new)>(a: seq<T>, b: seq<T>, x: T)
    requires Distinct(a) <= Distinct(a + b)
    requires x in b && x !in a
    ensures x in Distinct(a + b)[|Distinct(a)|..]
  {
    var d := Distinct(a + b);
    var da := Distinct(a);
    var k := |da|;
    assert d == da + d[k..];
    assert x in a + b;
    assert x in d;
    assert x !in da;
  }

  /* ---------------- Collectors.joining ---------------- */

  /** Collectors.joining(sep): the parts with `sep` between neighbours. */
  function Join(parts: seq<string>, sep: string): (r: string)
    ensures |parts| == 0 ==> r == ""
    ensures |parts| == 1 ==> r == parts[0]
    decreases |parts|
  {
    if |parts| == 0 then ""
    else if |parts| == 1 then parts[0]
    else parts[0] + sep + Join(parts[1..], sep)
  }

  /** Concatenation of every string in order (Collectors.joining()). */
  function Concat(parts: seq<string>): (r: string)
    ensures |parts| == 0 ==> r == ""
    decreases |parts|
  {
    if |parts| == 0 then "" else parts[0] + Concat(parts[1..])
  }

  /* ---------------- Integer.toString ---------------- */

  /** The decimal digit for 0..9. */
  function DigitChar(d: nat): (c: char)
    requires d < 10
    ensures IsDigit(c)
  {
    ('0' as int + d) as char
  }

  /** The value of a decimal digit. */
  function DigitValue(c: char): (d: nat)
    requires IsDigit(c)
    ensures d < 10 && DigitChar(d) == c
  {
    c as int - '0' as int
  }

  /** The decimal text of a non-negative number, as string concatenation renders an int. */
  function DecimalString(n: nat): (r: string)
    ensures |r| > 0
    ensures forall i :: 0 <= i < |r| ==> IsDigit(r[i])
  {
    if n < 10 then [DigitChar(n)] else DecimalString(n / 10) + [DigitChar(n % 10)]
  }

  /** Reading decimal digits back, most significant first. */
  function ParseDecimal(s: string): nat
    requires forall i :: 0 <= i < |s| ==> IsDigit(s[i])
  {
    if |s| == 0 then 0 else ParseDecimal(s[..|s| - 1]) * 10 + DigitValue(s[|s| - 1])
  }

  /** ParseDecimal undoes DecimalString. */
  lemma {:induction false} DecimalRoundTrip(n: nat)
    ensures ParseDecimal(DecimalString(n)) == n
  {
    var r := DecimalString(n);
    if n >= 10 {
      var front := DecimalString(n / 10);
      assert r[..|r| - 1] == front;
      DecimalRoundTrip(n / 10);
      assert DigitValue(r[|r| - 1]) == n % 10 by {
        assert DigitChar(DigitValue(r[|r| - 1])) == DigitChar(n % 10);
      }
    } else {
      assert r[..0] == [];
      assert DigitChar(DigitValue(r[0])) == DigitChar(n);
    }
  }

  /** Different numbers have different decimal texts. */
  lemma DecimalInjective(a: nat, b: nat)
    requires DecimalString(a) == DecimalString(b)
    ensures a == b
  {
    DecimalRoundTrip(a);
    DecimalRoundTrip(b);
  }

  import opened Wrappers
}

=== FILE: wrappers.dfy ===
/** Option and Result, the model's stand-ins for Java's nullable references and thrown exceptions. */
module Wrappers {

  /** A Java reference that may be null. */
  datatype Option<+T> = None | Some(value: T) {

    predicate IsFailure() {
      None?
    }

    function PropagateFailure<U>(): Option<U>
      requires None?
    {
      None
    }

    function Extract(): T
      requires Some?
    {
      value
    }

    function GetOr(default: T): T {
      match this
      case Some(v) => v
      case None => default
    }
  }

  /** Either a computed value or the exception that Java would have thrown instead. */
  datatype Result<+R, +E> = Success(value: R) | Failure(error: E) {

    predicate IsFailure() {
      Failure?
    }

    function PropagateFailure<U>(): Result<U, E>
      requires Failure?
    {
      Failure(error)
    }

    function Extract(): R
      requires Success?
    {
      value
    }
  }
}
